=== FILE: README.md ===
# Spotify listening analytics, modelled in Dafny

This project models the analytics core of a playlist-promotion tracker. An
artist shares a short tracking link for a Spotify playlist. Listeners who
follow it connect their Spotify account through OAuth. A daily job then
polls each connection's recently-played tracks, stores new plays without
duplicates, and re-derives listening sessions. Dashboard queries turn the
stored plays, sessions and day aggregates into link and listener metrics and
cohort retention tables.

The database is replaced by immutable in-memory tables (`Store.Db`: one
sequence per table, with sessions kept per connection). Each route and
library function becomes a pure function or a small method over those
tables:

| module | file | models |
|---|---|---|
| `Common` | common.dfy | optional values, order-keeping `Filter`, a stable descending sort, counting by injection |
| `Time` | time.dfy | Copenhagen day keys and the N-day key lists (`src/lib/time.ts`) |
| `Sessions` | sessions.dfy | session derivation and the super-listener rules (`src/lib/sessions.ts`) |
| `Store` | store.dfy | entities, the cron-key gate, the 45-day window, unique-key lookups |
| `PollRecentlyPlayed` | poll.dfy | the daily polling job (`src/app/api/jobs/poll-recently-played/route.ts`) |
| `RetentionSweep` | retention.dfy | the 45-day retention sweep (`src/app/api/jobs/retention-sweep/route.ts`) |
| `JsString` | jsstring.dfy | `String.prototype.trim`, `split(sep)[0]`, UTF-16 code units, JavaScript falsiness |
| `OAuthCallback` | callback.dfy | the OAuth callback (`src/app/api/oauth/callback/route.ts`) |
| `ShortId` | shortid.dfy | tracking-link short ids (`src/lib/shortid.ts`) |
| `Cookies` | cookies.dfy | IP hashing, client-IP headers, UTM extraction (`src/lib/cookies.ts`) |
| `LinksRoute` | links.dfy | link creation and listing (`src/app/api/links/route.ts`) |
| `NewLinkPage` | newlinkpage.dfy | the new-link form's guards (`src/app/links/new/page.tsx`) |
| `Metrics` | metrics.dfy | the dashboard queries (`src/lib/metrics.ts`) |

Conventions:

- Instants are integer milliseconds since the epoch.
- One day is a fixed step of `DAY_MS` = 86 400 000 ms.
- The zone shift (`toZonedTime`) and the local-midnight truncation
  (`startOfDay`) stay abstract, as the two functions in `Time.Zone`.
- `copenhagenToUtc` is the identity in the code. So a day key is local
  midnight read as a UTC instant, and the model keeps it that way
  (`Time.DayKeyAppliesNoInverseShift`).
- A UTC calendar date (`toISOString().split('T')[0]`) is a day number,
  `Time.UtcDateOf`.
- Spotify, the OAuth state decoder, the slug generator and the clock are
  parameters: `Upstream`, `Spotify`, `decode`, `gen`/`pick` and `now`.
- Floating-point minutes and rates are exact `real`s.

Four behaviours of the code are easy to misread. The model keeps the first
two as written; for the last two it keeps the code as written beside the
intended behaviour:

- The last-7-days window stops at today's day key (`lte`), not at the end of
  today (`Metrics.Last7Window`, `Metrics.PlayAfterTodaysKeyIsNotCounted`).
- The retention rate is a percentage in [0, 100], not a fraction in [0, 1]
  (`Metrics.RetentionRate`).
- The cohort query does not fetch every connection that joined on a day of
  the range. It fetches only those that joined at a day key's exact instant.
  This is listed under Findings. The model's cohort table uses the intended
  fetch.
- After refreshing an expired token, the polling job still sends the old
  access token to the recently-played endpoint. This is listed under
  Findings. The job is modelled with both requests, `AsWritten` and
  `Corrected` (`PollRecentlyPlayed.TokenUse`).

## Model

| member | source | states |
|---|---|---|
| Time.DayKeyAppliesNoInverseShift | src/lib/time.ts:16-29 | the UTC conversion is the identity, so a day key is the zone-shifted instant truncated to local midnight and nothing else; today's key is the same function applied to now |
| Time.IsTodayMeansSameKey | src/lib/time.ts:71-75 | an instant is "today" exactly when its truncated shifted instant equals now's; now itself is always today |
| Time.LastNDaysCopenhagen | src/lib/time.ts:80-89 | n keys, oldest first, one day apart, the last one today's key (none for n = 0) |
| Time.NextNDaysCopenhagen | src/lib/time.ts:94-103 | n keys starting the day after today, one day apart |
| Time.LastAndNextDaysAreContiguous | src/lib/time.ts:80-103 | the last-N list followed by the next-M list is one unbroken run of day steps, and every past key precedes every future key |
| Time.UtcDateOf | src/lib/metrics.ts:344 | the UTC calendar day containing the instant: the day's first millisecond is at or before it and the next day's after it |
| Sessions.ScanSplitsExactlyAtGaps | src/lib/sessions.ts:29-49 | the newest-first plays are cut into consecutive groups; inside a group every step is at most 30 minutes, and consecutive groups are more than 30 minutes apart, so exactly 30 minutes joins |
| Sessions.Scan | src/lib/sessions.ts:29-54 | the loop with a session in progress: the groups concatenate back to the session and the remaining plays, the session in progress starts the first group, every group is non-empty with steps of at most 30 minutes, and neighbouring groups are more than 30 minutes apart |
| Sessions.Groups | src/lib/sessions.ts:26-54 | the groups concatenate back to the sorted plays, none is empty, and there are none only for no plays |
| Sessions.CreateSessionFromPlays | src/lib/sessions.ts:62-89 | start and end are the earliest and latest play instants, the track count is the number of plays, minutes are total milliseconds over 60 000, and the super-listener flag is set exactly from 15 tracks |
| Sessions.SumMinutesIsTotalOverMinute | src/lib/sessions.ts:75-78 | the per-track `Math.min` of a value with itself caps nothing: the fold equals the whole duration in minutes |
| Sessions.GetTotalPlayDuration | src/lib/sessions.ts:132-137 | the total equals the summed duration in minutes and is never negative |
| Sessions.DeriveSessionsCountsEveryPlay | src/lib/sessions.ts:20-57 | every play lands in exactly one session: the track counts add up to the number of plays, and each session has at least one |
| Sessions.SessionOfOrderedGroup | src/lib/sessions.ts:67-71 | for a newest-first group, the session starts at its last play and ends at its first |
| Sessions.DeriveSessionsIsChronological | src/lib/sessions.ts:56 | after the reversal, sessions are oldest first, each starts no later than it ends, and each starts more than 30 minutes after the previous one ends |
| Sessions.DeriveSessions | src/lib/sessions.ts:20-57 | every derived session is flagged as a super session exactly when it holds at least 15 tracks |
| Sessions.SuperSessionNeedsFifteenPlays | src/lib/sessions.ts:98-102 | a super session can only come from at least 15 plays |
| Sessions.IsSuperListenerDay | src/lib/sessions.ts:95-106 | a super-listener day holds exactly when there are at least 15 plays, so no plays is never one; the session test adds nothing |
| PollRecentlyPlayed.IsNear | src/app/api/jobs/poll-recently-played/route.ts:119-127 | a stored play is a duplicate candidate exactly when it has the same connection and track and lies at most 5 minutes from the item either way |
| PollRecentlyPlayed.RecordPlay | src/app/api/jobs/poll-recently-played/route.ts:114-143 | an item is skipped exactly when a stored play of the same connection and track lies within 5 minutes either side; otherwise one play is appended with the item's fields and a match flag equal to playlist membership |
| PollRecentlyPlayed.RecordPlays | src/app/api/jobs/poll-recently-played/route.ts:113-146 | the stored plays are kept as a prefix; the count of added plays is exactly what is appended; afterwards every item of the batch is recorded |
| PollRecentlyPlayed.RecordPlaysKeepsNoNearDuplicates | src/app/api/jobs/poll-recently-played/route.ts:119-143 | when no two stored plays of a connection and track are within 5 minutes of each other, that still holds after a batch, even for plays added earlier in it |
| PollRecentlyPlayed.RecordingRecordedItemsAddsNothing | src/app/api/jobs/poll-recently-played/route.ts:119-132 | a batch whose items are all recorded adds nothing and changes nothing |
| PollRecentlyPlayed.RecordingABatchTwiceAddsNothing | src/app/api/jobs/poll-recently-played/route.ts:113-146 | processing the same batch again adds no play |
| PollRecentlyPlayed.NewestToken | src/app/api/jobs/poll-recently-played/route.ts:26-46 | the token used is one of the user's with the latest creation time, and there is none exactly when the user has no token |
| PollRecentlyPlayed.UpdateToken | src/app/api/jobs/poll-recently-played/route.ts:76-82 | only the refreshed token's access token and expiry change |
| PollRecentlyPlayed.StaleTokenAfterRefresh | src/app/api/jobs/poll-recently-played/route.ts:76-93 | after a refresh, the request as written carries the old access token, while the stored row and the corrected request carry the new one |
| PollRecentlyPlayed.StaleTokenFailsTheConnection | src/app/api/jobs/poll-recently-played/route.ts:76-93 | when Spotify answers only the refreshed token, the job as written takes the fetch-error path and stores no play, while the corrected job polls the connection |
| PollRecentlyPlayed.CorrectedRequestCarriesStoredToken | src/app/api/jobs/poll-recently-played/route.ts:76-93 | unless the refresh fails, the corrected request carries the access token that the token row holds after the connection is processed |
| PollRecentlyPlayed.PlayDataOf | src/app/api/jobs/poll-recently-played/route.ts:155-158 | each stored play becomes its instant and duration, in order |
| PollRecentlyPlayed.MarkPolled | src/app/api/jobs/poll-recently-played/route.ts:184-187 | only the processed connection's last-polled time changes |
| PollRecentlyPlayed.RecordAndDerive | src/app/api/jobs/poll-recently-played/route.ts:111-187 | after a non-empty batch the stored plays are kept as a prefix, the connection's sessions are exactly those derived from all its plays, the derived count is reported, the connection is stamped as polled, and nothing else in the store changes |
| PollRecentlyPlayed.ProcessConnection | src/app/api/jobs/poll-recently-played/route.ts:44-192 | the path taken is decided by the token snapshot, Spotify's answers and the link table: no token exactly when it is missing, a refresh error exactly when an expired token cannot be refreshed, a fetch error exactly when the request throws, no plays exactly for an empty answer, no link exactly when the link is missing, otherwise polled; every path but polled leaves plays, sessions and connections alone; a polled connection has its sessions replaced by those derived from all its plays, counted as derived, and is stamped as polled; plays only grow, by the added count, and only with plays of this connection; tokens change only by a successful refresh of an expired token; links, playlists, users and day rows never change |
| PollRecentlyPlayed.PolledConnectionHasPlays | src/app/api/jobs/poll-recently-played/route.ts:148-154 | after a non-empty batch the connection has stored plays, so sessions are always rewritten |
| PollRecentlyPlayed.Sweep | src/app/api/jobs/poll-recently-played/route.ts:44-193 | the error count is exactly the number of visited connections whose path is a refresh or fetch error; plays only grow, by the added count; links and playlists are untouched |
| PollRecentlyPlayed.ProcessConnectionLeavesOthersAlone | src/app/api/jobs/poll-recently-played/route.ts:113-187 | processing one connection changes neither the stored sessions nor the plays of any other connection |
| PollRecentlyPlayed.SweepLeavesOthersAlone | src/app/api/jobs/poll-recently-played/route.ts:44-193 | a sweep changes neither the stored sessions nor the plays of a connection it does not visit |
| PollRecentlyPlayed.SweepCountsDerivedSessions | src/app/api/jobs/poll-recently-played/route.ts:148-181 | with distinct connection ids, the derived-session count is the sum of the session counts stored for the polled connections, and each of them holds the sessions derived from all its plays at the end of the sweep |
| PollRecentlyPlayed.Poll | src/app/api/jobs/poll-recently-played/route.ts:7-205 | a wrong or missing cron key returns 401 and changes nothing; otherwise the processed count is the number of connections in the 45-day active window, the error count is the number of those whose path is a refresh or fetch error, and plays grow by the added count |
| PollRecentlyPlayed.PollCountsDerivedSessions | src/app/api/jobs/poll-recently-played/route.ts:148-202 | with unique connection ids, the summary's derived-session count is the sum of the session counts stored for the polled connections, each holding the sessions derived from all its plays |
| PollRecentlyPlayed.PollSelectsActiveWindow | src/app/api/jobs/poll-recently-played/route.ts:19-25 | exactly the active connections that joined at or after now minus 45 days are processed |
| PollRecentlyPlayed.SweepKeepsNoNearDuplicates | src/app/api/jobs/poll-recently-played/route.ts:44-193 | the whole job keeps the no-near-duplicate property of the play table |
| PollRecentlyPlayed.ProcessConnectionKeepsNoNearDuplicates | src/app/api/jobs/poll-recently-played/route.ts:113-146 | processing one connection keeps the no-near-duplicate property |
| RetentionSweep.ExpiredIds | src/app/api/jobs/retention-sweep/route.ts:17-30 | the selected ids are exactly those of active connections that joined before the cutoff |
| RetentionSweep.Deactivate | src/app/api/jobs/retention-sweep/route.ts:40-51 | selected connections become inactive with the end time set to now; all others stay as they were |
| RetentionSweep.Sweep | src/app/api/jobs/retention-sweep/route.ts:3-68 | 401 exactly for a wrong or missing key, and then nothing changes; "nothing expired" exactly when no connection is expired, and then nothing changes; plays and tokens are never touched |
| RetentionSweep.SweepExpiresExactlyTheExpired | src/app/api/jobs/retention-sweep/route.ts:15-59 | with unique connection ids, exactly the expired connections are closed, and the processed count is their number, which is positive |
| RetentionSweep.SweepIsIdempotent | src/app/api/jobs/retention-sweep/route.ts:17-51 | a second sweep at the same instant finds nothing to expire |
| RetentionSweep.IsExpired | src/app/api/jobs/retention-sweep/route.ts:15-24 | a connection is expired exactly when it is active and outside the polling job's 45-day window: at the same instant an active connection is either swept here or polled there, never both and never neither |
| OAuthCallback.ReplaceTokens | src/app/api/oauth/callback/route.ts:66-79 | the user keeps only the new token; other users' tokens survive |
| OAuthCallback.ReplacedTokenIsTheOnePolled | src/app/api/oauth/callback/route.ts:66-79 | after the replacement, the token the polling job picks for the user is the new one |
| OAuthCallback.PairIndex | src/app/api/oauth/callback/route.ts:82-88 | finds the connection of the (link, user) pair, or reports that there is none |
| OAuthCallback.UpsertConnection | src/app/api/oauth/callback/route.ts:81-100 | a new pair gets an active connection joined now with the click id; an existing pair keeps its id, join time, activity and end, gets the latest click id (kept when none is given), and has its polling mark cleared; no other connection changes |
| OAuthCallback.UpsertKeepsOneConnectionPerPair | src/app/api/oauth/callback/route.ts:82-88 | at most one connection per (link, user) pair before means the same after, and the pair then has one |
| OAuthCallback.UpsertClearsPollingMark | src/app/api/oauth/callback/route.ts:96-99 | after the upsert, the pair's connection has no last-polled time |
| OAuthCallback.ReconnectKeepsClosedConnectionClosed | src/app/api/oauth/callback/route.ts:96-99 | reconnecting through a link whose connection was swept leaves it inactive with its old join time |
| OAuthCallback.Callback | src/app/api/oauth/callback/route.ts:5-113 | 400 "missing parameters" exactly for a falsy code or state; "invalid state" exactly when the state does not decode; "invalid link" exactly when the decoded slug has no link; these write nothing; a failure after writes only for a link whose playlist is missing; links, playlists and plays are never touched; a redirect exactly when the state decodes, the slug is known, the exchange and the profile succeed and the playlist exists |
| OAuthCallback.CallbackSucceeds | src/app/api/oauth/callback/route.ts:44-104 | on the success path the redirect is to `/connected` with the slug and playlist id; the user table gains or overwrites exactly the profile's row (id, email, country, display name) and no other user changes; the new token is the user's polled token; the pair has one connection with polling reset |
| ShortId.AllInAlphabet | src/lib/shortid.ts:25-27 | true exactly when every character is in the alphabet |
| ShortId.IsValidShortId | src/lib/shortid.ts:20-30 | a valid id always has a UTF-16 length of exactly ten |
| ShortId.IsValidShortIdIff | src/lib/shortid.ts:20-30 | valid exactly when the id is ten characters long and every character is in the alphabet |
| ShortId.WrongLengthIsInvalid | src/lib/shortid.ts:22 | any `length` other than ten is invalid |
| ShortId.AlphabetMembers | src/lib/shortid.ts:4 | the alphabet is the digits 2-9 and the letters of both cases without I, O, l and o |
| ShortId.AlphabetFacts | src/lib/shortid.ts:4 | 56 pairwise different characters, none of 0, 1, I, O, l, o |
| ShortId.LookAlikeIsInvalid | src/lib/shortid.ts:4 | an id containing a look-alike character is never valid |
| ShortId.CreateTrackingLinkId | src/lib/shortid.ts:7-15 | whatever the generator picks, the id has ten characters and is valid |
| Cookies.ToInt32 | src/lib/cookies.ts:76 | the result is a signed 32-bit integer congruent to the input modulo 2^32 |
| Cookies.HashStepIsMultiplyAdd | src/lib/cookies.ts:73-76 | `(hash << 5) - hash + char` then `hash & hash` is 31·hash + char wrapped to signed 32 bits |
| Cookies.HashExtends | src/lib/cookies.ts:72-77 | one more code unit extends the hash by one such step |
| Cookies.HashUnits | src/lib/cookies.ts:72-77 | the hash loop over code units always stays a signed 32-bit integer |
| Cookies.ToBase36 | src/lib/cookies.ts:78 | at least one base-36 digit, no leading zero |
| Cookies.Base36RoundTrip | src/lib/cookies.ts:78 | reading the digits back gives the number |
| Cookies.Base36Injective | src/lib/cookies.ts:78 | different numbers give different digit strings |
| Cookies.HashIpAddress | src/lib/cookies.ts:70-79 | the loop computes the fold of the step over the string's UTF-16 code units; the result is "ip_" followed by the base-36 digits of its absolute value |
| Cookies.HashIpAddressFacts | src/lib/cookies.ts:72-78 | the empty string hashes to "ip_0"; the hash is a signed 32-bit value whose digits read back to its absolute value |
| Cookies.FirstForwardedEntry | src/lib/cookies.ts:91 | the trimmed text before the first comma, which has no comma itself |
| Cookies.GetClientIp | src/lib/cookies.ts:84-103 | the first truthy header of x-forwarded-for, x-real-ip and cf-connecting-ip wins, the forwarded one reduced to its first entry; null only when all three are falsy |
| Cookies.ForwardedChainGivesClient | src/lib/cookies.ts:90-92 | for "client, proxies" with a client address that has no comma and no surrounding white space, the result is the client address |
| Cookies.QueryGet | src/lib/cookies.ts:57-58 | `searchParams.get` returns the value of the first pair with the key, and null exactly when no pair has it |
| Cookies.CollectParams | src/lib/cookies.ts:57-62 | a key is copied exactly when it is one of the listed keys with a truthy value, and the copied value is the parameter's first value |
| Cookies.ExtractUtmParams | src/lib/cookies.ts:50-65 | keys are among the five utm_* keys; each value is the parameter's first value copied verbatim; a key is present exactly when its value is truthy |
| Cookies.UtmIgnoresOtherParams | src/lib/cookies.ts:50-65 | appending parameters that are not utm_* keys changes nothing |
| JsString.Trim | src/lib/cookies.ts:91 | the result is a slice of the input with only white space cut off both ends, and it neither starts nor ends with white space |
| JsString.TrimIsIdempotent | src/app/links/new/page.tsx:56 | trimming twice is trimming once |
| JsString.TrimIsEmptyIffAllWhitespace | src/app/links/new/page.tsx:17 | the trimmed string is empty exactly when the input is all white space |
| JsString.BeforeFirst | src/lib/cookies.ts:91 | `split(sep)[0]`: the longest prefix without the separator, followed by it when not the whole string |
| JsString.Utf16 | src/lib/cookies.ts:72-73 | the `charCodeAt` sequence: at least one code unit per character, each below 0x10000 |
| JsString.CodeUnits | src/lib/cookies.ts:73 | one code unit below 0x10000, otherwise a surrogate pair that decodes back to the code point |
| JsString.Utf16LengthOfBmp | src/lib/shortid.ts:22 | for characters below 0x10000, `length` counts characters and each code unit is the character |
| JsString.Utf16LengthOfAstral | src/lib/shortid.ts:22 | a character above 0xFFFF makes `length` exceed the character count |
| Common.FindFirst | src/app/api/oauth/callback/route.ts:32-35 | the unique-key lookups: nothing exactly when no row matches, otherwise the first matching row |
| Store.CronKeyAccepted | src/app/api/jobs/poll-recently-played/route.ts:9-10 | a job request passes exactly when the configured key is set and the header carries it; with no key configured nothing passes |
| LinksRoute.IdRun | src/app/api/links/route.ts:18 | the greedy `[a-zA-Z0-9]+` run: a prefix of id characters followed by the end or a non-id character |
| LinksRoute.FirstMatch | src/app/api/links/route.ts:18 | the leftmost position where "playlist/" is followed by an id character |
| LinksRoute.MatchPlaylistId | src/app/api/links/route.ts:18-26 | no capture exactly when no "playlist/" is followed by an id character; otherwise a capture at a match position |
| LinksRoute.CaptureIsUnique | src/app/api/links/route.ts:18 | a URL has at most one capture: same position, same id |
| LinksRoute.MatchPlaylistIdIsTheCapture | src/app/api/links/route.ts:18-26 | the extraction returns an id exactly when that id is the URL's capture |
| LinksRoute.ParseCreateRequest | src/app/api/links/route.ts:8-26 | "URL required" exactly for a falsy URL; "invalid URL" exactly when nothing is captured; otherwise the capture |
| LinksRoute.EnsurePlaylist | src/app/api/links/route.ts:28-65 | an existing playlist with the Spotify id is reused and nothing is written; otherwise the placeholder "Playlist <id>" by "Spotify User" is appended |
| LinksRoute.EnsurePlaylistIsIdempotent | src/app/api/links/route.ts:28-47 | a second request for the same playlist reuses the first one's row |
| LinksRoute.FindPlaylistAfterAppend | src/app/api/links/route.ts:29-47 | a newly appended placeholder is the one later found by its Spotify id |
| LinksRoute.ChooseSlug | src/app/api/links/route.ts:67-76 | at most ten candidates are tried; the chosen one is the first free candidate; nothing is chosen exactly when all ten are taken |
| LinksRoute.StoredTitle | src/app/api/links/route.ts:83 | a falsy title is stored as null, any other as given |
| LinksRoute.CreateLink | src/app/api/links/route.ts:6-103 | the two 400s exactly for a missing URL and an uncaptured URL, with no writes; a 500 only when all ten slugs are taken; a created link has a free generated slug, the stored title, is active, joins the link table, points at a playlist with the captured id, and its URL is the base URL, "/" and the slug; the playlist table is the reused or extended one whenever the URL parses, also after the 500; the 500 adds no link; nothing outside the playlist and link tables changes |
| LinksRoute.ListActiveLinks | src/app/api/links/route.ts:106-120 | a permutation of the active links, each as often as in the table, newest first |
| NewLinkPage.ExtractPlaylistId | src/app/links/new/page.tsx:75-78 | '' exactly when no "playlist/" is followed by an id character; otherwise an all-alphanumeric capture of the URL |
| NewLinkPage.PageAndServerExtractTheSameId | src/app/links/new/page.tsx:76 | the page's result is the server's capture, and '' stands for the server's 400 |
| NewLinkPage.HandlePreview | src/app/links/new/page.tsx:16-27 | an all-white-space URL sets the error and fetches nothing; otherwise the preview asks for the id extracted from the untrimmed URL |
| NewLinkPage.HandleCreate | src/app/links/new/page.tsx:42-58 | an error exactly for an all-white-space URL or a missing preview; otherwise the trimmed URL is posted, with the trimmed title, or no title when it is blank |
| NewLinkPage.PageRequestsPassTheUrlCheck | src/app/links/new/page.tsx:52-58 | a request the page sends never gets "Playlist URL is required", and the stored title is the trimmed title or null |
| NewLinkPage.TrimKeepsPlaylistId | src/app/links/new/page.tsx:27-56 | trimming never changes the capture, so the previewed playlist is the one the link stores |
| Metrics.RoundMinutes | src/lib/metrics.ts:108 | the nearest whole number of minutes, a half minute rounding up |
| Metrics.SumDurations | src/lib/metrics.ts:77-83 | an empty sum is 0 and no single duration exceeds the total |
| Metrics.GetLinkMetrics | src/lib/metrics.ts:42-113 | the link's connections, the ones in the 45-day active window, its matched plays, their duration rounded to the nearest minute, the connections with a super-listener day, and the seven-day and recent sub-results |
| Metrics.LinkMetricsAreConsistent | src/lib/metrics.ts:53-178 | active, super and new connections are at most all connections; seven-day plays and super listeners are at most the all-time ones; seven-day listeners are at most seven-day plays |
| Metrics.Last7Window | src/lib/metrics.ts:119-121 | the window runs from six days before today's key to today's key itself |
| Metrics.Last7DaysMetrics | src/lib/metrics.ts:118-186 | the four counts over the window, both ends inclusive; with unique connection ids there are never more listeners than plays |
| Metrics.ListenersAtMostPlays | src/lib/metrics.ts:136-161 | each counted listener has a counted play of its own, so listeners never outnumber plays |
| Metrics.PlayAfterTodaysKeyIsNotCounted | src/lib/metrics.ts:152-161 | a matched play after today's key instant, even on the current day, adds nothing to the seven-day play count |
| Metrics.Newest | src/lib/metrics.ts:191-214 | at most ten of the link's connections from the last seven days, newest first, a sub-multiset of them; a recent connection left out is no newer than the last one kept, and fewer than ten means none was left out |
| Common.TopOfSortedPermutation | src/lib/metrics.ts:212-213 | the first n of a descending sort of a list are sorted, a sub-multiset of the list, and no left-out element is larger than the last one kept |
| Metrics.RecentConnections | src/lib/metrics.ts:216-222 | each row is one of the newest connections with the count of all its plays, matched or not, and 0 minutes; at most ten rows, in the window, newest first |
| Metrics.FindRow | src/lib/metrics.ts:243-245 | finds a stored row of the link for exactly that day key, or reports that none exists |
| Metrics.GetLinkDailyMetrics | src/lib/metrics.ts:228-258 | one row per key of the range, oldest first and one day apart; a day with a stored row shows it, any other day an all-zero row |
| Metrics.LatestPlay | src/lib/metrics.ts:271-302 | the latest instant among the plays, or nothing exactly when there are none |
| Metrics.GetUserMetrics | src/lib/metrics.ts:263-313 | the matched-play count, their duration rounded to the nearest minute, the latest matched play, the session count, the number of stored sessions flagged as super sessions, and whether any day row records a follow or a save |
| Metrics.LastActiveIsTheLatestMatchedPlay | src/lib/metrics.ts:266-302 | the last-active instant belongs to a matched play of the connection and no matched play is later; it is null exactly when there is none |
| Metrics.CohortFetchAsWritten | src/lib/metrics.ts:321-327 | the query as written fetches the link's connections whose join instant is exactly one of the day keys |
| Metrics.CohortFetchAsWrittenMissesMidDayJoins | src/lib/metrics.ts:321-327 | a connection that joined during a range day but not at its key instant is missed by the query as written and kept by the corrected one |
| Metrics.JoinAfterTodaysKeyIsNoKey | src/lib/metrics.ts:319-327 | every key of the range is at or before today's key, so a connection made after today's key instant is never matched by the query as written |
| Metrics.OneAmJoinIsOmitted | src/lib/metrics.ts:319-327 | with a UTC-like zone, a listener who joined at 01:00 today is in today's cohort but absent from the query as written |
| Metrics.CohortFetch | src/lib/metrics.ts:321-327 | the corrected fetch: the link's connections whose day key is one of the range's days |
| Metrics.GroupByCohort | src/lib/metrics.ts:341-351 | each cohort holds, in fetch order, exactly the fetched connections of its date and is not empty; dates are pairwise different; every connection has its cohort |
| Metrics.IndexOfCohort | src/lib/metrics.ts:346-350 | finds the cohort of a date, or reports that no cohort has it |
| Metrics.JoinExistingCohort | src/lib/metrics.ts:346-350 | appending a connection to the cohort of its date keeps the grouping exact |
| Metrics.OpenNewCohort | src/lib/metrics.ts:346-350 | a connection with a new date opens a new cohort at the end and keeps the grouping exact |
| Metrics.RetentionRate | src/lib/metrics.ts:366 | rate × cohort size = active users × 100; 0 for an empty cohort; within [0, 100] when active ≤ total |
| Metrics.RetentionOf | src/lib/metrics.ts:354-374 | one point per range day, each counting the cohort members with a day row on that UTC date, at most the cohort size, at a rate within [0, 100] |
| Metrics.GetCohortRetention | src/lib/metrics.ts:318-378 | one entry per cohort of the corrected fetch, in first-seen order |
| Metrics.CohortsPartitionTheFetch | src/lib/metrics.ts:341-374 | the cohorts partition the fetched connections: non-empty, date-distinct, each exactly the connections of its date, covering them all |
| Metrics.RetentionRatesAreBounded | src/lib/metrics.ts:355-368 | no day shows more active users than the cohort has, and every rate lies in [0, 100] |

## Left out

- Prisma and `Promise.all`: queries run one after another over in-memory sequences. Database failures, and the 500 responses they cause, are not modelled.
- Database tie order: rows with equal `orderBy` keys keep insertion order (`Common.SortDesc` is stable). Prisma leaves their order unspecified.
- Metrics.Newest: when connections share a join instant, which of them fill the last of the ten places is not pinned down beyond "no newer than the last one kept".
- Metrics.GetLinkDailyMetrics: the `orderBy: { day: 'asc' }` is not modelled. It only decides between two stored rows of the same link and day, which the (link, day) unique key rules out. The first stored row in table order is taken.
- The ascending `orderBy` of the polling job's session query: `deriveSessions` sorts its input itself.
- Spotify calls (token refresh, recently-played, code exchange, profile): they are parameters. The OAuth state's base64url/JSON decoding is a parameter, `decode`.
- OAuthCallback.Callback: a state that is valid base64url JSON but not an object with a string `slug` (`null`, `5`, `{}`) makes the destructuring or the link lookup throw outside the inner `try`, and the outer `catch` answers 500 with no writes. `decode` returns either nothing (the 400) or a well-formed state, so that 500 is not modelled.
- OAuthCallback.Callback: a profile field the profile lacks is modelled as `None` and stored as such. Prisma would leave an existing column unchanged for an `undefined` value.
- OAuthCallback.Callback: a link whose playlist row is missing gives `Failed` after the user, token and connection writes. The code would throw at that point, after the same writes.
- Real time-zone and DST behaviour of date-fns: the zone is abstract, and a day is a fixed step.
- `endOfCopenhagenDay`, `formatCopenhagen`, `nowInCopenhagen`, `formatCopenhagenHuman`: these are display helpers.
- `groupPlaysByDay` (locale string round trip): it is not used by the modelled routes.
- Floating point: minutes and rates are exact reals. `Math.round` of a non-negative millisecond total is (ms + 30 000) div 60 000.
- ShortId.CreateTrackingLinkId: nanoid's random bytes and masking are abstracted as `pick(i) % 56`, with only the alphabet and the length kept.
- `generateClickTrackingId` and `generateSessionId` in both files, `getClickId`, `setClickCookie`, `setClickCookieInRequest`: clocks, randomness and cookie APIs.
- Cookies.QueryGet: query strings arrive already split into decoded (key, value) pairs. Percent-decoding and `+` handling are not modelled.
- LinksRoute.ListActiveLinks: the `playlist` include and the `_count` of connections and clicks are not modelled. The click table is outside this model.
- Metrics.RecentConnections: the `user` include is a lookup in the user table, and an absent user gives `None`.
- LinksRoute.CreateLink: a request body that is not valid JSON makes `request.json()` throw, and the route answers 500. The model receives the body already parsed into its two fields, so that 500 is not modelled.
- The preview request and the rendering of the new-link page: UI only.
- The `refresh-playlists` job, the preview route and the playlist-refresh route: stubs or Spotify-only code.

## Findings

| source | as written | input that shows it | evidently intended | confidence | as-written member | corrected member |
|---|---|---|---|---|---|---|
| src/lib/metrics.ts:321-327 | the cohort query filters `connectedAt: { in: dateRange }`, so only connections whose join instant equals a day key exactly are fetched | a listener who connects at 01:00 today (any instant that is not exactly a key) is absent from every cohort table | fetch every connection of the link whose join day is one of the range's days | not executed; high | Metrics.CohortFetchAsWrittenMissesMidDayJoins | Metrics.CohortFetch |
| src/app/api/jobs/poll-recently-played/route.ts:76-93 | after refreshing an expired token, the job stores the new access token but fetches recently-played with `token.accessToken`, the expired one read before the refresh | any connection whose newest token has `expiresAt <= now` and whose refresh succeeds | fetch with the access token just obtained | not executed; high | PollRecentlyPlayed.StaleTokenFailsTheConnection | PollRecentlyPlayed.CorrectedRequestCarriesStoredToken |

=== FILE: callback.dfy ===
/** The OAuth callback (src/app/api/oauth/callback/route.ts): a listener
    who authorised the app comes back with a code and the state the
    redirect route packed; the route stores the user, replaces their
    tokens and attributes a connection to the tracking link. */
module OAuthCallback {
  import opened Common
  import opened JsString
  import opened Store
  import PollRecentlyPlayed

  /** The decoded state: the link's slug and, when the redirect route set
      one, the click id. */
  datatype StateData = StateData(slug: string, clickId: Option<string>)

  datatype TokenGrant = TokenGrant(accessToken: string, refreshToken: string, expiresInSeconds: int)

  datatype Profile = Profile(
    id: string,
    email: Option<string>,
    country: Option<string>,
    displayName: Option<string>)

  /** The two Spotify calls; `None` is a call that threw. */
  datatype Spotify = Spotify(exchange: string -> Option<TokenGrant>, profile: string -> Option<Profile>)

  /** Ids the store generates for the rows this request creates. */
  datatype NewIds = NewIds(tokenId: string, connectionId: string)

  datatype Response =
    | MissingParameters  // 400
    | InvalidState       // 400
    | InvalidLink        // 400
    | Failed             // 500
    | Redirect(url: string)

  datatype CallbackResult = CallbackResult(response: Response, db: Db)

  /** `deleteMany` of the user's tokens followed by `create` of the new one. */
  function ReplaceTokens(tokens: seq<OAuthToken>, userId: string, t: OAuthToken): (r: seq<OAuthToken>)
    requires t.spotifyUserId == userId
    ensures |r| > 0 && r[|r| - 1] == t
    ensures forall i :: 0 <= i < |r| && r[i].spotifyUserId == userId ==> i == |r| - 1
    ensures forall i :: 0 <= i < |tokens| && tokens[i].spotifyUserId != userId ==> tokens[i] in r
    ensures forall i :: 0 <= i < |r| - 1 ==> r[i] in tokens
  {
    Filter(tokens, (x: OAuthToken) => x.spotifyUserId != userId) + [t]
  }

  /** After the replacement the polling job reads back exactly the new token. */
  lemma ReplacedTokenIsTheOnePolled(tokens: seq<OAuthToken>, userId: string, t: OAuthToken)
    requires t.spotifyUserId == userId
    ensures PollRecentlyPlayed.NewestToken(ReplaceTokens(tokens, userId, t), userId) == Some(t)
  {
    var r := ReplaceTokens(tokens, userId, t);
    var n := PollRecentlyPlayed.NewestToken(r, userId);
    assert r[|r| - 1].spotifyUserId == userId;
    var k :| 0 <= k < |r| && r[k] == n.value;
  }

  /** Position of the connection with this (link, user) pair, if any. */
  function PairIndex(conns: seq<Connection>, linkId: string, userId: string): (r: Option<nat>)
    ensures r.Some? ==> (r.value < |conns| && conns[r.value].linkId == linkId
      && conns[r.value].spotifyUserId == userId)
    ensures r.None? ==> forall i :: 0 <= i < |conns| ==>
      !(conns[i].linkId == linkId && conns[i].spotifyUserId == userId)
    decreases |conns|
  {
    if |conns| == 0 then None
    else if conns[0].linkId == linkId && conns[0].spotifyUserId == userId then Some(0)
    else match PairIndex(conns[1..], linkId, userId)
      case None => None
      case Some(i) => Some(i + 1)
  }

  /** The connection upsert on the (linkId, spotifyUserId) key. A new
      connection starts active at `now`; an existing one gets the latest
      click id and its polling mark cleared, and keeps everything else —
      including an `isActive` the retention sweep turned off. A missing
      click id is `undefined`, which the store treats as "leave as is". */
  function UpsertConnection(conns: seq<Connection>, linkId: string, userId: string,
                            clickId: Option<string>, now: int, newId: string): (r: seq<Connection>)
    ensures PairIndex(conns, linkId, userId).None? ==>
      r == conns + [Connection(newId, linkId, userId, clickId, now, true, None, None)]
    ensures PairIndex(conns, linkId, userId).Some? ==>
      var i := PairIndex(conns, linkId, userId).value;
      && |r| == |conns|
      && r[i].id == conns[i].id && r[i].connectedAt == conns[i].connectedAt
      && r[i].isActive == conns[i].isActive && r[i].endAt == conns[i].endAt
      && r[i].lastPolledAt.None?
      && r[i].clickId == (if clickId.Some? then clickId else conns[i].clickId)
      && forall j :: 0 <= j < |conns| && j != i ==> r[j] == conns[j]
    ensures forall j :: 0 <= j < |r| ==>
      r[j].linkId == (if j < |conns| then conns[j].linkId else linkId)
      && r[j].spotifyUserId == (if j < |conns| then conns[j].spotifyUserId else userId)
  {
    match PairIndex(conns, linkId, userId)
    case None => conns + [Connection(newId, linkId, userId, clickId, now, true, None, None)]
    case Some(i) =>
      var c := conns[i];
      conns[i := c.(clickId := if clickId.Some? then clickId else c.clickId, lastPolledAt := None)]
  }

  /** The upsert never creates a second connection for a pair, and after
      it the pair has exactly one connection. */
  lemma UpsertKeepsOneConnectionPerPair(conns: seq<Connection>, linkId: string, userId: string,
                                        clickId: Option<string>, now: int, newId: string)
    requires OneConnectionPerLinkAndUser(conns)
    ensures var r := UpsertConnection(conns, linkId, userId, clickId, now, newId);
      && OneConnectionPerLinkAndUser(r)
      && exists i :: 0 <= i < |r| && r[i].linkId == linkId && r[i].spotifyUserId == userId
  {
    var r := UpsertConnection(conns, linkId, userId, clickId, now, newId);
    if PairIndex(conns, linkId, userId).None? {
      assert r[|conns|].linkId == linkId && r[|conns|].spotifyUserId == userId;
    } else {
      var i := PairIndex(conns, linkId, userId).value;
      assert r[i].linkId == linkId && r[i].spotifyUserId == userId;
    }
  }

  /** `GET` of the callback route. `decode` stands for the base64url + JSON
      decoding of the state (`None` when it throws), `baseUrl` for
      `APP_BASE_URL`. The writes happen in the order of the route, so a
      failure after them (the link's playlist missing) leaves them done. */
  function Callback(db: Db, code: Option<string>, state: Option<string>,
                    decode: string -> Option<StateData>, spotify: Spotify,
                    now: int, ids: NewIds, baseUrl: string): (r: CallbackResult)
    ensures r.response == MissingParameters <==> Falsy(code) || Falsy(state)
    ensures r.response.MissingParameters? || r.response.InvalidState? || r.response.InvalidLink? ==> r.db == db
    ensures r.response == InvalidState <==> !Falsy(code) && !Falsy(state) && decode(state.value).None?
    ensures r.response == InvalidLink <==>
      && !Falsy(code) && !Falsy(state) && decode(state.value).Some?
      && FindLinkBySlug(db.links, decode(state.value).value.slug).None?
    ensures r.response == Failed && r.db != db ==>
      FindPlaylistById(db.playlists, FindLinkBySlug(db.links, decode(state.value).value.slug).value.playlistId).None?
    ensures r.db.links == db.links && r.db.playlists == db.playlists && r.db.plays == db.plays
    ensures r.response.Redirect? <==>
      && !Falsy(code) && !Falsy(state) && decode(state.value).Some?
      && FindLinkBySlug(db.links, decode(state.value).value.slug).Some?
      && spotify.exchange(code.value).Some?
      && spotify.profile(spotify.exchange(code.value).value.accessToken).Some?
      && FindPlaylistById(db.playlists, FindLinkBySlug(db.links, decode(state.value).value.slug).value.playlistId).Some?
  {
    if Falsy(code) || Falsy(state) then CallbackResult(MissingParameters, db)
    else match decode(state.value)
      case None => CallbackResult(InvalidState, db)
      case Some(st) =>
        match FindLinkBySlug(db.links, st.slug)
        case None => CallbackResult(InvalidLink, db)
        case Some(link) =>
          match spotify.exchange(code.value)
          case None => CallbackResult(Failed, db)
          case Some(grant) =>
            match spotify.profile(grant.accessToken)
            case None => CallbackResult(Failed, db)
            case Some(profile) =>
              var user := SpotifyUser(profile.id, profile.email, profile.country, profile.displayName);
              var token := OAuthToken(ids.tokenId, profile.id, grant.accessToken, grant.refreshToken,
                                      now + grant.expiresInSeconds * 1000, now);
              var db1 := db.(
                users := db.users[profile.id := user],
                tokens := ReplaceTokens(db.tokens, profile.id, token),
                connections := UpsertConnection(db.connections, link.id, profile.id, st.clickId, now, ids.connectionId));
              match FindPlaylistById(db.playlists, link.playlistId)
              case None => CallbackResult(Failed, db1)
              case Some(playlist) =>
                CallbackResult(Redirect(baseUrl + "/connected?slug=" + st.slug + "&playlist_id=" + playlist.spotifyId), db1)
  }

  /** A completed callback: the user is stored, their only token is the
      new grant (expiring `expires_in` seconds from now), the connection for
      (link, user) exists and is unique, and the browser is sent on with
      the slug and the playlist's Spotify id. */
  lemma CallbackSucceeds(db: Db, code: string, state: string, decode: string -> Option<StateData>,
                         spotify: Spotify, now: int, ids: NewIds, baseUrl: string)
    requires code != "" && state != ""
    requires decode(state).Some?
    requires FindLinkBySlug(db.links, decode(state).value.slug).Some?
    requires spotify.exchange(code).Some?
    requires spotify.profile(spotify.exchange(code).value.accessToken).Some?
    requires FindPlaylistById(db.playlists, FindLinkBySlug(db.links, decode(state).value.slug).value.playlistId).Some?
    requires OneConnectionPerLinkAndUser(db.connections)
    ensures var st := decode(state).value;
      var link := FindLinkBySlug(db.links, st.slug).value;
      var grant := spotify.exchange(code).value;
      var profile := spotify.profile(grant.accessToken).value;
      var playlist := FindPlaylistById(db.playlists, link.playlistId).value;
      var r := Callback(db, Some(code), Some(state), decode, spotify, now, ids, baseUrl);
      && r.response == Redirect(baseUrl + "/connected?slug=" + st.slug + "&playlist_id=" + playlist.spotifyId)
      && r.db.users == db.users[profile.id := SpotifyUser(profile.id, profile.email, profile.country, profile.displayName)]
      && PollRecentlyPlayed.NewestToken(r.db.tokens, profile.id)
           == Some(OAuthToken(ids.tokenId, profile.id, grant.accessToken, grant.refreshToken,
                              now + grant.expiresInSeconds * 1000, now))
      && OneConnectionPerLinkAndUser(r.db.connections)
      && (exists i :: 0 <= i < |r.db.connections| && r.db.connections[i].linkId == link.id
            && r.db.connections[i].spotifyUserId == profile.id && r.db.connections[i].lastPolledAt.None?)
  {
    var st := decode(state).value;
    var link := FindLinkBySlug(db.links, st.slug).value;
    var grant := spotify.exchange(code).value;
    var profile := spotify.profile(grant.accessToken).value;
    var token := OAuthToken(ids.tokenId, profile.id, grant.accessToken, grant.refreshToken,
                            now + grant.expiresInSeconds * 1000, now);
    var conns := UpsertConnection(db.connections, link.id, profile.id, st.clickId, now, ids.connectionId);
    var playlist := FindPlaylistById(db.playlists, link.playlistId).value;
    var db1 := db.(
      users := db.users[profile.id := SpotifyUser(profile.id, profile.email, profile.country, profile.displayName)],
      tokens := ReplaceTokens(db.tokens, profile.id, token),
      connections := conns);
    CallbackSuccessPath(db, code, state, decode, spotify, now, ids, baseUrl);
    var r := Callback(db, Some(code), Some(state), decode, spotify, now, ids, baseUrl);
    assert r.db == db1;
    ReplacedTokenIsTheOnePolled(db.tokens, profile.id, token);
    assert PollRecentlyPlayed.NewestToken(r.db.tokens, profile.id) == Some(token);
    UpsertKeepsOneConnectionPerPair(db.connections, link.id, profile.id, st.clickId, now, ids.connectionId);
    UpsertClearsPollingMark(db.connections, link.id, profile.id, st.clickId, now, ids.connectionId);
  }

  /** The success path of the callback, written out. */
  lemma CallbackSuccessPath(db: Db, code: string, state: string, decode: string -> Option<StateData>,
                            spotify: Spotify, now: int, ids: NewIds, baseUrl: string)
    requires code != "" && state != ""
    requires decode(state).Some?
    requires FindLinkBySlug(db.links, decode(state).value.slug).Some?
    requires spotify.exchange(code).Some?
    requires spotify.profile(spotify.exchange(code).value.accessToken).Some?
    requires FindPlaylistById(db.playlists, FindLinkBySlug(db.links, decode(state).value.slug).value.playlistId).Some?
    ensures var st := decode(state).value;
      var link := FindLinkBySlug(db.links, st.slug).value;
      var grant := spotify.exchange(code).value;
      var profile := spotify.profile(grant.accessToken).value;
      var playlist := FindPlaylistById(db.playlists, link.playlistId).value;
      Callback(db, Some(code), Some(state), decode, spotify, now, ids, baseUrl)
      == CallbackResult(Redirect(baseUrl + "/connected?slug=" + st.slug + "&playlist_id=" + playlist.spotifyId),
                        db.(users := db.users[profile.id := SpotifyUser(profile.id, profile.email, profile.country, profile.displayName)],
                            tokens := ReplaceTokens(db.tokens, profile.id,
                              OAuthToken(ids.tokenId, profile.id, grant.accessToken, grant.refreshToken,
                                         now + grant.expiresInSeconds * 1000, now)),
                            connections := UpsertConnection(db.connections, link.id, profile.id, st.clickId, now, ids.connectionId)))
  {
  }

  /** After the upsert the pair's connection waits for a fresh poll. */
  lemma UpsertClearsPollingMark(conns: seq<Connection>, linkId: string, userId: string,
                                clickId: Option<string>, now: int, newId: string)
    ensures var r := UpsertConnection(conns, linkId, userId, clickId, now, newId);
      exists i :: 0 <= i < |r| && r[i].linkId == linkId && r[i].spotifyUserId == userId && r[i].lastPolledAt.None?
  {
    var r := UpsertConnection(conns, linkId, userId, clickId, now, newId);
    if PairIndex(conns, linkId, userId).None? {
      assert r[|conns|].lastPolledAt.None?;
    } else {
      var i := PairIndex(conns, linkId, userId).value;
      assert r[i].linkId == linkId && r[i].lastPolledAt.None?;
    }
  }

  /** Reconnecting through a link does not reopen a connection the
      retention sweep closed: it stays inactive and keeps its join time. */
  lemma ReconnectKeepsClosedConnectionClosed(conns: seq<Connection>, i: nat, clickId: Option<string>,
                                             now: int, newId: string)
    requires i < |conns| && OneConnectionPerLinkAndUser(conns)
    requires !conns[i].isActive
    ensures var r := UpsertConnection(conns, conns[i].linkId, conns[i].spotifyUserId, clickId, now, newId);
      |r| == |conns| && !r[i].isActive && r[i].connectedAt == conns[i].connectedAt
  {
  }
}

=== FILE: common.dfy ===
/** Shared building blocks: an optional value, filtering and counting over
    sequences, and a stable descending sort by an integer key (the order
    that `orderBy: { field: 'desc' }` and `Array.prototype.sort` with a
    `b - a` comparator produce). */
module Common {

  datatype Option<+T> = None | Some(value: T) {
    function GetOr(default: T): T {
      match this
      case Some(v) => v
      case None => default
    }
  }

  /** The elements of `s` that satisfy `p`, in their original order. */
  function Filter<T>(s: seq<T>, p: T -> bool): (r: seq<T>)
    ensures |r| <= |s|
    ensures forall i :: 0 <= i < |r| ==> r[i] in s && p(r[i])
    ensures forall i :: 0 <= i < |s| && p(s[i]) ==> s[i] in r
    decreases |s|
  {
    if |s| == 0 then []
    else if p(s[0]) then [s[0]] + Filter(s[1..], p)
    else Filter(s[1..], p)
  }

  /** The first element of `s` that satisfies `p` (`findFirst`,
      `findUnique` and `Array.prototype.find`), or `None` when there is none. */
  function FindFirst<T(==)>(s: seq<T>, p: T -> bool): (r: Option<T>)
    ensures r.None? <==> forall i :: 0 <= i < |s| ==> !p(s[i])
    ensures r.Some? ==> exists i :: (0 <= i < |s| && s[i] == r.value && p(s[i])
      && forall j :: 0 <= j < i ==> !p(s[j]))
    decreases |s|
  {
    if |s| == 0 then None
    else if p(s[0]) then Some(s[0])
    else
      var rest := FindFirst(s[1..], p);
      assert forall i :: 1 <= i < |s| ==> s[i] == s[1..][i - 1];
      if rest.Some? then
        var i :| 0 <= i < |s[1..]| && s[1..][i] == rest.value && p(s[1..][i])
          && forall j :: 0 <= j < i ==> !p(s[1..][j]);
        assert s[i + 1] == rest.value && forall j :: 0 <= j < i + 1 ==> !p(s[j]);
        rest
      else rest
  }

  lemma {:induction false} FilterMono<T>(s: seq<T>, p: T -> bool, q: T -> bool)
    requires forall i :: 0 <= i < |s| && p(s[i]) ==> q(s[i])
    ensures |Filter(s, p)| <= |Filter(s, q)|
    decreases |s|
  {
    if |s| > 0 {
      FilterMono(s[1..], p, q);
    }
  }

  lemma {:induction false} FilterAll<T>(s: seq<T>, p: T -> bool)
    requires forall i :: 0 <= i < |s| ==> p(s[i])
    ensures Filter(s, p) == s
    decreases |s|
  {
    if |s| > 0 {
      FilterAll(s[1..], p);
    }
  }

  /** Filters by predicates that agree on every element are equal. */
  lemma {:induction false} SameFilter<T>(s: seq<T>, p: T -> bool, q: T -> bool)
    requires forall i :: 0 <= i < |s| ==> (p(s[i]) <==> q(s[i]))
    ensures Filter(s, p) == Filter(s, q)
    decreases |s|
  {
    if |s| > 0 {
      SameFilter(s[1..], p, q);
    }
  }

  /** Filtering a sequence extended by one element. */
  lemma FilterSnoc<T>(s: seq<T>, x: T, p: T -> bool)
    ensures Filter(s + [x], p) == if p(x) then Filter(s, p) + [x] else Filter(s, p)
  {
    FilterConcat(s, [x], p);
    assert [x][1..] == [];
  }

  lemma {:induction false} FilterNone<T>(s: seq<T>, p: T -> bool)
    requires forall i :: 0 <= i < |s| ==> !p(s[i])
    ensures Filter(s, p) == []
    decreases |s|
  {
    if |s| > 0 {
      FilterNone(s[1..], p);
    }
  }

  lemma {:induction false} FilterConcat<T>(a: seq<T>, b: seq<T>, p: T -> bool)
    ensures Filter(a + b, p) == Filter(a, p) + Filter(b, p)
    decreases |a|
  {
    if |a| > 0 {
      assert (a + b)[1..] == a[1..] + b;
      FilterConcat(a[1..], b, p);
    } else {
      assert a + b == b;
    }
  }

  lemma {:induction false} FilterMultiset<T>(s: seq<T>, p: T -> bool)
    ensures multiset(Filter(s, p)) <= multiset(s)
    decreases |s|
  {
    if |s| > 0 {
      FilterMultiset(s[1..], p);
      assert s == [s[0]] + s[1..];
    }
  }

  ghost predicate SortedDesc<T>(s: seq<T>, key: T -> int) {
    forall i, j :: 0 <= i < j < |s| ==> key(s[i]) >= key(s[j])
  }

  lemma SortedDescTail<T>(s: seq<T>, key: T -> int)
    requires |s| > 0 && SortedDesc(s, key)
    ensures SortedDesc(s[1..], key)
  {
  }

  lemma SortedDescAppend<T>(s: seq<T>, x: T, key: T -> int)
    requires SortedDesc(s, key)
    requires |s| > 0 ==> key(s[|s| - 1]) >= key(x)
    ensures SortedDesc(s + [x], key)
  {
    var r := s + [x];
    forall i, j | 0 <= i < j < |r|
      ensures key(r[i]) >= key(r[j])
    {
      if j == |s| && i < |s| - 1 {
        assert key(s[i]) >= key(s[|s| - 1]);
      }
    }
  }

  /** The members of a filtered sequence are the members that pass. */
  lemma FilterMembers<T>(s: seq<T>, p: T -> bool)
    ensures forall x :: x in Filter(s, p) <==> x in s && p(x)
  {
    var f := Filter(s, p);
    forall x | x in f
      ensures x in s && p(x)
    {
      var i :| 0 <= i < |f| && f[i] == x;
    }
    forall x | x in s && p(x)
      ensures x in f
    {
      var i :| 0 <= i < |s| && s[i] == x;
    }
  }

  /** Two sequences with the same multiset have the same members. */
  lemma SameMembers<T>(a: seq<T>, b: seq<T>)
    requires multiset(a) == multiset(b)
    ensures forall x :: x in a <==> x in b
  {
    forall x
      ensures x in a <==> x in b
    {
      assert x in a <==> x in multiset(a);
      assert x in b <==> x in multiset(b);
    }
  }

  /** A prefix of a descending sequence is descending, and whatever it
      leaves out is no larger than its last element. */
  lemma TakeSortedDesc<T>(s: seq<T>, key: T -> int, n: nat)
    requires n <= |s| && SortedDesc(s, key)
    ensures SortedDesc(s[..n], key)
    ensures forall x :: x in s && x !in s[..n] ==> n < |s| && (n > 0 ==> key(x) <= key(s[n - 1]))
  {
    forall x | x in s && x !in s[..n]
      ensures n < |s| && (n > 0 ==> key(x) <= key(s[n - 1]))
    {
      var j :| 0 <= j < |s| && s[j] == x;
      assert j >= n;
    }
  }

  /** The first n of a descending permutation of `s`: descending, drawn
      from `s` without repetition, and no element of `s` left out is larger
      than the last one kept. */
  lemma TopOfSortedPermutation<T>(sorted: seq<T>, s: seq<T>, key: T -> int, n: nat)
    requires n <= |sorted| && SortedDesc(sorted, key) && multiset(sorted) == multiset(s)
    ensures SortedDesc(sorted[..n], key)
    ensures multiset(sorted[..n]) <= multiset(s)
    ensures forall i :: 0 <= i < n ==> sorted[..n][i] in s
    ensures forall x :: x in s && x !in sorted[..n] ==> n < |sorted| && (n > 0 ==> key(x) <= key(sorted[n - 1]))
  {
    TakeSortedDesc(sorted, key, n);
    SameMembers(s, sorted);
    assert sorted == sorted[..n] + sorted[n..];
    forall i | 0 <= i < n
      ensures sorted[..n][i] in s
    {
      assert sorted[..n][i] == sorted[i];
    }
  }

  /** The first element of a descending order carries the largest key and
      the last one the smallest, and both come from the input. */
  lemma SortDescEnds<T>(s: seq<T>, key: T -> int)
    requires |s| > 0
    ensures var r := SortDesc(s, key);
      && r[0] in s && r[|r| - 1] in s
      && (forall i :: 0 <= i < |s| ==> key(r[|r| - 1]) <= key(s[i]) <= key(r[0]))
  {
    SortedPermutationEnds(SortDesc(s, key), s, key);
  }

  /** The ends of a descending permutation of s are in s and bound it. */
  lemma SortedPermutationEnds<T>(r: seq<T>, s: seq<T>, key: T -> int)
    requires |s| > 0 && SortedDesc(r, key) && multiset(r) == multiset(s)
    ensures |r| == |s|
    ensures r[0] in s && r[|r| - 1] in s
    ensures forall i :: 0 <= i < |s| ==> key(r[|r| - 1]) <= key(s[i]) <= key(r[0])
  {
    assert |r| == |multiset(r)| == |s|;
    assert r[0] in multiset(s);
    assert r[|r| - 1] in multiset(s);
    forall i | 0 <= i < |s|
      ensures key(r[|r| - 1]) <= key(s[i]) <= key(r[0])
    {
      assert s[i] in multiset(r);
      var j :| 0 <= j < |r| && r[j] == s[i];
      assert key(r[|r| - 1]) <= key(r[j]) <= key(r[0]);
    }
  }

  /** The keys of the elements of `s` that satisfy `p`. */
  function KeysOf<T>(s: seq<T>, p: T -> bool, key: T -> string): (r: set<string>)
    ensures forall k :: k in r <==> exists i :: 0 <= i < |s| && p(s[i]) && key(s[i]) == k
    decreases |s|
  {
    if |s| == 0 then {}
    else
      var rest := KeysOf(s[1..], p, key);
      assert forall i :: 1 <= i < |s| ==> s[1..][i - 1] == s[i];
      if p(s[0]) then {key(s[0])} + rest else rest
  }

  /** Elements with pairwise different keys give as many keys as elements. */
  lemma {:induction false} KeysOfDistinct<T>(s: seq<T>, p: T -> bool, key: T -> string)
    requires forall i, j :: 0 <= i < j < |s| ==> key(s[i]) != key(s[j])
    ensures |KeysOf(s, p, key)| == |Filter(s, p)|
    decreases |s|
  {
    if |s| > 0 {
      var tail := s[1..];
      assert forall i :: 0 <= i < |tail| ==> tail[i] == s[i + 1];
      KeysOfDistinct(tail, p, key);
      var rest := KeysOf(tail, p, key);
      if p(s[0]) {
        assert key(s[0]) !in rest;
        assert KeysOf(s, p, key) == {key(s[0])} + rest;
        assert Filter(s, p) == [s[0]] + Filter(tail, p);
      } else {
        assert KeysOf(s, p, key) == rest && Filter(s, p) == Filter(tail, p);
      }
    }
  }

  lemma {:induction false} KeysOfAtMostCount<T>(s: seq<T>, p: T -> bool, key: T -> string)
    ensures |KeysOf(s, p, key)| <= |Filter(s, p)|
    decreases |s|
  {
    if |s| > 0 {
      KeysOfAtMostCount(s[1..], p, key);
    }
  }

  lemma {:induction false} SubsetCard(a: set<string>, b: set<string>)
    requires a <= b
    ensures |a| <= |b|
    decreases |a|
  {
    if a != {} {
      var x :| x in a;
      SubsetCard(a - {x}, b - {x});
    }
  }

  /** Counting by an injection: when every counted element of `xs` has a
      counted partner in `ys` carrying its key, and the keys in `xs` are
      pairwise different, `xs` has no more counted elements than `ys`. */
  lemma CountByInjection<A, B>(xs: seq<A>, p: A -> bool, kx: A -> string,
                               ys: seq<B>, q: B -> bool, ky: B -> string)
    requires forall i, j :: 0 <= i < j < |xs| ==> kx(xs[i]) != kx(xs[j])
    requires forall i :: 0 <= i < |xs| && p(xs[i]) ==>
      exists j :: 0 <= j < |ys| && q(ys[j]) && ky(ys[j]) == kx(xs[i])
    ensures |Filter(xs, p)| <= |Filter(ys, q)|
  {
    KeysOfDistinct(xs, p, kx);
    KeysOfAtMostCount(ys, q, ky);
    SubsetCard(KeysOf(xs, p, kx), KeysOf(ys, q, ky));
  }

  /** Places `x` in front of the first element whose key is not above
      its own, so that `x` stays ahead of equal keys (stability). */
  function InsertDesc<T>(x: T, s: seq<T>, key: T -> int): (r: seq<T>)
    requires SortedDesc(s, key)
    ensures SortedDesc(r, key)
    ensures multiset(r) == multiset(s) + multiset{x}
    ensures |r| == |s| + 1
    ensures r[0] == x || (|s| > 0 && r[0] == s[0])
    decreases |s|
  {
    if |s| == 0 || key(s[0]) <= key(x) then [x] + s
    else
      var tail := InsertDesc(x, s[1..], key);
      assert s == [s[0]] + s[1..];
      assert key(s[0]) >= key(tail[0]);
      [s[0]] + tail
  }

  /** A permutation of `s` ordered by `key`, largest first. */
  function SortDesc<T>(s: seq<T>, key: T -> int): (r: seq<T>)
    ensures SortedDesc(r, key)
    ensures multiset(r) == multiset(s)
    ensures |r| == |s|
    decreases |s|
  {
    if |s| == 0 then []
    else
      assert s == [s[0]] + s[1..];
      InsertDesc(s[0], SortDesc(s[1..], key), key)
  }

  function Reverse<T>(s: seq<T>): (r: seq<T>)
    ensures |r| == |s|
    ensures forall i :: 0 <= i < |s| ==> r[i] == s[|s| - 1 - i]
  {
    seq(|s|, i requires 0 <= i < |s| => s[|s| - 1 - i])
  }

  /** The reverse of a non-empty sequence ends with its first element. */
  lemma ReverseCons<T>(s: seq<T>)
    requires |s| > 0
    ensures Reverse(s) == Reverse(s[1..]) + [s[0]]
  {
  }

  function Min(a: int, b: int): int { if a <= b then a else b }
}

=== FILE: cookies.dfy ===
/** Request helpers of the click flow (src/lib/cookies.ts): the 32-bit
    IP hash with its base-36 rendering, the client-IP header priority and
    the UTM parameter extraction. */
module Cookies {
  import opened Common
  import opened JsString

  const TWO_31: int := 0x8000_0000
  const TWO_32: int := 0x1_0000_0000

  predicate IsInt32(x: int) {
    -TWO_31 <= x < TWO_31
  }

  /** ToInt32 of section 7.1.6 of ECMA-262, on an integral number: the
      value modulo 2^32, read back as a signed 32-bit integer. */
  function ToInt32(x: int): (r: int)
    ensures IsInt32(r)
    ensures (r - x) % TWO_32 == 0
  {
    var m := x % TWO_32;
    if m >= TWO_31 then m - TWO_32 else m
  }

  /** Two integers congruent modulo 2^32 wrap to the same 32-bit value. */
  lemma ToInt32Congruent(x: int, y: int)
    requires (x - y) % TWO_32 == 0
    ensures ToInt32(x) == ToInt32(y)
  {
    var a := ToInt32(x);
    var b := ToInt32(y);
    assert (a - b) % TWO_32 == 0 by {
      var k1 := (a - x) / TWO_32;
      var k2 := (b - y) / TWO_32;
      var k3 := (x - y) / TWO_32;
      assert a - b == (k1 - k2 + k3) * TWO_32;
    }
  }

  /** One turn of the loop: `hash = ((hash << 5) - hash) + char` and then
      `hash = hash & hash`. `<<` and `&` both go through ToInt32. */
  function HashStep(h: int, unit: int): int {
    ToInt32(ToInt32(h * 32) - h + unit)
  }

  /** The step is 31·hash + unit wrapped to signed 32 bits. */
  lemma HashStepIsMultiplyAdd(h: int, unit: int)
    ensures HashStep(h, unit) == ToInt32(31 * h + unit)
    ensures IsInt32(HashStep(h, unit))
  {
    var s := ToInt32(h * 32);
    assert ((s - h + unit) - (31 * h + unit)) % TWO_32 == 0 by {
      assert (s - h + unit) - (31 * h + unit) == s - h * 32;
    }
    ToInt32Congruent(s - h + unit, 31 * h + unit);
  }

  /** The hash of a sequence of UTF-16 code units, folded from the left
      starting at 0. */
  function HashUnits(units: seq<int>): (h: int)
    ensures IsInt32(h)
    decreases |units|
  {
    if |units| == 0 then 0
    else HashStep(HashUnits(units[..|units| - 1]), units[|units| - 1])
  }

  function Abs(x: int): (r: nat)
    ensures r == x || r == -x
  {
    if x < 0 then -x else x
  }

  predicate IsBase36Digit(c: char) {
    ('0' <= c <= '9') || ('a' <= c <= 'z')
  }

  function Digit36(d: nat): (c: char)
    requires d < 36
    ensures IsBase36Digit(c)
  {
    if d < 10 then ('0' as int + d) as char else ('a' as int + d - 10) as char
  }

  function DigitValue36(c: char): (d: nat)
    requires IsBase36Digit(c)
    ensures d < 36
  {
    if c <= '9' then c as int - '0' as int else c as int - 'a' as int + 10
  }

  /** `n.toString(36)` for a non-negative integer: lowercase digits, most
      significant first, no leading zero. */
  function ToBase36(n: nat): (r: string)
    ensures |r| >= 1
    ensures forall i :: 0 <= i < |r| ==> IsBase36Digit(r[i])
    ensures |r| > 1 ==> r[0] != '0'
    decreases n
  {
    if n < 36 then [Digit36(n)] else ToBase36(n / 36) + [Digit36(n % 36)]
  }

  /** Reading a string of base-36 digits back as a number. */
  function FromBase36(s: string): nat
    requires forall i :: 0 <= i < |s| ==> IsBase36Digit(s[i])
    decreases |s|
  {
    if |s| == 0 then 0 else FromBase36(s[..|s| - 1]) * 36 + DigitValue36(s[|s| - 1])
  }

  /** The rendering loses nothing: reading it back gives the number. */
  lemma {:induction false} Base36RoundTrip(n: nat)
    ensures FromBase36(ToBase36(n)) == n
    decreases n
  {
    if n >= 36 {
      var s := ToBase36(n / 36);
      var r := ToBase36(n);
      assert r[..|r| - 1] == s;
      Base36RoundTrip(n / 36);
    }
  }

  /** Different numbers render differently. */
  lemma Base36Injective(m: nat, n: nat)
    requires ToBase36(m) == ToBase36(n)
    ensures m == n
  {
    Base36RoundTrip(m);
    Base36RoundTrip(n);
  }

  /** `hashIpAddress`, as the loop over `charCodeAt` the source runs. */
  method HashIpAddress(ip: string) returns (r: string)
    ensures r == "ip_" + ToBase36(Abs(HashUnits(Utf16(ip))))
    ensures |r| > 3 && r[..3] == "ip_"
    ensures forall i :: 3 <= i < |r| ==> IsBase36Digit(r[i])
  {
    var units := Utf16(ip);
    var hash := 0;
    var i := 0;
    while i < |units|
      invariant 0 <= i <= |units|
      invariant hash == HashUnits(units[..i])
    {
      var unit := units[i];
      assert units[..i + 1][..i] == units[..i];
      assert HashUnits(units[..i + 1]) == HashStep(hash, unit);
      hash := ToInt32(hash * 32) - hash + unit;
      hash := ToInt32(hash);
      i := i + 1;
    }
    assert units[..|units|] == units;
    r := "ip_" + ToBase36(Abs(hash));
  }

  /** The empty address hashes to "ip_0"; the hash stays a signed 32-bit
      value and its magnitude is recoverable from the text. */
  lemma HashIpAddressFacts(ip: string)
    ensures HashUnits(Utf16("")) == 0 && "ip_" + ToBase36(Abs(HashUnits(Utf16("")))) == "ip_0"
    ensures IsInt32(HashUnits(Utf16(ip)))
    ensures FromBase36(ToBase36(Abs(HashUnits(Utf16(ip))))) == Abs(HashUnits(Utf16(ip)))
  {
    Base36RoundTrip(Abs(HashUnits(Utf16(ip))));
  }

  /** The hash of a longer string continues from the hash of its prefix
      by one multiply-add step per code unit. */
  lemma HashExtends(units: seq<int>, unit: int)
    ensures HashUnits(units + [unit]) == ToInt32(31 * HashUnits(units) + unit)
  {
    assert (units + [unit])[..|units|] == units;
    HashStepIsMultiplyAdd(HashUnits(units), unit);
  }

  /** `forwarded.split(',')[0].trim()`: the text before the first comma
      (all of it when there is none), trimmed. */
  function FirstForwardedEntry(f: string): (r: string)
    ensures exists k :: (0 <= k <= |f| && ',' !in f[..k] && (k == |f| || f[k] == ',')
      && r == Trim(f[..k]))
    ensures ',' !in r
  {
    var first := BeforeFirst(f, ',');
    var r := Trim(first);
    TrimmedHasNoComma(first);
    assert first == f[..|first|];
    r
  }

  lemma TrimmedHasNoComma(s: string)
    requires ',' !in s
    ensures ',' !in Trim(s)
  {
    var a, b :| 0 <= a <= b <= |s| && Trim(s) == s[a..b];
    NotInInfix(s, ',', a, b);
  }

  lemma NotInInfix(s: string, c: char, a: nat, b: nat)
    requires a <= b <= |s| && c !in s
    ensures c !in s[a..b]
  {
  }

  /** `getClientIp`: the first truthy header among x-forwarded-for,
      x-real-ip and cf-connecting-ip; a forwarded list gives its first
      comma-separated entry, trimmed. */
  function GetClientIp(forwarded: Option<string>, realIp: Option<string>, cfConnectingIp: Option<string>): (r: Option<string>)
    ensures r.None? <==> Falsy(forwarded) && Falsy(realIp) && Falsy(cfConnectingIp)
    ensures !Falsy(forwarded) ==> r == Some(FirstForwardedEntry(forwarded.value))
    ensures Falsy(forwarded) && !Falsy(realIp) ==> r == realIp
    ensures Falsy(forwarded) && Falsy(realIp) && !Falsy(cfConnectingIp) ==> r == cfConnectingIp
  {
    if !Falsy(forwarded) then Some(FirstForwardedEntry(forwarded.value))
    else if !Falsy(realIp) then realIp
    else if !Falsy(cfConnectingIp) then cfConnectingIp
    else None
  }

  /** A proxy chain "client, proxy1, ..." yields the client address. */
  lemma ForwardedChainGivesClient(client: string, proxies: string, realIp: Option<string>, cf: Option<string>)
    requires |client| > 0 && ',' !in client
    requires !IsWhitespace(client[0]) && !IsWhitespace(client[|client| - 1])
    ensures GetClientIp(Some(client + "," + proxies), realIp, cf) == Some(client)
  {
    var f := client + "," + proxies;
    BeforeFirstStopsAtSeparator(client, proxies, ',');
    assert BeforeFirst(f, ',') == client;
    assert TrimStart(client) == client;
    assert TrimEnd(client) == client;
  }

  lemma {:induction false} BeforeFirstStopsAtSeparator(a: string, b: string, sep: char)
    requires sep !in a
    ensures BeforeFirst(a + [sep] + b, sep) == a
    decreases |a|
  {
    if |a| > 0 {
      assert (a + [sep] + b)[1..] == a[1..] + [sep] + b;
      BeforeFirstStopsAtSeparator(a[1..], b, sep);
    }
  }

  const UTM_KEYS: seq<string> := ["utm_source", "utm_medium", "utm_campaign", "utm_term", "utm_content"]

  /** `searchParams.get(key)`: the value of the first pair with that name.
      The query is given already split and percent-decoded. */
  function QueryGet(query: seq<(string, string)>, key: string): (r: Option<string>)
    ensures r.Some? ==> exists i :: (0 <= i < |query| && query[i] == (key, r.value)
      && forall j :: 0 <= j < i ==> query[j].0 != key)
    ensures r.None? <==> forall i :: 0 <= i < |query| ==> query[i].0 != key
    decreases |query|
  {
    if |query| == 0 then None
    else if query[0].0 == key then Some(query[0].1)
    else QueryGet(query[1..], key)
  }

  /** The loop over `keys` that copies each truthy value. */
  function CollectParams(query: seq<(string, string)>, keys: seq<string>): (r: map<string, string>)
    ensures forall k :: k in r ==> k in keys && QueryGet(query, k) == Some(r[k]) && r[k] != ""
    ensures forall k :: k in keys && !Falsy(QueryGet(query, k)) ==> k in r
    decreases |keys|
  {
    if |keys| == 0 then map[]
    else
      var rest := CollectParams(query, keys[1..]);
      var v := QueryGet(query, keys[0]);
      if !Falsy(v) then rest[keys[0] := v.value] else rest
  }

  /** `extractUtmParams`: the five utm_* keys whose value is non-empty,
      each with its value copied as is. */
  function ExtractUtmParams(query: seq<(string, string)>): (r: map<string, string>)
    ensures forall k :: k in r ==> k in UTM_KEYS
    ensures forall k :: k in r ==> QueryGet(query, k) == Some(r[k]) && r[k] != ""
    ensures forall k :: k in UTM_KEYS && !Falsy(QueryGet(query, k)) ==> k in r
  {
    CollectParams(query, UTM_KEYS)
  }

  /** Parameters other than the five never reach the result, however
      many the query carries. */
  lemma UtmIgnoresOtherParams(query: seq<(string, string)>, extra: seq<(string, string)>)
    requires forall i :: 0 <= i < |extra| ==> extra[i].0 !in UTM_KEYS
    ensures ExtractUtmParams(query + extra) == ExtractUtmParams(query)
  {
    forall k | k in UTM_KEYS
      ensures QueryGet(query + extra, k) == QueryGet(query, k)
    {
      QueryGetAppend(query, extra, k);
    }
    CollectParamsReadsOnlyItsKeys(query + extra, query, UTM_KEYS);
  }

  /** Two queries that agree on the listed keys give the same parameters. */
  lemma {:induction false} CollectParamsReadsOnlyItsKeys(q1: seq<(string, string)>, q2: seq<(string, string)>, keys: seq<string>)
    requires forall k :: k in keys ==> QueryGet(q1, k) == QueryGet(q2, k)
    ensures CollectParams(q1, keys) == CollectParams(q2, keys)
    decreases |keys|
  {
    if |keys| > 0 {
      assert keys[0] in keys;
      CollectParamsReadsOnlyItsKeys(q1, q2, keys[1..]);
    }
  }

  lemma {:induction false} QueryGetAppend(query: seq<(string, string)>, extra: seq<(string, string)>, key: string)
    requires forall i :: 0 <= i < |extra| ==> extra[i].0 != key
    ensures QueryGet(query + extra, key) == QueryGet(query, key)
    decreases |query|
  {
    if |query| == 0 {
      assert query + extra == extra;
    } else if query[0].0 != key {
      assert (query + extra)[1..] == query[1..] + extra;
      QueryGetAppend(query[1..], extra, key);
    }
  }
}

=== FILE: jsstring.dfy ===
/** The few pieces of JavaScript string semantics the routes lean on:
    truthiness of an optional string, `String.prototype.trim`, and the
    first field of `split`. Strings are sequences of code points. */
module JsString {
  import opened Common

  /** `!s` for a value that is a string, null or undefined. */
  predicate Falsy(s: Option<string>) {
    s.None? || s.value == ""
  }

  /** WhiteSpace and LineTerminator of ECMAScript (sections 12.2 and 12.3
      of ECMA-262): tab, vertical tab, form feed, space, no-break space,
      the byte order mark, the other space separators of category Zs, line
      feed, carriage return, and the line and paragraph separators. */
  predicate IsWhitespace(c: char) {
    c == '\U{9}' || c == '\U{B}' || c == '\U{C}' || c == '\U{20}' || c == '\U{A0}'
    || c == '\U{FEFF}' || c == '\U{1680}' || ('\U{2000}' <= c <= '\U{200A}') || c == '\U{202F}'
    || c == '\U{205F}' || c == '\U{3000}'
    || c == '\U{A}' || c == '\U{D}' || c == '\U{2028}' || c == '\U{2029}'
  }

  predicate AllWhitespace(s: string) {
    forall i :: 0 <= i < |s| ==> IsWhitespace(s[i])
  }

  function TrimStart(s: string): (r: string)
    ensures |r| <= |s| && r == s[|s| - |r|..]
    ensures AllWhitespace(s[..|s| - |r|])
    ensures |r| > 0 ==> !IsWhitespace(r[0])
    decreases |s|
  {
    if |s| > 0 && IsWhitespace(s[0]) then TrimStart(s[1..]) else s
  }

  function TrimEnd(s: string): (r: string)
    ensures |r| <= |s| && r == s[..|r|]
    ensures AllWhitespace(s[|r|..])
    ensures |r| > 0 ==> !IsWhitespace(r[|r| - 1])
    decreases |s|
  {
    if |s| > 0 && IsWhitespace(s[|s| - 1]) then TrimEnd(s[..|s| - 1]) else s
  }

  /** `s.trim()`: what is left once leading and trailing white space is cut. */
  function Trim(s: string): (r: string)
    ensures exists a, b :: (0 <= a <= b <= |s| && r == s[a..b]
      && AllWhitespace(s[..a]) && AllWhitespace(s[b..]))
    ensures |r| > 0 ==> !IsWhitespace(r[0]) && !IsWhitespace(r[|r| - 1])
  {
    var t := TrimStart(s);
    var r := TrimEnd(t);
    TrimBounds(s, t, r);
    ghost var a := |s| - |t|;
    assert 0 <= a <= a + |r| <= |s| && r == s[a..a + |r|]
      && AllWhitespace(s[..a]) && AllWhitespace(s[a + |r|..]);
    assert |r| > 0 ==> r[0] == t[0];
    r
  }

  /** The cut of `TrimStart` and the cut of `TrimEnd` together bound a
      slice of the input with white space on either side. */
  lemma TrimBounds(s: string, t: string, r: string)
    requires |t| <= |s| && t == s[|s| - |t|..] && AllWhitespace(s[..|s| - |t|])
    requires |r| <= |t| && r == t[..|r|] && AllWhitespace(t[|r|..])
    ensures var a := |s| - |t|;
      && a + |r| <= |s| && r == s[a..a + |r|]
      && AllWhitespace(s[..a]) && AllWhitespace(s[a + |r|..])
  {
    var a := |s| - |t|;
    assert s[a + |r|..] == t[|r|..];
  }

  /** Trimming is idempotent. */
  lemma TrimIsIdempotent(s: string)
    ensures Trim(Trim(s)) == Trim(s)
  {
    var r := Trim(s);
    if |r| > 0 {
      assert TrimStart(r) == r;
      assert TrimEnd(r) == r;
    }
  }

  /** A string trims to nothing exactly when all of it is white space. */
  lemma TrimIsEmptyIffAllWhitespace(s: string)
    ensures Trim(s) == "" <==> AllWhitespace(s)
  {
    var t := TrimStart(s);
    if Trim(s) == "" {
      assert |t| == 0;
      assert s[..|s|] == s;
    }
  }

  /** `s.split(sep)[0]`: everything before the first separator, or the
      whole string when there is none. */
  function BeforeFirst(s: string, sep: char): (r: string)
    ensures |r| <= |s| && r == s[..|r|]
    ensures sep !in r
    ensures |r| < |s| ==> s[|r|] == sep
    decreases |s|
  {
    if |s| == 0 then ""
    else if s[0] == sep then ""
    else [s[0]] + BeforeFirst(s[1..], sep)
  }

  /** The UTF-16 code units of one code point: itself below 0x10000,
      otherwise a high and a low surrogate. */
  function CodeUnits(c: char): (r: seq<int>)
    ensures 1 <= |r| <= 2 && (|r| == 1 <==> c as int < 0x1_0000)
    ensures forall k :: 0 <= k < |r| ==> 0 <= r[k] < 0x1_0000
    ensures |r| == 2 ==> (r[0] - 0xD800) * 0x400 + (r[1] - 0xDC00) + 0x1_0000 == c as int
  {
    if c as int < 0x1_0000 then [c as int]
    else
      var v := c as int - 0x1_0000;
      [0xD800 + v / 0x400, 0xDC00 + v % 0x400]
  }

  /** The string as JavaScript stores it, one UTF-16 code unit per entry. */
  function Utf16(s: string): (r: seq<int>)
    ensures |r| >= |s|
    ensures forall k :: 0 <= k < |r| ==> 0 <= r[k] < 0x1_0000
    decreases |s|
  {
    if |s| == 0 then [] else CodeUnits(s[0]) + Utf16(s[1..])
  }

  /** `s.length`. */
  function Utf16Length(s: string): nat {
    |Utf16(s)|
  }

  /** Code points below 0x10000 are one code unit each, so for such a
      string `length` counts characters. */
  lemma {:induction false} Utf16LengthOfBmp(s: string)
    requires forall i :: 0 <= i < |s| ==> s[i] as int < 0x1_0000
    ensures Utf16Length(s) == |s|
    ensures Utf16(s) == seq(|s|, i requires 0 <= i < |s| => s[i] as int)
    decreases |s|
  {
    if |s| > 0 {
      Utf16LengthOfBmp(s[1..]);
    }
  }

  /** A code point above 0xFFFF makes `length` exceed the character count. */
  lemma {:induction false} Utf16LengthOfAstral(s: string, i: nat)
    requires i < |s| && s[i] as int >= 0x1_0000
    ensures Utf16Length(s) > |s|
    decreases |s|
  {
    if i > 0 {
      Utf16LengthOfAstral(s[1..], i - 1);
    }
  }
}

=== FILE: links.dfy ===
/** Tracking-link creation and listing (src/app/api/links/route.ts). */
module LinksRoute {
  import opened Common
  import opened JsString
  import opened Store

  const PLAYLIST_PREFIX: string := "playlist/"

  /** `[a-zA-Z0-9]`. */
  predicate IsIdChar(c: char) {
    ('a' <= c <= 'z') || ('A' <= c <= 'Z') || ('0' <= c <= '9')
  }

  predicate AllIdChars(s: string) {
    forall k :: 0 <= k < |s| ==> IsIdChar(s[k])
  }

  /** The pattern `playlist\/([a-zA-Z0-9]+)` can start matching at i. */
  predicate MatchesAt(url: string, i: nat) {
    i + |PLAYLIST_PREFIX| < |url| && url[i..i + |PLAYLIST_PREFIX|] == PLAYLIST_PREFIX
    && IsIdChar(url[i + |PLAYLIST_PREFIX|])
  }

  /** The capture group of the leftmost match is `id` and the match starts
      at i: no earlier start matches, and the greedy `+` took the whole
      run of id characters after the prefix. */
  ghost predicate IsCaptureAt(url: string, i: nat, id: string) {
    && MatchesAt(url, i)
    && (forall j :: 0 <= j < i ==> !MatchesAt(url, j))
    && var start := i + |PLAYLIST_PREFIX|;
    && start + |id| <= |url| && url[start..start + |id|] == id
    && |id| > 0 && AllIdChars(id)
    && (start + |id| == |url| || !IsIdChar(url[start + |id|]))
  }

  /** The longest prefix of s made of id characters. */
  function IdRun(s: string): (r: string)
    ensures |r| <= |s| && r == s[..|r|] && AllIdChars(r)
    ensures |r| == |s| || !IsIdChar(s[|r|])
    decreases |s|
  {
    if |s| > 0 && IsIdChar(s[0]) then [s[0]] + IdRun(s[1..]) else ""
  }

  /** The leftmost start at or after `from` where the pattern matches. */
  function FirstMatch(url: string, from: nat): (r: Option<nat>)
    ensures r.Some? ==> (from <= r.value && MatchesAt(url, r.value)
      && forall j :: from <= j < r.value ==> !MatchesAt(url, j))
    ensures r.None? ==> forall j :: from <= j ==> !MatchesAt(url, j)
    decreases |url| - from
  {
    if from >= |url| then None
    else if MatchesAt(url, from) then Some(from)
    else FirstMatch(url, from + 1)
  }

  /** `url.match(/playlist\/([a-zA-Z0-9]+)/)` and its group 1; `None` when
      the match is null. */
  function MatchPlaylistId(url: string): (r: Option<string>)
    ensures r.None? <==> forall i :: 0 <= i < |url| ==> !MatchesAt(url, i)
    ensures r.Some? ==> exists i :: IsCaptureAt(url, i, r.value)
  {
    match FirstMatch(url, 0)
    case None => None
    case Some(i) =>
      var start := i + |PLAYLIST_PREFIX|;
      var id := IdRun(url[start..]);
      assert url[start..start + |id|] == id;
      assert IsCaptureAt(url, i, id);
      Some(id)
  }

  /** A URL has at most one capture: the leftmost start and the greedy run
      fix both where it is and what it is. */
  lemma CaptureIsUnique(url: string, i: nat, id: string, j: nat, id2: string)
    requires IsCaptureAt(url, i, id) && IsCaptureAt(url, j, id2)
    ensures i == j && id == id2
  {
    assert i == j;
    var start := i + |PLAYLIST_PREFIX|;
    RunIsMaximal(url, start, id, id2);
    RunIsMaximal(url, start, id2, id);
    assert id == url[start..start + |id|];
  }

  /** A run of id characters that ends at the end of the URL or before a
      non-id character is at least as long as any other run from the same
      start. */
  lemma RunIsMaximal(url: string, start: nat, id: string, other: string)
    requires start + |id| <= |url| && url[start..start + |id|] == id
    requires start + |id| == |url| || !IsIdChar(url[start + |id|])
    requires start + |other| <= |url| && url[start..start + |other|] == other && AllIdChars(other)
    ensures |other| <= |id|
  {
    assert forall k :: 0 <= k < |other| ==> url[start + k] == other[k];
  }

  /** The extraction returns an id exactly when that id is the capture. */
  lemma MatchPlaylistIdIsTheCapture(url: string, id: string)
    ensures MatchPlaylistId(url) == Some(id) <==> exists i :: IsCaptureAt(url, i, id)
  {
    if i :| IsCaptureAt(url, i, id) {
      var r := MatchPlaylistId(url);
      assert r.Some?;
      var i2 :| IsCaptureAt(url, i2, r.value);
      CaptureIsUnique(url, i, id, i2, r.value);
    }
  }

  /** The request body of `POST`, as far as the route reads it. */
  datatype CreateRequest = CreateRequest(playlistUrl: Option<string>, title: Option<string>)

  /** The two 400 answers, or the Spotify playlist id. */
  datatype ParsedRequest = MissingUrl | InvalidUrl | PlaylistId(id: string)

  function ParseCreateRequest(req: CreateRequest): (r: ParsedRequest)
    ensures r == MissingUrl <==> Falsy(req.playlistUrl)
    ensures r == InvalidUrl <==> !Falsy(req.playlistUrl) && forall i :: 0 <= i < |req.playlistUrl.value| ==> !MatchesAt(req.playlistUrl.value, i)
    ensures r.PlaylistId? ==> exists i :: IsCaptureAt(req.playlistUrl.value, i, r.id)
  {
    if Falsy(req.playlistUrl) then MissingUrl
    else match MatchPlaylistId(req.playlistUrl.value)
      case None => InvalidUrl
      case Some(id) => PlaylistId(id)
  }

  /** The playlist with this Spotify id, created as a placeholder named
      "Playlist <id>" owned by "Spotify User" when there is none. */
  function EnsurePlaylist(playlists: seq<Playlist>, spotifyId: string, newId: string): (r: (Playlist, seq<Playlist>))
    ensures r.0.spotifyId == spotifyId && r.0 in r.1
    ensures FindPlaylistBySpotifyId(playlists, spotifyId).Some? ==>
      r.0 == FindPlaylistBySpotifyId(playlists, spotifyId).value && r.1 == playlists
    ensures FindPlaylistBySpotifyId(playlists, spotifyId).None? ==>
      r.0 == Playlist(newId, spotifyId, "Playlist " + spotifyId, "Spotify User", {}) && r.1 == playlists + [r.0]
  {
    match FindPlaylistBySpotifyId(playlists, spotifyId)
    case Some(p) => (p, playlists)
    case None =>
      var p := Playlist(newId, spotifyId, "Playlist " + spotifyId, "Spotify User", {});
      (p, playlists + [p])
  }

  /** Creating the playlist once makes the next request reuse it. */
  lemma EnsurePlaylistIsIdempotent(playlists: seq<Playlist>, spotifyId: string, newId: string, otherId: string)
    ensures var (p, ps) := EnsurePlaylist(playlists, spotifyId, newId);
      EnsurePlaylist(ps, spotifyId, otherId) == (p, ps)
  {
    var (p, ps) := EnsurePlaylist(playlists, spotifyId, newId);
    if FindPlaylistBySpotifyId(playlists, spotifyId).None? {
      FindPlaylistAfterAppend(playlists, p);
    }
  }

  lemma {:induction false} FindPlaylistAfterAppend(playlists: seq<Playlist>, p: Playlist)
    requires FindPlaylistBySpotifyId(playlists, p.spotifyId).None?
    ensures FindPlaylistBySpotifyId(playlists + [p], p.spotifyId) == Some(p)
    decreases |playlists|
  {
    if |playlists| > 0 {
      assert (playlists + [p])[1..] == playlists[1..] + [p];
      FindPlaylistAfterAppend(playlists[1..], p);
    }
  }

  predicate SlugTaken(links: seq<TrackingLink>, slug: string) {
    FindLinkBySlug(links, slug).Some?
  }

  /** The `do … while` slug loop: `gen(k)` is the k-th id the generator
      returns. Ten candidates are looked up; the eleventh draw throws. */
  method ChooseSlug(links: seq<TrackingLink>, gen: nat -> string) returns (r: Option<string>)
    ensures r.Some? ==> exists k :: (0 <= k < 10 && r.value == gen(k) && !SlugTaken(links, gen(k))
      && forall j :: 0 <= j < k ==> SlugTaken(links, gen(j)))
    ensures r.None? <==> forall k :: 0 <= k < 10 ==> SlugTaken(links, gen(k))
  {
    var attempts := 0;
    var slug := gen(attempts);
    attempts := attempts + 1;
    while SlugTaken(links, slug)
      invariant 1 <= attempts <= 10
      invariant slug == gen(attempts - 1)
      invariant forall j :: 0 <= j < attempts - 1 ==> SlugTaken(links, gen(j))
      decreases 10 - attempts
    {
      slug := gen(attempts);
      attempts := attempts + 1;
      if attempts > 10 {
        return None;
      }
    }
    return Some(slug);
  }

  /** `title || null`. */
  function StoredTitle(title: Option<string>): (r: Option<string>)
    ensures r.None? <==> Falsy(title)
    ensures r.Some? ==> r == title
  {
    if Falsy(title) then None else title
  }

  /** Ids the store generates for the rows this request may create. */
  datatype NewIds = NewIds(playlistId: string, linkId: string)

  datatype CreateResponse =
    | UrlRequired        // 400 "Playlist URL is required"
    | InvalidPlaylistUrl // 400 "Invalid Spotify playlist URL"
    | CreateFailed       // 500, the slug loop gave up
    | Created(link: TrackingLink, url: string)

  /** `POST /api/links`. A new link takes the schema's default
      `isActive`, which is true. The placeholder playlist is written before
      the slug loop, so it stays when the loop gives up. */
  method CreateLink(db: Db, req: CreateRequest, gen: nat -> string, ids: NewIds, now: int, baseUrl: string)
    returns (resp: CreateResponse, db': Db)
    ensures resp == UrlRequired <==> Falsy(req.playlistUrl)
    ensures resp == InvalidPlaylistUrl <==> ParseCreateRequest(req) == InvalidUrl
    ensures resp == UrlRequired || resp == InvalidPlaylistUrl ==> db' == db
    ensures resp == CreateFailed ==> forall k :: 0 <= k < 10 ==> SlugTaken(db.links, gen(k))
    ensures resp.CreateFailed? || resp.Created? ==> ParseCreateRequest(req).PlaylistId?
    ensures resp.Created? ==>
      && !SlugTaken(db.links, resp.link.slug)
      && (exists k :: 0 <= k < 10 && resp.link.slug == gen(k))
      && resp.url == baseUrl + "/" + resp.link.slug
      && resp.link.title == StoredTitle(req.title)
      && resp.link.isActive && resp.link.createdAt == now
      && db'.links == db.links + [resp.link]
      && FindPlaylistById(db'.playlists, resp.link.playlistId).Some?
    ensures resp.Created? ==>
      exists p :: p in db'.playlists && p.id == resp.link.playlistId
        && p.spotifyId == ParseCreateRequest(req).id
    ensures resp.CreateFailed? || resp.Created? ==>
      db'.playlists == EnsurePlaylist(db.playlists, ParseCreateRequest(req).id, ids.playlistId).1
    ensures resp == CreateFailed ==> db'.links == db.links
    ensures db' == db.(playlists := db'.playlists, links := db'.links)
    ensures |db.playlists| <= |db'.playlists| <= |db.playlists| + 1
  {
    var parsed := ParseCreateRequest(req);
    if parsed == MissingUrl {
      return UrlRequired, db;
    }
    if parsed == InvalidUrl {
      return InvalidPlaylistUrl, db;
    }
    var (playlist, playlists) := EnsurePlaylist(db.playlists, parsed.id, ids.playlistId);
    db' := db.(playlists := playlists);
    var slug := ChooseSlug(db.links, gen);
    if slug.None? {
      return CreateFailed, db';
    }
    var link := TrackingLink(ids.linkId, slug.value, playlist.id, StoredTitle(req.title), true, now);
    db' := db'.(links := db.links + [link]);
    PlaylistIsFound(playlists, playlist);
    resp := Created(link, baseUrl + "/" + slug.value);
  }

  lemma PlaylistIsFound(playlists: seq<Playlist>, p: Playlist)
    requires p in playlists
    ensures FindPlaylistById(playlists, p.id).Some?
  {
    var i :| 0 <= i < |playlists| && playlists[i] == p;
  }

  predicate IsActiveLink(l: TrackingLink) {
    l.isActive
  }

  /** `GET /api/links`: the active links, newest first. */
  function ListActiveLinks(links: seq<TrackingLink>): (r: seq<TrackingLink>)
    ensures multiset(r) == multiset(Filter(links, IsActiveLink))
    ensures forall i :: 0 <= i < |r| ==> r[i].isActive
    ensures forall i :: 0 <= i < |links| && links[i].isActive ==> links[i] in r
    ensures forall i :: 0 <= i < |r| ==> r[i] in links
    ensures forall i, j :: 0 <= i < j < |r| ==> r[i].createdAt >= r[j].createdAt
  {
    var active := Filter(links, IsActiveLink);
    var r := SortDesc(active, (l: TrackingLink) => l.createdAt);
    FilterMembers(links, IsActiveLink);
    SameMembers(active, r);
    forall i | 0 <= i < |r|
      ensures r[i] in links && r[i].isActive
    {
      assert r[i] in r;
    }
    forall i | 0 <= i < |links| && links[i].isActive
      ensures links[i] in r
    {
      assert links[i] in links;
    }
    r
  }
}

=== FILE: metrics.dfy ===
/** Dashboard metrics (src/lib/metrics.ts): the totals and last-seven-day
    counts of a tracking link, its newest connections, its zero-filled
    daily rows, one listener's figures, and cohort retention.

    Each Prisma `count`/`findMany` becomes a `Filter` over the in-memory
    tables with a named selector, so that a count in a result and the same
    count in a lemma are one and the same term. Prisma's relation filters
    (`connection: { linkId }`, `plays: { some }`, `dailyAggregates:
    { some }`) become bounded existentials over the related table. */
module Metrics {
  import opened Common
  import opened Time
  import opened Store
  import Sessions

  const MINUTE_MS: nat := 60000

  /** `Math.round(ms / 60000)` for a non-negative total: the whole number
      of minutes nearest to `ms`, a half minute rounding up. */
  function RoundMinutes(ms: nat): (m: nat)
    ensures m * MINUTE_MS - MINUTE_MS / 2 <= ms < m * MINUTE_MS + MINUTE_MS / 2
  {
    (ms + MINUTE_MS / 2) / MINUTE_MS
  }

  /** `_sum: { durationMs: true }` and the `reduce` of `getUserMetrics`. */
  function SumDurations(plays: seq<Play>): (total: nat)
    ensures |plays| == 0 ==> total == 0
    ensures forall i :: 0 <= i < |plays| ==> plays[i].durationMs <= total
    decreases |plays|
  {
    if |plays| == 0 then 0 else plays[0].durationMs + SumDurations(plays[1..])
  }

  // ----- Selectors -----

  /** `connection: { linkId }`: the play's connection belongs to the link. */
  predicate PlayOfLink(conns: seq<Connection>, p: Play, linkId: string) {
    exists i | 0 <= i < |conns| :: conns[i].id == p.connectionId && conns[i].linkId == linkId
  }

  function OfLink(linkId: string): Connection -> bool {
    (c: Connection) => c.linkId == linkId
  }

  function ActiveOfLink(linkId: string, now: int): Connection -> bool {
    (c: Connection) => c.linkId == linkId && InActiveWindow(c, now)
  }

  /** `dailyAggregates: { some: { superListenerDay: true } }`, the days
      restricted to [lo, hi]. */
  predicate HasSuperDayIn(days: seq<UserDayAggregate>, id: string, lo: int, hi: int) {
    exists k | 0 <= k < |days| :: days[k].connectionId == id && days[k].superListenerDay && lo <= days[k].day <= hi
  }

  predicate HasSuperDay(days: seq<UserDayAggregate>, id: string) {
    exists k | 0 <= k < |days| :: days[k].connectionId == id && days[k].superListenerDay
  }

  function SuperOfLink(days: seq<UserDayAggregate>, linkId: string): Connection -> bool {
    (c: Connection) => c.linkId == linkId && HasSuperDay(days, c.id)
  }

  function MatchedOfLink(conns: seq<Connection>, linkId: string): Play -> bool {
    (p: Play) => p.matchedPlaylist && PlayOfLink(conns, p, linkId)
  }

  // ----- Last seven days -----

  /** `getLastNDaysCopenhagen(7)` cut to its first and last key. */
  datatype Window = Window(lo: int, hi: int)

  /** The window runs from six days before today's key up to today's key
      itself, both ends inclusive: an instant later on the current day is
      past `hi`. */
  function Last7Window(z: Zone, now: int): (w: Window)
    ensures w.hi == TodayCopenhagenKey(z, now)
    ensures w.lo == w.hi - 6 * DAY_MS
  {
    var days := LastNDaysCopenhagen(z, now, 7);
    Window(days[0], days[6])
  }

  function JoinedIn(linkId: string, w: Window): Connection -> bool {
    (c: Connection) => c.linkId == linkId && w.lo <= c.connectedAt <= w.hi
  }

  function MatchedOfLinkIn(conns: seq<Connection>, linkId: string, w: Window): Play -> bool {
    (p: Play) => p.matchedPlaylist && PlayOfLink(conns, p, linkId) && w.lo <= p.playedAt <= w.hi
  }

  /** `plays: { some: { playedAt in window, matchedPlaylist: true } }`. */
  predicate ListenedIn(plays: seq<Play>, id: string, w: Window) {
    exists k | 0 <= k < |plays| :: plays[k].connectionId == id && plays[k].matchedPlaylist && w.lo <= plays[k].playedAt <= w.hi
  }

  function ListenerOfLinkIn(plays: seq<Play>, linkId: string, w: Window): Connection -> bool {
    (c: Connection) => c.linkId == linkId && ListenedIn(plays, c.id, w)
  }

  function SuperOfLinkIn(days: seq<UserDayAggregate>, linkId: string, w: Window): Connection -> bool {
    (c: Connection) => c.linkId == linkId && HasSuperDayIn(days, c.id, w.lo, w.hi)
  }

  datatype Last7 = Last7(newConnections: nat, activeListeners: nat, tracksPlayed: nat, superListeners: nat)

  /** `getLast7DaysMetrics`. With connection ids unique, a connection can
      only count as an active listener through a play that is itself
      counted, so there are never more listeners than plays. */
  function Last7DaysMetrics(db: Db, linkId: string, z: Zone, now: int): (r: Last7)
    ensures var w := Last7Window(z, now);
      && r.newConnections == |Filter(db.connections, JoinedIn(linkId, w))|
      && r.activeListeners == |Filter(db.connections, ListenerOfLinkIn(db.plays, linkId, w))|
      && r.tracksPlayed == |Filter(db.plays, MatchedOfLinkIn(db.connections, linkId, w))|
      && r.superListeners == |Filter(db.connections, SuperOfLinkIn(db.userDays, linkId, w))|
    ensures UniqueConnectionIds(db) ==> r.activeListeners <= r.tracksPlayed
  {
    var w := Last7Window(z, now);
    var r := Last7(
      |Filter(db.connections, JoinedIn(linkId, w))|,
      |Filter(db.connections, ListenerOfLinkIn(db.plays, linkId, w))|,
      |Filter(db.plays, MatchedOfLinkIn(db.connections, linkId, w))|,
      |Filter(db.connections, SuperOfLinkIn(db.userDays, linkId, w))|);
    ListenersAtMostPlays(db, linkId, w);
    r
  }

  lemma ListenersAtMostPlays(db: Db, linkId: string, w: Window)
    ensures UniqueConnectionIds(db) ==>
      |Filter(db.connections, ListenerOfLinkIn(db.plays, linkId, w))| <= |Filter(db.plays, MatchedOfLinkIn(db.connections, linkId, w))|
  {
    if UniqueConnectionIds(db) {
      var conns, plays := db.connections, db.plays;
      var p := ListenerOfLinkIn(plays, linkId, w);
      var q := MatchedOfLinkIn(conns, linkId, w);
      forall i | 0 <= i < |conns| && p(conns[i])
        ensures exists j :: 0 <= j < |plays| && q(plays[j]) && plays[j].connectionId == conns[i].id
      {
        var k :| 0 <= k < |plays| && plays[k].connectionId == conns[i].id && plays[k].matchedPlaylist && w.lo <= plays[k].playedAt <= w.hi;
        assert PlayOfLink(conns, plays[k], linkId);
      }
      CountByInjection(conns, p, (c: Connection) => c.id, plays, q, (x: Play) => x.connectionId);
    }
  }

  /** The window stops at today's key: a matched play later on the current
      day, past that instant, adds nothing to the seven-day play count. */
  lemma PlayAfterTodaysKeyIsNotCounted(db: Db, linkId: string, z: Zone, now: int, p: Play)
    requires p.playedAt > TodayCopenhagenKey(z, now)
    ensures var db' := db.(plays := db.plays + [p]);
      Last7DaysMetrics(db', linkId, z, now).tracksPlayed == Last7DaysMetrics(db, linkId, z, now).tracksPlayed
  {
    var w := Last7Window(z, now);
    FilterConcat(db.plays, [p], MatchedOfLinkIn(db.connections, linkId, w));
  }

  // ----- Recent connections -----

  const RECENT_WINDOW_MS: int := 7 * DAY_MS
  const RECENT_LIMIT: nat := 10

  datatype UserSummary = UserSummary(displayName: Option<string>, email: Option<string>)

  datatype RecentConnection = RecentConnection(
    id: string,
    user: Option<UserSummary>,
    connectedAt: int,
    totalTracksPlayed: nat,
    totalMinutes: nat)

  function JoinedAt(c: Connection): int {
    c.connectedAt
  }

  function JoinedRecently(linkId: string, now: int): Connection -> bool {
    (c: Connection) => c.linkId == linkId && c.connectedAt >= now - RECENT_WINDOW_MS
  }

  function PlaysOf(id: string): Play -> bool {
    (p: Play) => p.connectionId == id
  }

  /** `orderBy: { connectedAt: 'desc' }, take: 10` over the recent
      connections of the link: at most ten, newest first, and every recent
      connection left out is no newer than the last one kept. */
  function Newest(conns: seq<Connection>, linkId: string, now: int): (top: seq<Connection>)
    ensures var eligible := Filter(conns, JoinedRecently(linkId, now));
      && |top| == Min(RECENT_LIMIT, |eligible|)
      && SortedDesc(top, JoinedAt)
      && multiset(top) <= multiset(eligible)
      && (forall i :: 0 <= i < |top| ==> top[i] in eligible)
      && (forall c :: c in eligible && c !in top ==>
            |top| == RECENT_LIMIT && c.connectedAt <= top[|top| - 1].connectedAt)
  {
    var eligible := Filter(conns, JoinedRecently(linkId, now));
    var sorted := SortDesc(eligible, JoinedAt);
    var n := Min(RECENT_LIMIT, |sorted|);
    TopOfSortedPermutation(sorted, eligible, JoinedAt, n);
    sorted[..n]
  }

  /** `getRecentConnections`: the newest connections with their user's
      name and email, the count of all their plays, matched or not, and a
      minute total that is always 0. */
  function RecentConnections(db: Db, linkId: string, now: int): (r: seq<RecentConnection>)
    ensures var top := Newest(db.connections, linkId, now);
      && |r| == |top|
      && (forall i :: 0 <= i < |r| ==>
            && r[i].id == top[i].id
            && r[i].connectedAt == top[i].connectedAt
            && r[i].totalTracksPlayed == |Filter(db.plays, PlaysOf(top[i].id))|
            && r[i].totalMinutes == 0)
    ensures |r| <= RECENT_LIMIT
    ensures forall i :: 0 <= i < |r| ==> r[i].connectedAt >= now - RECENT_WINDOW_MS
    ensures forall i, j :: 0 <= i < j < |r| ==> r[i].connectedAt >= r[j].connectedAt
  {
    var top := Newest(db.connections, linkId, now);
    seq(|top|, i requires 0 <= i < |top| =>
      var c := top[i];
      RecentConnection(
        c.id,
        if c.spotifyUserId in db.users
        then Some(UserSummary(db.users[c.spotifyUserId].displayName, db.users[c.spotifyUserId].email))
        else None,
        c.connectedAt,
        |Filter(db.plays, PlaysOf(c.id))|,
        0))
  }

  // ----- Link totals -----

  datatype LinkMetrics = LinkMetrics(
    totalConnections: nat,
    totalActiveListeners: nat,
    totalTracksPlayed: nat,
    totalMinutesListened: nat,
    totalSuperListeners: nat,
    last7Days: Last7,
    recentConnections: seq<RecentConnection>)

  /** `getLinkMetrics`. */
  function GetLinkMetrics(db: Db, linkId: string, z: Zone, now: int): (m: LinkMetrics)
    ensures m.totalConnections == |Filter(db.connections, OfLink(linkId))|
    ensures m.totalActiveListeners == |Filter(db.connections, ActiveOfLink(linkId, now))|
    ensures m.totalTracksPlayed == |Filter(db.plays, MatchedOfLink(db.connections, linkId))|
    ensures var ms := SumDurations(Filter(db.plays, MatchedOfLink(db.connections, linkId)));
      m.totalMinutesListened * MINUTE_MS - MINUTE_MS / 2 <= ms < m.totalMinutesListened * MINUTE_MS + MINUTE_MS / 2
    ensures m.totalSuperListeners == |Filter(db.connections, SuperOfLink(db.userDays, linkId))|
    ensures m.last7Days == Last7DaysMetrics(db, linkId, z, now)
    ensures m.recentConnections == RecentConnections(db, linkId, now)
  {
    var matched := Filter(db.plays, MatchedOfLink(db.connections, linkId));
    LinkMetrics(
      |Filter(db.connections, OfLink(linkId))|,
      |Filter(db.connections, ActiveOfLink(linkId, now))|,
      |matched|,
      RoundMinutes(SumDurations(matched)),
      |Filter(db.connections, SuperOfLink(db.userDays, linkId))|,
      Last7DaysMetrics(db, linkId, z, now),
      RecentConnections(db, linkId, now))
  }

  /** How the figures of one link bound each other: active listeners,
      super listeners and new connections are all connections of the link;
      the seven-day plays and super listeners are among the all-time ones;
      the newest connections are among the new ones, and there are never
      more seven-day listeners than seven-day plays. */
  lemma LinkMetricsAreConsistent(db: Db, linkId: string, z: Zone, now: int)
    requires UniqueConnectionIds(db)
    ensures var m := GetLinkMetrics(db, linkId, z, now);
      && m.totalActiveListeners <= m.totalConnections
      && m.totalSuperListeners <= m.totalConnections
      && m.last7Days.newConnections <= m.totalConnections
      && m.last7Days.activeListeners <= m.last7Days.tracksPlayed
      && m.last7Days.tracksPlayed <= m.totalTracksPlayed
      && m.last7Days.superListeners <= m.totalSuperListeners
  {
    var w := Last7Window(z, now);
    FilterMono(db.connections, ActiveOfLink(linkId, now), OfLink(linkId));
    FilterMono(db.connections, SuperOfLink(db.userDays, linkId), OfLink(linkId));
    FilterMono(db.connections, JoinedIn(linkId, w), OfLink(linkId));
    FilterMono(db.plays, MatchedOfLinkIn(db.connections, linkId, w), MatchedOfLink(db.connections, linkId));
    forall i | 0 <= i < |db.connections| && SuperOfLinkIn(db.userDays, linkId, w)(db.connections[i])
      ensures SuperOfLink(db.userDays, linkId)(db.connections[i])
    {
      var k :| 0 <= k < |db.userDays| && db.userDays[k].connectionId == db.connections[i].id
        && db.userDays[k].superListenerDay && w.lo <= db.userDays[k].day <= w.hi;
    }
    FilterMono(db.connections, SuperOfLinkIn(db.userDays, linkId, w), SuperOfLink(db.userDays, linkId));
  }

  // ----- Daily rows -----

  datatype DailyRow = DailyRow(
    day: int,
    connectionsNew: nat,
    activeListeners: nat,
    tracksPlayed: nat,
    minutesListened: nat,
    superListeners: nat)

  function RowOf(a: LinkDayAggregate): DailyRow {
    DailyRow(a.day, a.connectionsNew, a.activeListeners, a.tracksPlayed, a.minutesListened, a.superListeners)
  }

  function ZeroRow(day: int): DailyRow {
    DailyRow(day, 0, 0, 0, 0, 0)
  }

  /** A stored row of the link for exactly this day key. */
  predicate StoredFor(a: LinkDayAggregate, linkId: string, day: int) {
    a.linkId == linkId && a.day == day
  }

  /** `dailyMetrics.find(m => m.day.getTime() === date.getTime())` over the
      link's stored rows. */
  function FindRow(rows: seq<LinkDayAggregate>, linkId: string, day: int): (r: Option<LinkDayAggregate>)
    ensures r.Some? ==> r.value in rows && StoredFor(r.value, linkId, day)
    ensures r.None? ==> forall i :: 0 <= i < |rows| ==> !StoredFor(rows[i], linkId, day)
    decreases |rows|
  {
    if |rows| == 0 then None
    else if StoredFor(rows[0], linkId, day) then Some(rows[0])
    else FindRow(rows[1..], linkId, day)
  }

  /** `getLinkDailyMetrics` (called with 30 days by default): one row per
      key of the range, oldest first; a day the link has a stored row for
      shows that row, any other day an all-zero row. */
  function GetLinkDailyMetrics(db: Db, linkId: string, z: Zone, now: int, days: nat): (r: seq<DailyRow>)
    ensures |r| == days
    ensures forall k :: 0 <= k < days ==> r[k].day == TodayCopenhagenKey(z, now) - (days - 1 - k) * DAY_MS
    ensures forall k :: 0 < k < days ==> r[k].day == r[k - 1].day + DAY_MS
    ensures forall k :: 0 <= k < days ==>
      (exists i :: 0 <= i < |db.linkDays| && StoredFor(db.linkDays[i], linkId, r[k].day) && r[k] == RowOf(db.linkDays[i]))
      || (r[k] == ZeroRow(r[k].day) && forall i :: 0 <= i < |db.linkDays| ==> !StoredFor(db.linkDays[i], linkId, r[k].day))
  {
    var range := LastNDaysCopenhagen(z, now, days);
    seq(days, k requires 0 <= k < days =>
      match FindRow(db.linkDays, linkId, range[k])
      case Some(a) => RowOf(a)
      case None => ZeroRow(range[k]))
  }

  // ----- One listener -----

  datatype UserMetrics = UserMetrics(
    totalTracksPlayed: nat,
    totalMinutesListened: nat,
    totalSessions: nat,
    superListenerCount: nat,
    lastActive: Option<int>,
    followsPlaylist: bool,
    savedAny: bool)

  function PlayedAt(p: Play): int {
    p.playedAt
  }

  function MatchedOf(id: string): Play -> bool {
    (p: Play) => p.connectionId == id && p.matchedPlaylist
  }

  function SessionsOf(db: Db, id: string): seq<Sessions.ListeningSession> {
    if id in db.sessions then db.sessions[id] else []
  }

  /** `plays[0].playedAt` over plays ordered by `playedAt` descending:
      the latest instant among them, or nothing when there are none. */
  function LatestPlay(plays: seq<Play>): (r: Option<int>)
    ensures r.None? <==> |plays| == 0
    ensures r.Some? ==> exists i :: 0 <= i < |plays| && plays[i].playedAt == r.value
    ensures r.Some? ==> forall i :: 0 <= i < |plays| ==> plays[i].playedAt <= r.value
  {
    if |plays| == 0 then None
    else
      var newest := SortDesc(plays, PlayedAt);
      SortDescEnds(plays, PlayedAt);
      assert newest[0] in plays;
      Some(newest[0].playedAt)
  }

  /** A session that reached the super-listener mark. */
  predicate IsSuperSession(s: Sessions.ListeningSession) {
    s.superListenerHit
  }

  /** `getUserMetrics`: the connection's matched plays, their rounded
      minutes, its sessions and how many of them hit the super-listener
      mark, the latest matched play, and whether any of its day rows records
      a follow or a save. */
  function GetUserMetrics(db: Db, connectionId: string): (m: UserMetrics)
    ensures var plays := Filter(db.plays, MatchedOf(connectionId));
      && m.totalTracksPlayed == |plays|
      && m.totalMinutesListened * MINUTE_MS - MINUTE_MS / 2 <= SumDurations(plays) < m.totalMinutesListened * MINUTE_MS + MINUTE_MS / 2
      && m.lastActive == LatestPlay(plays)
    ensures m.totalSessions == |SessionsOf(db, connectionId)|
    ensures m.superListenerCount == |Filter(SessionsOf(db, connectionId), IsSuperSession)|
    ensures m.superListenerCount <= m.totalSessions
    ensures m.followsPlaylist <==> exists k :: 0 <= k < |db.userDays| && db.userDays[k].connectionId == connectionId && db.userDays[k].followsPlaylist
    ensures m.savedAny <==> exists k :: 0 <= k < |db.userDays| && db.userDays[k].connectionId == connectionId && db.userDays[k].savedAny
  {
    var plays := Filter(db.plays, MatchedOf(connectionId));
    var sessions := SessionsOf(db, connectionId);
    UserMetrics(
      |plays|,
      RoundMinutes(SumDurations(plays)),
      |sessions|,
      |Filter(sessions, IsSuperSession)|,
      LatestPlay(plays),
      exists k | 0 <= k < |db.userDays| :: db.userDays[k].connectionId == connectionId && db.userDays[k].followsPlaylist,
      exists k | 0 <= k < |db.userDays| :: db.userDays[k].connectionId == connectionId && db.userDays[k].savedAny)
  }

  /** The last-active instant is a matched play of the connection, and no
      matched play of the connection is later. */
  lemma LastActiveIsTheLatestMatchedPlay(db: Db, connectionId: string)
    ensures var m := GetUserMetrics(db, connectionId);
      && (m.lastActive.None? <==> forall i :: 0 <= i < |db.plays| ==> !MatchedOf(connectionId)(db.plays[i]))
      && (m.lastActive.Some? ==>
            && (exists i :: 0 <= i < |db.plays| && db.plays[i].connectionId == connectionId
                  && db.plays[i].matchedPlaylist && db.plays[i].playedAt == m.lastActive.value)
            && (forall i :: 0 <= i < |db.plays| && db.plays[i].connectionId == connectionId && db.plays[i].matchedPlaylist ==>
                  db.plays[i].playedAt <= m.lastActive.value))
  {
    var plays := Filter(db.plays, MatchedOf(connectionId));
    var m := GetUserMetrics(db, connectionId);
    if m.lastActive.Some? {
      var i :| 0 <= i < |plays| && plays[i].playedAt == m.lastActive.value;
      assert plays[i] in db.plays;
      forall j | 0 <= j < |db.plays| && db.plays[j].connectionId == connectionId && db.plays[j].matchedPlaylist
        ensures db.plays[j].playedAt <= m.lastActive.value
      {
        assert MatchedOf(connectionId)(db.plays[j]);
        assert db.plays[j] in plays;
      }
    }
  }

  // ----- Cohort retention -----

  /** The connections of the link the cohort query fetches, AS WRITTEN:
      `connectedAt: { in: dateRange }` keeps a connection only when its
      join instant is one of the range's day keys exactly. */
  function JoinedAtAKey(linkId: string, range: seq<int>): Connection -> bool {
    (c: Connection) => c.linkId == linkId && c.connectedAt in range
  }

  function CohortFetchAsWritten(conns: seq<Connection>, linkId: string, range: seq<int>): (r: seq<Connection>)
    ensures forall c :: c in r <==> c in conns && c.linkId == linkId && c.connectedAt in range
  {
    Filter(conns, JoinedAtAKey(linkId, range))
  }

  /** A connection of the link that joined during a day of the range but
      not at the very instant of its day key is missed by the query as
      written, though its own day key is in the range. */
  lemma CohortFetchAsWrittenMissesMidDayJoins(conns: seq<Connection>, linkId: string, z: Zone, range: seq<int>, c: Connection)
    requires c in conns && c.linkId == linkId
    requires CopenhagenDateKey(z, c.connectedAt) in range && c.connectedAt !in range
    ensures c !in CohortFetchAsWritten(conns, linkId, range)
    ensures c in CohortFetch(conns, linkId, z, range)
  {
  }

  /** Every range key is at or before today's key, so a join later than
      today's key instant (any join today but one at local midnight) is
      never one of them. */
  lemma JoinAfterTodaysKeyIsNoKey(z: Zone, now: int, n: nat, t: int)
    requires t > TodayCopenhagenKey(z, now)
    ensures t !in LastNDaysCopenhagen(z, now, n)
  {
    var range := LastNDaysCopenhagen(z, now, n);
    forall k | 0 <= k < n
      ensures range[k] <= TodayCopenhagenKey(z, now)
    {
      assert (n - 1 - k) * DAY_MS >= 0;
    }
  }

  /** A concrete instance: with a zone whose local time is UTC, a listener
      who connected at 01:00 today is in today's cohort yet fetched by
      nobody, so every cohort table omits them. */
  lemma OneAmJoinIsOmitted()
    ensures var z := Zone(x => x, x => x - x % DAY_MS);
      var now := 20000 * DAY_MS + 12 * 3600000;
      var c := Connection("c1", "l1", "u1", None, 20000 * DAY_MS + 3600000, true, None, None);
      var range := LastNDaysCopenhagen(z, now, 30);
      && CopenhagenDateKey(z, c.connectedAt) == TodayCopenhagenKey(z, now)
      && CohortFetchAsWritten([c], "l1", range) == []
      && CohortFetch([c], "l1", z, range) == [c]
      && GetCohortRetention(Db([], [], map[], [], [c], [], map[], [], []), "l1", z, now, 30) != []
  {
    var z := Zone(x => x, x => x - x % DAY_MS);
    var now := 20000 * DAY_MS + 12 * 3600000;
    var c := Connection("c1", "l1", "u1", None, 20000 * DAY_MS + 3600000, true, None, None);
    var range := LastNDaysCopenhagen(z, now, 30);
    assert TodayCopenhagenKey(z, now) == 20000 * DAY_MS == CopenhagenDateKey(z, c.connectedAt);
    JoinAfterTodaysKeyIsNoKey(z, now, 30, c.connectedAt);
    assert range[29] == CopenhagenDateKey(z, c.connectedAt);
    CohortFetchAsWrittenMissesMidDayJoins([c], "l1", z, range, c);
    OnlyOneCandidate(CohortFetchAsWritten([c], "l1", range), c);
    OnlyOneCandidate(CohortFetch([c], "l1", z, range), c);
    var cohorts := GroupByCohort(z, CohortFetch([c], "l1", z, range));
    assert c in CohortFetch([c], "l1", z, range);
    assert |cohorts| > 0;
  }

  /** A sub-sequence of [c] is [c] when c is in it and [] when not. */
  lemma OnlyOneCandidate(r: seq<Connection>, c: Connection)
    requires |r| <= 1 && forall i :: 0 <= i < |r| ==> r[i] == c
    ensures c in r ==> r == [c]
    ensures c !in r ==> r == []
  {
    if |r| == 1 {
      assert r == [r[0]];
    }
  }

  /** The intended fetch: every connection of the link whose Copenhagen day
      key is one of the range's days. */
  function JoinedOnARangeDay(linkId: string, z: Zone, range: seq<int>): Connection -> bool {
    (c: Connection) => c.linkId == linkId && CopenhagenDateKey(z, c.connectedAt) in range
  }

  function CohortFetch(conns: seq<Connection>, linkId: string, z: Zone, range: seq<int>): (r: seq<Connection>)
    ensures forall c :: c in r <==> c in conns && c.linkId == linkId && CopenhagenDateKey(z, c.connectedAt) in range
  {
    Filter(conns, JoinedOnARangeDay(linkId, z, range))
  }

  /** The cohort of a connection: the UTC calendar date of its Copenhagen
      day key, `startOfCopenhagenDay(connectedAt).toISOString().split('T')[0]`. */
  function CohortDateOf(z: Zone, c: Connection): int {
    UtcDateOf(StartOfCopenhagenDay(z, c.connectedAt))
  }

  function InCohort(z: Zone, date: int): Connection -> bool {
    (c: Connection) => CohortDateOf(z, c) == date
  }

  datatype Cohort = Cohort(cohortDate: int, members: seq<Connection>)

  function IndexOfCohort(cohorts: seq<Cohort>, date: int): (r: Option<nat>)
    ensures r.Some? ==> r.value < |cohorts| && cohorts[r.value].cohortDate == date
    ensures r.None? ==> forall i :: 0 <= i < |cohorts| ==> cohorts[i].cohortDate != date
    decreases |cohorts|
  {
    if |cohorts| == 0 then None
    else if cohorts[0].cohortDate == date then Some(0)
    else match IndexOfCohort(cohorts[1..], date)
      case None => None
      case Some(i) => Some(i + 1)
  }

  /** The cohorts of `conns`: each holds, in fetch order, exactly the
      connections of its date and is not empty; no two share a date; and
      every connection's date has its cohort. */
  ghost predicate GroupedBy(z: Zone, conns: seq<Connection>, r: seq<Cohort>) {
    && (forall i :: 0 <= i < |r| ==> r[i].members == Filter(conns, InCohort(z, r[i].cohortDate)))
    && (forall i :: 0 <= i < |r| ==> |r[i].members| > 0)
    && (forall i, j :: 0 <= i < j < |r| ==> r[i].cohortDate != r[j].cohortDate)
    && (forall c :: c in conns ==> exists i :: 0 <= i < |r| && r[i].cohortDate == CohortDateOf(z, c))
  }

  /** The grouping loop over a `Map`, which keeps keys in first-insertion
      order: a connection joins the cohort of its date, or opens a new one
      at the end. */
  function GroupByCohort(z: Zone, conns: seq<Connection>): (r: seq<Cohort>)
    ensures GroupedBy(z, conns, r)
    decreases |conns|
  {
    if |conns| == 0 then []
    else
      var init := conns[..|conns| - 1];
      var c := conns[|conns| - 1];
      assert conns == init + [c];
      var prev := GroupByCohort(z, init);
      var date := CohortDateOf(z, c);
      match IndexOfCohort(prev, date)
      case Some(k) =>
        JoinExistingCohort(z, init, c, prev, k);
        prev[k := Cohort(date, prev[k].members + [c])]
      case None =>
        OpenNewCohort(z, init, c, prev);
        prev + [Cohort(date, [c])]
  }

  lemma JoinExistingCohort(z: Zone, init: seq<Connection>, c: Connection, prev: seq<Cohort>, k: nat)
    requires GroupedBy(z, init, prev)
    requires k < |prev| && prev[k].cohortDate == CohortDateOf(z, c)
    ensures GroupedBy(z, init + [c], prev[k := Cohort(CohortDateOf(z, c), prev[k].members + [c])])
  {
    var r := prev[k := Cohort(CohortDateOf(z, c), prev[k].members + [c])];
    forall i | 0 <= i < |r|
      ensures r[i].members == Filter(init + [c], InCohort(z, r[i].cohortDate))
    {
      FilterSnoc(init, c, InCohort(z, r[i].cohortDate));
    }
    CoveredAfterAppend(z, init, c, prev, r, k);
  }

  lemma OpenNewCohort(z: Zone, init: seq<Connection>, c: Connection, prev: seq<Cohort>)
    requires GroupedBy(z, init, prev)
    requires forall i :: 0 <= i < |prev| ==> prev[i].cohortDate != CohortDateOf(z, c)
    ensures GroupedBy(z, init + [c], prev + [Cohort(CohortDateOf(z, c), [c])])
  {
    var r := prev + [Cohort(CohortDateOf(z, c), [c])];
    NoOneInNewCohort(z, init, c, prev);
    MembersAfterNewCohort(z, init, c, prev);
    CoveredAfterAppend(z, init, c, prev, r, |prev|);
  }

  /** No connection grouped so far has the date of a new cohort. */
  lemma NoOneInNewCohort(z: Zone, init: seq<Connection>, c: Connection, prev: seq<Cohort>)
    requires forall x :: x in init ==> exists i :: 0 <= i < |prev| && prev[i].cohortDate == CohortDateOf(z, x)
    requires forall i :: 0 <= i < |prev| ==> prev[i].cohortDate != CohortDateOf(z, c)
    ensures Filter(init, InCohort(z, CohortDateOf(z, c))) == []
  {
    var date := CohortDateOf(z, c);
    forall k | 0 <= k < |init|
      ensures !InCohort(z, date)(init[k])
    {
      assert init[k] in init;
    }
    FilterNone(init, InCohort(z, date));
  }

  /** The first three parts of `GroupedBy` after a new cohort: old cohorts
      keep their members, the new one holds c alone, none is empty, and
      the dates stay distinct. */
  lemma MembersAfterNewCohort(z: Zone, init: seq<Connection>, c: Connection, prev: seq<Cohort>)
    requires forall i :: 0 <= i < |prev| ==> prev[i].members == Filter(init, InCohort(z, prev[i].cohortDate))
    requires forall i :: 0 <= i < |prev| ==> |prev[i].members| > 0
    requires forall i, j :: 0 <= i < j < |prev| ==> prev[i].cohortDate != prev[j].cohortDate
    requires forall i :: 0 <= i < |prev| ==> prev[i].cohortDate != CohortDateOf(z, c)
    requires Filter(init, InCohort(z, CohortDateOf(z, c))) == []
    ensures var r := prev + [Cohort(CohortDateOf(z, c), [c])];
      && (forall i :: 0 <= i < |r| ==> r[i].members == Filter(init + [c], InCohort(z, r[i].cohortDate)))
      && (forall i :: 0 <= i < |r| ==> |r[i].members| > 0)
      && (forall i, j :: 0 <= i < j < |r| ==> r[i].cohortDate != r[j].cohortDate)
      && |prev| <= |r| && (forall i :: 0 <= i < |prev| ==> r[i].cohortDate == prev[i].cohortDate)
      && r[|prev|].cohortDate == CohortDateOf(z, c)
  {
    var r := prev + [Cohort(CohortDateOf(z, c), [c])];
    forall i | 0 <= i < |r|
      ensures r[i].members == Filter(init + [c], InCohort(z, r[i].cohortDate))
    {
      FilterSnoc(init, c, InCohort(z, r[i].cohortDate));
      if i < |prev| {
        assert r[i] == prev[i];
      }
    }
  }

  /** Every connection of `init + [c]` has its cohort in r, when r keeps
      the dates of prev and its k-th cohort is c's. */
  lemma CoveredAfterAppend(z: Zone, init: seq<Connection>, c: Connection, prev: seq<Cohort>, r: seq<Cohort>, k: nat)
    requires forall x :: x in init ==> exists i :: 0 <= i < |prev| && prev[i].cohortDate == CohortDateOf(z, x)
    requires |prev| <= |r| && forall i :: 0 <= i < |prev| ==> r[i].cohortDate == prev[i].cohortDate
    requires k < |r| && r[k].cohortDate == CohortDateOf(z, c)
    ensures forall x :: x in init + [c] ==> exists i :: 0 <= i < |r| && r[i].cohortDate == CohortDateOf(z, x)
  {
    forall x | x in init + [c]
      ensures exists i :: 0 <= i < |r| && r[i].cohortDate == CohortDateOf(z, x)
    {
      if x != c {
        assert x in init;
        var i :| 0 <= i < |prev| && prev[i].cohortDate == CohortDateOf(z, x);
        assert r[i].cohortDate == prev[i].cohortDate;
      }
    }
  }

  datatype RetentionPoint = RetentionPoint(date: int, activeUsers: nat, retentionRate: real)

  datatype CohortRetention = CohortRetention(cohortDate: int, totalUsers: nat, retentionByDay: seq<RetentionPoint>)

  /** `connection.dailyAggregates.some(...)`, the aggregates being the
      connection's rows whose day is one of the range's keys. */
  predicate ActiveOn(days: seq<UserDayAggregate>, range: seq<int>, c: Connection, date: int) {
    exists k | 0 <= k < |days| :: days[k].connectionId == c.id && days[k].day in range && UtcDateOf(days[k].day) == date
  }

  function ActiveOnDate(days: seq<UserDayAggregate>, range: seq<int>, date: int): Connection -> bool {
    (c: Connection) => ActiveOn(days, range, c, date)
  }

  /** `(activeUsers / connections.length) * 100`, or 0 for an empty cohort. */
  function RetentionRate(active: nat, total: nat): (rate: real)
    ensures total == 0 ==> rate == 0.0
    ensures total > 0 ==> rate * total as real == active as real * 100.0
    ensures active <= total ==> 0.0 <= rate <= 100.0
  {
    if total > 0 then
      var q := active as real / total as real;
      assert q * total as real == active as real;
      q * 100.0
    else 0.0
  }

  function RetentionOf(days: seq<UserDayAggregate>, range: seq<int>, cohort: Cohort): (r: CohortRetention)
    ensures r.cohortDate == cohort.cohortDate && r.totalUsers == |cohort.members|
    ensures |r.retentionByDay| == |range|
    ensures forall k :: 0 <= k < |range| ==>
      && r.retentionByDay[k].date == UtcDateOf(range[k])
      && r.retentionByDay[k].activeUsers == |Filter(cohort.members, ActiveOnDate(days, range, UtcDateOf(range[k])))|
      && r.retentionByDay[k].activeUsers <= r.totalUsers
      && 0.0 <= r.retentionByDay[k].retentionRate <= 100.0
  {
    var total := |cohort.members|;
    CohortRetention(cohort.cohortDate, total,
      seq(|range|, k requires 0 <= k < |range| =>
        var date := UtcDateOf(range[k]);
        var active := |Filter(cohort.members, ActiveOnDate(days, range, date))|;
        RetentionPoint(date, active, RetentionRate(active, total))))
  }

  /** `getCohortRetention` (30 days by default), with the intended fetch:
      one entry per cohort in first-seen order, each with one point per day
      of the range. */
  function GetCohortRetention(db: Db, linkId: string, z: Zone, now: int, days: nat): (r: seq<CohortRetention>)
    ensures var range := LastNDaysCopenhagen(z, now, days);
      var cohorts := GroupByCohort(z, CohortFetch(db.connections, linkId, z, range));
      && |r| == |cohorts|
      && forall i :: 0 <= i < |r| ==> r[i] == RetentionOf(db.userDays, range, cohorts[i])
  {
    var range := LastNDaysCopenhagen(z, now, days);
    var cohorts := GroupByCohort(z, CohortFetch(db.connections, linkId, z, range));
    seq(|cohorts|, i requires 0 <= i < |cohorts| => RetentionOf(db.userDays, range, cohorts[i]))
  }

  /** The cohorts partition the fetched connections: every cohort is
      non-empty and made of exactly the fetched connections of its date, no
      two cohorts share a date, and every fetched connection has its
      cohort. */
  lemma CohortsPartitionTheFetch(db: Db, linkId: string, z: Zone, now: int, days: nat)
    ensures var range := LastNDaysCopenhagen(z, now, days);
      var fetched := CohortFetch(db.connections, linkId, z, range);
      var r := GetCohortRetention(db, linkId, z, now, days);
      && (forall i :: 0 <= i < |r| ==> r[i].totalUsers == |Filter(fetched, InCohort(z, r[i].cohortDate))| > 0)
      && (forall i, j :: 0 <= i < j < |r| ==> r[i].cohortDate != r[j].cohortDate)
      && (forall c :: c in fetched ==> exists i :: 0 <= i < |r| && r[i].cohortDate == CohortDateOf(z, c))
  {
    var range := LastNDaysCopenhagen(z, now, days);
    var fetched := CohortFetch(db.connections, linkId, z, range);
    var cohorts := GroupByCohort(z, fetched);
    var r := GetCohortRetention(db, linkId, z, now, days);
    assert GroupedBy(z, fetched, cohorts);
    forall i | 0 <= i < |r|
      ensures r[i].cohortDate == cohorts[i].cohortDate && r[i].totalUsers == |cohorts[i].members|
    {
      assert r[i] == RetentionOf(db.userDays, range, cohorts[i]);
    }
    forall c | c in fetched
      ensures exists i :: 0 <= i < |r| && r[i].cohortDate == CohortDateOf(z, c)
    {
      var i :| 0 <= i < |cohorts| && cohorts[i].cohortDate == CohortDateOf(z, c);
      assert r[i].cohortDate == cohorts[i].cohortDate;
    }
  }

  /** No day shows more active users than its cohort has, and every rate
      lies in [0, 100]. */
  lemma RetentionRatesAreBounded(db: Db, linkId: string, z: Zone, now: int, days: nat)
    ensures var r := GetCohortRetention(db, linkId, z, now, days);
      forall i, k :: 0 <= i < |r| && 0 <= k < |r[i].retentionByDay| ==>
        && r[i].retentionByDay[k].activeUsers <= r[i].totalUsers
        && 0.0 <= r[i].retentionByDay[k].retentionRate <= 100.0
  {
    var range := LastNDaysCopenhagen(z, now, days);
    var cohorts := GroupByCohort(z, CohortFetch(db.connections, linkId, z, range));
    var r := GetCohortRetention(db, linkId, z, now, days);
    forall i | 0 <= i < |r|
      ensures r[i] == RetentionOf(db.userDays, range, cohorts[i])
    {
    }
  }
}

=== FILE: newlinkpage.dfy ===
/** The guards of the new-link form (src/app/links/new/page.tsx): the
    client-side playlist-id extraction and what the preview and create
    buttons do before any request leaves the browser. */
module NewLinkPage {
  import opened Common
  import opened JsString
  import opened LinksRoute

  /** `extractPlaylistId`: the same pattern as the server, '' on no match. */
  function ExtractPlaylistId(url: string): (r: string)
    ensures r == "" <==> forall i :: 0 <= i < |url| ==> !MatchesAt(url, i)
    ensures r != "" ==> AllIdChars(r) && exists i :: IsCaptureAt(url, i, r)
  {
    match MatchPlaylistId(url)
    case None => ""
    case Some(id) => id
  }

  /** The page and the server agree: a non-empty page result is exactly
      the server's capture, and '' stands for the server's 400. */
  lemma PageAndServerExtractTheSameId(url: string)
    ensures MatchPlaylistId(url).Some? ==> ExtractPlaylistId(url) == MatchPlaylistId(url).value
    ensures MatchPlaylistId(url).None? <==> ExtractPlaylistId(url) == ""
  {
  }

  datatype PreviewAction =
    | PreviewBlocked(message: string)
    | FetchPreview(playlistId: string)

  /** `handlePreview`: a blank URL sets an error and fetches nothing;
      otherwise the preview is asked for the extracted id of the untrimmed
      input. */
  function HandlePreview(url: string): (r: PreviewAction)
    ensures r.PreviewBlocked? <==> AllWhitespace(url)
    ensures r.PreviewBlocked? ==> r.message == "Please enter a Spotify playlist URL"
    ensures r.FetchPreview? ==> r.playlistId == ExtractPlaylistId(url)
  {
    TrimIsEmptyIffAllWhitespace(url);
    if Trim(url) == "" then PreviewBlocked("Please enter a Spotify playlist URL")
    else FetchPreview(ExtractPlaylistId(url))
  }

  datatype CreateAction =
    | CreateError(message: string)
    | PostLink(body: CreateRequest)

  /** `handleCreate`: a blank URL or a missing preview sets an error;
      otherwise the trimmed URL is posted with the trimmed title, or with
      no title when it is blank. */
  function HandleCreate(url: string, title: string, hasPreview: bool): (r: CreateAction)
    ensures r.CreateError? <==> AllWhitespace(url) || !hasPreview
    ensures r.CreateError? ==> r.message == "Please preview the playlist first"
    ensures r.PostLink? ==> r.body.playlistUrl == Some(Trim(url)) && Trim(url) != ""
    ensures r.PostLink? ==> (r.body.title.None? <==> AllWhitespace(title))
    ensures r.PostLink? && r.body.title.Some? ==> r.body.title.value == Trim(title)
  {
    TrimIsEmptyIffAllWhitespace(url);
    TrimIsEmptyIffAllWhitespace(title);
    if Trim(url) == "" || !hasPreview then CreateError("Please preview the playlist first")
    else
      var t := Trim(title);
      PostLink(CreateRequest(Some(Trim(url)), if t == "" then None else Some(t)))
  }

  /** A request the page sends never draws the server's "Playlist URL is
      required", and the title the server stores is the trimmed title, or
      null when it was blank. */
  lemma PageRequestsPassTheUrlCheck(url: string, title: string, hasPreview: bool)
    requires HandleCreate(url, title, hasPreview).PostLink?
    ensures var body := HandleCreate(url, title, hasPreview).body;
      && ParseCreateRequest(body) != MissingUrl
      && StoredTitle(body.title) == (if AllWhitespace(title) then None else Some(Trim(title)))
  {
    TrimIsEmptyIffAllWhitespace(title);
  }

  /** Leading and trailing white space never changes the capture: the
      id the preview asks for is the one the created link stores. */
  lemma TrimKeepsPlaylistId(url: string)
    ensures MatchPlaylistId(Trim(url)) == MatchPlaylistId(url)
  {
    var t := Trim(url);
    var a, b :| 0 <= a <= b <= |url| && t == url[a..b] && AllWhitespace(url[..a]) && AllWhitespace(url[b..]);
    if MatchPlaylistId(t).None? {
      NoMatchShift(url, a, b);
    } else {
      var id := MatchPlaylistId(t).value;
      var i :| IsCaptureAt(t, i, id);
      CaptureShift(url, a, b, i, id);
      MatchPlaylistIdIsTheCapture(url, id);
    }
  }

  lemma NoMatchShift(url: string, a: nat, b: nat)
    requires a <= b <= |url| && AllWhitespace(url[..a]) && AllWhitespace(url[b..])
    requires forall i :: 0 <= i < b - a ==> !MatchesAt(url[a..b], i)
    ensures forall i :: 0 <= i < |url| ==> !MatchesAt(url, i)
  {
    MatchShift(url, a, b);
    forall i | 0 <= i < |url| && i >= a
      ensures !MatchesAt(url, i)
    {
      assert !MatchesAt(url[a..b], i - a);
    }
  }

  /** Cutting white space off both ends moves every match start by the
      length of the cut prefix, and no match starts inside that prefix. */
  lemma MatchShift(url: string, a: nat, b: nat)
    requires a <= b <= |url| && AllWhitespace(url[..a]) && AllWhitespace(url[b..])
    ensures forall j :: 0 <= j < a ==> !MatchesAt(url, j)
    ensures forall i: nat :: MatchesAt(url[a..b], i) <==> MatchesAt(url, i + a)
  {
    var t := url[a..b];
    var n := |PLAYLIST_PREFIX|;
    forall j | 0 <= j < a
      ensures !MatchesAt(url, j)
    {
      assert IsWhitespace(url[j]) by {
        assert url[..a][j] == url[j];
      }
      if j + n < |url| {
        assert url[j..j + n][0] == url[j];
      }
    }
    forall i: nat | MatchesAt(url, i + a)
      ensures MatchesAt(t, i)
    {
      assert i + n < |t|;
      SliceOfSlice(url, a, b, i, i + n);
      assert t[i + n] == url[i + a + n];
    }
    forall i: nat | MatchesAt(t, i)
      ensures MatchesAt(url, i + a)
    {
      assert i + n < |t|;
      SliceOfSlice(url, a, b, i, i + n);
      assert t[i + n] == url[i + a + n];
    }
  }

  lemma CaptureShift(url: string, a: nat, b: nat, i: nat, id: string)
    requires a <= b <= |url| && AllWhitespace(url[..a]) && AllWhitespace(url[b..])
    requires IsCaptureAt(url[a..b], i, id)
    ensures IsCaptureAt(url, i + a, id)
  {
    var t := url[a..b];
    var n := |PLAYLIST_PREFIX|;
    MatchShift(url, a, b);
    forall j | 0 <= j < i + a
      ensures !MatchesAt(url, j)
    {
      if j >= a {
        assert !MatchesAt(t, j - a);
      }
    }
    var start := i + n;
    SliceOfSlice(url, a, b, start, start + |id|);
    if start + |id| == |t| && start + a + |id| < |url| {
      assert url[b..][0] == url[start + a + |id|];
    } else if start + |id| < |t| {
      assert t[start + |id|] == url[start + a + |id|];
    }
  }

  lemma SliceOfSlice(s: string, a: nat, b: nat, i: nat, j: nat)
    requires a <= b <= |s| && i <= j <= b - a
    ensures s[a..b][i..j] == s[a + i..a + j]
  {
    assert forall k :: 0 <= k < j - i ==> s[a..b][i..j][k] == s[a + i..a + j][k];
  }
}

=== FILE: poll.dfy ===
/** One run of the recently-played polling job
    (src/app/api/jobs/poll-recently-played/route.ts).

    The job checks the cron key, selects the connections in the 45-day
    active window, and for each of them in turn: finds the user's newest
    token (refreshing it when it has expired), fetches the recently-played
    items, records every item that is not already stored within five
    minutes for the same connection and track, replaces the connection's
    sessions by the ones derived from all its plays, and stamps the
    connection as polled. Spotify is a parameter: one `Upstream` per
    connection says how the token refresh ends and what the
    recently-played endpoint answers for a given access token. */
module PollRecentlyPlayed {
  import opened Common
  import opened Store
  import Sessions

  const DEDUP_WINDOW_MS: int := 5 * 60 * 1000

  datatype RecentItem = RecentItem(trackId: string, durationMs: nat, playedAt: int)

  /** The recently-played endpoint's answer: its items, or a thrown error. */
  datatype Fetch = Fetched(items: seq<RecentItem>) | Threw

  datatype RefreshReply = Refreshed(accessToken: string, expiresInSeconds: int) | RefreshFailed

  datatype Upstream = Upstream(refresh: RefreshReply, recentlyPlayed: string -> Fetch)

  datatype Summary = Summary(connectionsProcessed: nat, playsAdded: nat, sessionsDerived: nat, errors: nat)

  datatype Response = Unauthorized | Completed(summary: Summary)

  datatype PollResult = PollResult(response: Response, db: Db)

  // ---------------------------------------------------------------------
  // Deduplication

  /** `findFirst` with connection, track and `playedAt` in
      [t - 5 min, t + 5 min], both ends inclusive: same connection and
      track, at most five minutes apart either way. */
  function IsNear(p: Play, connectionId: string, trackId: string, t: int): (r: bool)
    ensures r <==> (p.connectionId == connectionId && p.trackId == trackId
      && (if p.playedAt <= t then t - p.playedAt else p.playedAt - t) <= DEDUP_WINDOW_MS)
  {
    p.connectionId == connectionId && p.trackId == trackId
    && t - DEDUP_WINDOW_MS <= p.playedAt <= t + DEDUP_WINDOW_MS
  }

  predicate AlreadyRecorded(plays: seq<Play>, connectionId: string, item: RecentItem) {
    exists i :: 0 <= i < |plays| && IsNear(plays[i], connectionId, item.trackId, item.playedAt)
  }

  /** One item of the loop: skipped when a nearby play of the same track
      is stored, otherwise stored with the playlist-match flag. */
  function RecordPlay(plays: seq<Play>, connectionId: string, playlistTracks: set<string>, item: RecentItem): (r: seq<Play>)
    ensures |r| == |plays| <==> AlreadyRecorded(plays, connectionId, item)
    ensures |r| == |plays| || |r| == |plays| + 1
    ensures r[..|plays|] == plays
    ensures |r| > |plays| ==>
      && r[|plays|].connectionId == connectionId
      && r[|plays|].trackId == item.trackId
      && r[|plays|].playedAt == item.playedAt
      && r[|plays|].durationMs == item.durationMs
      && (r[|plays|].matchedPlaylist <==> item.trackId in playlistTracks)
  {
    if AlreadyRecorded(plays, connectionId, item) then plays
    else plays + [Play(connectionId, item.trackId, item.playedAt, item.durationMs, item.trackId in playlistTracks)]
  }

  datatype Recorded = Recorded(plays: seq<Play>, added: nat)

  /** The item loop: later items see the plays stored for earlier ones. */
  function RecordPlays(plays: seq<Play>, connectionId: string, playlistTracks: set<string>, items: seq<RecentItem>): (r: Recorded)
    ensures |r.plays| == |plays| + r.added
    ensures r.plays[..|plays|] == plays
    ensures forall i :: |plays| <= i < |r.plays| ==>
      r.plays[i].connectionId == connectionId && (r.plays[i].matchedPlaylist <==> r.plays[i].trackId in playlistTracks)
    ensures forall j :: 0 <= j < |items| ==> AlreadyRecorded(r.plays, connectionId, items[j])
    decreases |items|
  {
    if |items| == 0 then Recorded(plays, 0)
    else
      var next := RecordPlay(plays, connectionId, playlistTracks, items[0]);
      var rest := RecordPlays(next, connectionId, playlistTracks, items[1..]);
      assert rest.plays[..|plays|] == rest.plays[..|next|][..|plays|];
      assert AlreadyRecorded(next, connectionId, items[0]);
      var w :| 0 <= w < |next| && IsNear(next[w], connectionId, items[0].trackId, items[0].playedAt);
      assert rest.plays[w] == next[w];
      assert forall j :: 1 <= j < |items| ==> items[j] == items[1..][j - 1];
      Recorded(rest.plays, (|next| - |plays|) + rest.added)
  }

  /** No two stored plays of one connection and track lie within five
      minutes of each other. */
  ghost predicate NoNearDuplicates(plays: seq<Play>) {
    forall i, j :: 0 <= i < j < |plays| ==>
      !IsNear(plays[i], plays[j].connectionId, plays[j].trackId, plays[j].playedAt)
  }

  lemma {:induction false} RecordPlaysKeepsNoNearDuplicates(
    plays: seq<Play>, connectionId: string, playlistTracks: set<string>, items: seq<RecentItem>)
    requires NoNearDuplicates(plays)
    ensures NoNearDuplicates(RecordPlays(plays, connectionId, playlistTracks, items).plays)
    decreases |items|
  {
    if |items| > 0 {
      var next := RecordPlay(plays, connectionId, playlistTracks, items[0]);
      if |next| > |plays| {
        forall i, j | 0 <= i < j < |next|
          ensures !IsNear(next[i], next[j].connectionId, next[j].trackId, next[j].playedAt)
        {
          if j < |plays| {
            assert next[i] == plays[i] && next[j] == plays[j];
          } else {
            assert next[i] == plays[i];
          }
        }
      }
      RecordPlaysKeepsNoNearDuplicates(next, connectionId, playlistTracks, items[1..]);
    }
  }

  lemma {:induction false} RecordingRecordedItemsAddsNothing(
    plays: seq<Play>, connectionId: string, playlistTracks: set<string>, items: seq<RecentItem>)
    requires forall j :: 0 <= j < |items| ==> AlreadyRecorded(plays, connectionId, items[j])
    ensures RecordPlays(plays, connectionId, playlistTracks, items) == Recorded(plays, 0)
    decreases |items|
  {
    if |items| > 0 {
      assert forall j :: 1 <= j < |items| ==> items[j] == items[1..][j - 1];
      RecordingRecordedItemsAddsNothing(plays, connectionId, playlistTracks, items[1..]);
    }
  }

  /** Feeding the same batch a second time stores nothing more. */
  lemma RecordingABatchTwiceAddsNothing(
    plays: seq<Play>, connectionId: string, playlistTracks: set<string>, items: seq<RecentItem>)
    ensures var once := RecordPlays(plays, connectionId, playlistTracks, items);
      RecordPlays(once.plays, connectionId, playlistTracks, items) == Recorded(once.plays, 0)
  {
    var once := RecordPlays(plays, connectionId, playlistTracks, items);
    RecordingRecordedItemsAddsNothing(once.plays, connectionId, playlistTracks, items);
  }

  // ---------------------------------------------------------------------
  // Per-connection processing

  /** `tokens: { orderBy: { createdAt: 'desc' }, take: 1 }`: the user's
      newest token; among tokens created at the same instant the one stored
      first is taken. */
  function NewestToken(tokens: seq<OAuthToken>, userId: string): (r: Option<OAuthToken>)
    ensures r.Some? ==> r.value in tokens && r.value.spotifyUserId == userId
    ensures r.Some? ==> forall i :: 0 <= i < |tokens| && tokens[i].spotifyUserId == userId ==>
      tokens[i].createdAt <= r.value.createdAt
    ensures r.None? <==> forall i :: 0 <= i < |tokens| ==> tokens[i].spotifyUserId != userId
    decreases |tokens|
  {
    if |tokens| == 0 then None
    else
      var rest := NewestToken(tokens[1..], userId);
      if tokens[0].spotifyUserId != userId then rest
      else if rest.Some? && rest.value.createdAt > tokens[0].createdAt then rest
      else Some(tokens[0])
  }

  /** `oAuthToken.update({ where: { id } })` after a successful refresh. */
  function UpdateToken(tokens: seq<OAuthToken>, id: string, accessToken: string, expiresAt: int): (r: seq<OAuthToken>)
    ensures |r| == |tokens|
    ensures forall i :: 0 <= i < |tokens| ==>
      r[i] == if tokens[i].id == id then tokens[i].(accessToken := accessToken, expiresAt := expiresAt) else tokens[i]
  {
    seq(|tokens|, i requires 0 <= i < |tokens| =>
      if tokens[i].id == id then tokens[i].(accessToken := accessToken, expiresAt := expiresAt) else tokens[i])
  }

  /** The access token the recently-played request carries, as written:
      the token row read before the refresh, so after a refresh it is the
      expired one. */
  function AccessTokenAsWritten(token: OAuthToken, now: int, reply: RefreshReply): string {
    token.accessToken
  }

  /** The access token the request is evidently meant to carry: the
      refreshed one when a refresh has just succeeded. */
  function AccessTokenForFetch(token: OAuthToken, now: int, reply: RefreshReply): string {
    if token.expiresAt <= now && reply.Refreshed? then reply.accessToken else token.accessToken
  }

  /** Which request the job makes: the one the route makes, carrying the
      token read before the refresh, or the corrected one. */
  datatype TokenUse = AsWritten | Corrected

  function RequestToken(use: TokenUse, token: OAuthToken, now: int, reply: RefreshReply): string {
    match use
    case AsWritten => AccessTokenAsWritten(token, now, reply)
    case Corrected => AccessTokenForFetch(token, now, reply)
  }

  /** After a successful refresh the stored row holds the new access token;
      the request as written carries the old one, the corrected request
      the one that is now stored. */
  lemma StaleTokenAfterRefresh(tokens: seq<OAuthToken>, k: nat, now: int, newAccess: string, expiresIn: int)
    requires k < |tokens| && tokens[k].expiresAt <= now && tokens[k].accessToken != newAccess
    ensures var t := tokens[k];
      var stored := UpdateToken(tokens, t.id, newAccess, now + expiresIn * 1000)[k];
      && AccessTokenAsWritten(t, now, Refreshed(newAccess, expiresIn)) != stored.accessToken
      && AccessTokenForFetch(t, now, Refreshed(newAccess, expiresIn)) == stored.accessToken
  {
  }

  /** The branch a connection's processing ended in. Only `RefreshError`
      and `FetchError` count as errors; the skips end the iteration with
      `continue`. */
  datatype Path = SkippedNoToken | RefreshError | FetchError | SkippedNoPlays | SkippedNoLink | Polled

  predicate IsError(p: Path) {
    p == RefreshError || p == FetchError
  }

  /** The token has expired and Spotify refuses to refresh it. */
  predicate RefreshFails(t: OAuthToken, now: int, up: Upstream) {
    t.expiresAt <= now && up.refresh.RefreshFailed?
  }

  /** What the recently-played endpoint answers to the job's request. */
  function Answer(t: OAuthToken, now: int, up: Upstream, use: TokenUse): Fetch {
    up.recentlyPlayed(RequestToken(use, t, now, up.refresh))
  }

  /** The branch a connection ends in, decided by the token snapshot, the
      link table, the clock and Spotify's answers alone: the plays and
      sessions stored so far play no part in it. */
  function PathOf(token: Option<OAuthToken>, c: Connection, links: seq<TrackingLink>, now: int, up: Upstream, use: TokenUse): Path {
    match token
    case None => SkippedNoToken
    case Some(t) =>
      if RefreshFails(t, now, up) then RefreshError
      else match Answer(t, now, up, use)
        case Threw => FetchError
        case Fetched(items) =>
          if |items| == 0 then SkippedNoPlays
          else if FindLinkById(links, c.linkId).None? then SkippedNoLink
          else Polled
  }

  datatype ConnectionOutcome = ConnectionOutcome(path: Path, db: Db, playsAdded: nat, sessionsDerived: nat)

  /** The plays stored for one connection. */
  function BelongsTo(connectionId: string): Play -> bool {
    (p: Play) => p.connectionId == connectionId
  }

  function PlaysOfConnection(plays: seq<Play>, connectionId: string): seq<Play> {
    Filter(plays, BelongsTo(connectionId))
  }

  /** `{ playedAt, durationMs: play.durationMs || 0 }` for each play. */
  function PlayDataOf(plays: seq<Play>): (r: seq<Sessions.PlayData>)
    ensures |r| == |plays|
    ensures forall i :: 0 <= i < |plays| ==> r[i] == Sessions.PlayData(plays[i].playedAt, plays[i].durationMs)
  {
    seq(|plays|, i requires 0 <= i < |plays| => Sessions.PlayData(plays[i].playedAt, plays[i].durationMs))
  }

  /** The track ids of a playlist; a link always has its playlist, so the
      empty set only stands in for a dangling reference. */
  function PlaylistTracks(playlists: seq<Playlist>, playlistId: string): set<string> {
    match FindPlaylistById(playlists, playlistId)
    case Some(p) => p.trackIds
    case None => {}
  }

  /** `userConnection.update({ data: { lastPolledAt: new Date() } })`. */
  function MarkPolled(conns: seq<Connection>, id: string, now: int): (r: seq<Connection>)
    ensures |r| == |conns|
    ensures forall i :: 0 <= i < |conns| ==>
      r[i] == if conns[i].id == id then conns[i].(lastPolledAt := Some(now)) else conns[i]
  {
    seq(|conns|, i requires 0 <= i < |conns| =>
      if conns[i].id == id then conns[i].(lastPolledAt := Some(now)) else conns[i])
  }

  /** The body of the per-connection `try`. `token` is the newest token as
      read when the connections were selected; `use` says which access
      token the recently-played request carries. */
  function ProcessConnection(db: Db, token: Option<OAuthToken>, c: Connection, now: int, up: Upstream, use: TokenUse): (r: ConnectionOutcome)
    ensures r.path == PathOf(token, c, db.links, now, up, use)
    ensures r.path == SkippedNoToken <==> token.None?
    ensures r.path == RefreshError <==> token.Some? && RefreshFails(token.value, now, up)
    ensures r.path == FetchError <==>
      token.Some? && !RefreshFails(token.value, now, up) && Answer(token.value, now, up, use).Threw?
    ensures r.path == SkippedNoPlays <==>
      token.Some? && !RefreshFails(token.value, now, up) && Answer(token.value, now, up, use) == Fetched([])
    ensures r.path == SkippedNoLink <==>
      && token.Some? && !RefreshFails(token.value, now, up)
      && Answer(token.value, now, up, use).Fetched? && |Answer(token.value, now, up, use).items| > 0
      && FindLinkById(db.links, c.linkId).None?
    ensures r.path != Polled ==>
      && r.db.plays == db.plays && r.db.sessions == db.sessions && r.db.connections == db.connections
      && r.playsAdded == 0 && r.sessionsDerived == 0
    ensures r.path == Polled ==>
      var own := PlaysOfConnection(r.db.plays, c.id);
      && r.db.sessions == db.sessions[c.id := Sessions.DeriveSessions(PlayDataOf(own))]
      && r.sessionsDerived == |r.db.sessions[c.id]|
      && r.db.connections == MarkPolled(db.connections, c.id, now)
    ensures |r.db.plays| == |db.plays| + r.playsAdded && r.db.plays[..|db.plays|] == db.plays
    ensures forall i :: |db.plays| <= i < |r.db.plays| ==> r.db.plays[i].connectionId == c.id
    ensures r.db.tokens == if token.Some? && token.value.expiresAt <= now && up.refresh.Refreshed?
      then UpdateToken(db.tokens, token.value.id, up.refresh.accessToken, now + up.refresh.expiresInSeconds * 1000)
      else db.tokens
    ensures r.db.links == db.links && r.db.playlists == db.playlists && r.db.userDays == db.userDays
    ensures r.db.linkDays == db.linkDays && r.db.users == db.users
  {
    match token
    case None => ConnectionOutcome(SkippedNoToken, db, 0, 0)
    case Some(t) =>
      var expired := t.expiresAt <= now;
      if expired && up.refresh.RefreshFailed? then ConnectionOutcome(RefreshError, db, 0, 0)
      else
        var db1 := if expired
          then db.(tokens := UpdateToken(db.tokens, t.id, up.refresh.accessToken, now + up.refresh.expiresInSeconds * 1000))
          else db;
        match up.recentlyPlayed(RequestToken(use, t, now, up.refresh))
        case Threw => ConnectionOutcome(FetchError, db1, 0, 0)
        case Fetched(items) =>
          if |items| == 0 then ConnectionOutcome(SkippedNoPlays, db1, 0, 0)
          else
            match FindLinkById(db1.links, c.linkId)
            case None => ConnectionOutcome(SkippedNoLink, db1, 0, 0)
            case Some(link) => RecordAndDerive(db1, c, link, items, now)
  }

  /** The polled path: record the batch against the link's playlist,
      re-derive the connection's sessions from all its plays, and stamp it
      as polled. */
  function RecordAndDerive(db: Db, c: Connection, link: TrackingLink, items: seq<RecentItem>, now: int): (r: ConnectionOutcome)
    requires |items| > 0
    ensures r.path == Polled
    ensures var own := PlaysOfConnection(r.db.plays, c.id);
      && r.db.sessions == db.sessions[c.id := Sessions.DeriveSessions(PlayDataOf(own))]
      && r.sessionsDerived == |r.db.sessions[c.id]|
      && r.db.connections == MarkPolled(db.connections, c.id, now)
    ensures |r.db.plays| == |db.plays| + r.playsAdded && r.db.plays[..|db.plays|] == db.plays
    ensures forall i :: |db.plays| <= i < |r.db.plays| ==> r.db.plays[i].connectionId == c.id
    ensures r.db == db.(plays := r.db.plays, sessions := r.db.sessions, connections := r.db.connections)
  {
    var tracks := PlaylistTracks(db.playlists, link.playlistId);
    var rec := RecordPlays(db.plays, c.id, tracks, items);
    var own := PlaysOfConnection(rec.plays, c.id);
    var derived := Sessions.DeriveSessions(PlayDataOf(own));
    PolledConnectionHasPlays(db, c, tracks, items);
    ConnectionOutcome(
      Polled,
      db.(plays := rec.plays, sessions := db.sessions[c.id := derived], connections := MarkPolled(db.connections, c.id, now)),
      rec.added,
      |derived|)
  }

  /** A polled connection always has a play of its own when its sessions are
      derived, since every fetched item is stored or already was: the
      source's `plays.length > 0` test never fails on that path. */
  lemma PolledConnectionHasPlays(db: Db, c: Connection, playlistTracks: set<string>, items: seq<RecentItem>)
    requires |items| > 0
    ensures |PlaysOfConnection(RecordPlays(db.plays, c.id, playlistTracks, items).plays, c.id)| > 0
  {
    var rec := RecordPlays(db.plays, c.id, playlistTracks, items);
    assert AlreadyRecorded(rec.plays, c.id, items[0]);
    var w :| 0 <= w < |rec.plays| && IsNear(rec.plays[w], c.id, items[0].trackId, items[0].playedAt);
    assert rec.plays[w] in PlaysOfConnection(rec.plays, c.id);
  }

  /** The stale request loses a whole batch: when Spotify rejects the
      expired token and answers the refreshed one, the job as written counts
      an error and stores no play, where the corrected job polls. */
  lemma StaleTokenFailsTheConnection(db: Db, t: OAuthToken, c: Connection, now: int,
                                     newAccess: string, expiresIn: int, items: seq<RecentItem>)
    requires t.expiresAt <= now && t.accessToken != newAccess && |items| > 0
    requires FindLinkById(db.links, c.linkId).Some?
    ensures var up := Upstream(Refreshed(newAccess, expiresIn), (a: string) => if a == newAccess then Fetched(items) else Threw);
      && ProcessConnection(db, Some(t), c, now, up, AsWritten).path == FetchError
      && ProcessConnection(db, Some(t), c, now, up, AsWritten).db.plays == db.plays
      && ProcessConnection(db, Some(t), c, now, up, Corrected).path == Polled
  {
  }

  /** The corrected request carries the access token that the token row
      holds once the job has written a refresh back (or held all along). */
  lemma CorrectedRequestCarriesStoredToken(db: Db, k: nat, c: Connection, now: int, up: Upstream)
    requires k < |db.tokens| && !RefreshFails(db.tokens[k], now, up)
    ensures var r := ProcessConnection(db, Some(db.tokens[k]), c, now, up, Corrected);
      k < |r.db.tokens| && RequestToken(Corrected, db.tokens[k], now, up.refresh) == r.db.tokens[k].accessToken
  {
    var t := db.tokens[k];
    if t.expiresAt <= now {
      var updated := UpdateToken(db.tokens, t.id, up.refresh.accessToken, now + up.refresh.expiresInSeconds * 1000);
      assert updated[k].accessToken == up.refresh.accessToken;
    }
  }

  // ---------------------------------------------------------------------
  // The sweep

  datatype SweepState = SweepState(db: Db, playsAdded: nat, sessionsDerived: nat, errors: nat)

  /** The connections whose processing ends in an error, and those that
      are polled, as decided from the snapshot. */
  function ErrorFor(tokensAtSelect: seq<OAuthToken>, links: seq<TrackingLink>, now: int,
                    upstream: string -> Upstream, use: TokenUse): Connection -> bool {
    (c: Connection) => IsError(PathOf(NewestToken(tokensAtSelect, c.spotifyUserId), c, links, now, upstream(c.id), use))
  }

  function PolledFor(tokensAtSelect: seq<OAuthToken>, links: seq<TrackingLink>, now: int,
                     upstream: string -> Upstream, use: TokenUse): Connection -> bool {
    (c: Connection) => PathOf(NewestToken(tokensAtSelect, c.spotifyUserId), c, links, now, upstream(c.id), use) == Polled
  }

  /** The `for` loop over the selected connections; tokens come from the
      snapshot `tokensAtSelect` taken with the connections. */
  function Sweep(tokensAtSelect: seq<OAuthToken>, db: Db, conns: seq<Connection>, now: int,
                 upstream: string -> Upstream, use: TokenUse): (r: SweepState)
    ensures r.errors == |Filter(conns, ErrorFor(tokensAtSelect, db.links, now, upstream, use))|
    ensures |r.db.plays| == |db.plays| + r.playsAdded && r.db.plays[..|db.plays|] == db.plays
    ensures r.db.links == db.links && r.db.playlists == db.playlists
    decreases |conns|
  {
    if |conns| == 0 then SweepState(db, 0, 0, 0)
    else
      var c := conns[0];
      var o := ProcessConnection(db, NewestToken(tokensAtSelect, c.spotifyUserId), c, now, upstream(c.id), use);
      var rest := Sweep(tokensAtSelect, o.db, conns[1..], now, upstream, use);
      assert rest.db.plays[..|db.plays|] == rest.db.plays[..|o.db.plays|][..|db.plays|];
      SweepState(
        rest.db,
        o.playsAdded + rest.playsAdded,
        o.sessionsDerived + rest.sessionsDerived,
        (if IsError(o.path) then 1 else 0) + rest.errors)
  }

  /** Connection ids are pairwise different. */
  ghost predicate DistinctIds(conns: seq<Connection>) {
    forall i, j :: 0 <= i < j < |conns| ==> conns[i].id != conns[j].id
  }

  lemma {:induction false} FilterKeepsDistinctIds(conns: seq<Connection>, p: Connection -> bool)
    requires DistinctIds(conns)
    ensures DistinctIds(Filter(conns, p))
    decreases |conns|
  {
    if |conns| > 0 {
      var tail := conns[1..];
      assert DistinctIds(tail) by {
        forall i, j | 0 <= i < j < |tail|
          ensures tail[i].id != tail[j].id
        {
          assert tail[i] == conns[i + 1] && tail[j] == conns[j + 1];
        }
      }
      FilterKeepsDistinctIds(tail, p);
      var f := Filter(tail, p);
      forall j | 0 <= j < |f|
        ensures f[j].id != conns[0].id
      {
        var k :| 0 <= k < |tail| && tail[k] == f[j];
        assert tail[k] == conns[k + 1];
      }
    }
  }

  /** The number of sessions stored for the given connections. */
  function StoredSessionCount(sessions: map<string, seq<Sessions.ListeningSession>>, conns: seq<Connection>): nat
    decreases |conns|
  {
    if |conns| == 0 then 0
    else (if conns[0].id in sessions then |sessions[conns[0].id]| else 0) + StoredSessionCount(sessions, conns[1..])
  }

  /** Processing one connection touches neither the sessions nor the plays
      of any other connection. */
  lemma ProcessConnectionLeavesOthersAlone(db: Db, token: Option<OAuthToken>, c: Connection, now: int,
                                           up: Upstream, use: TokenUse, id: string)
    requires id != c.id
    ensures var r := ProcessConnection(db, token, c, now, up, use);
      && (id in r.db.sessions <==> id in db.sessions)
      && (id in db.sessions ==> r.db.sessions[id] == db.sessions[id])
      && PlaysOfConnection(r.db.plays, id) == PlaysOfConnection(db.plays, id)
  {
    var r := ProcessConnection(db, token, c, now, up, use);
    AppendedPlaysOfOthers(db.plays, r.db.plays, c.id, id);
  }

  /** Appending plays of one connection leaves the plays of every other
      connection as they were. */
  lemma AppendedPlaysOfOthers(plays: seq<Play>, extended: seq<Play>, owner: string, id: string)
    requires id != owner
    requires |plays| <= |extended| && extended[..|plays|] == plays
    requires forall i :: |plays| <= i < |extended| ==> extended[i].connectionId == owner
    ensures PlaysOfConnection(extended, id) == PlaysOfConnection(plays, id)
  {
    var added := extended[|plays|..];
    assert extended == plays + added;
    FilterConcat(plays, added, BelongsTo(id));
    FilterNone(added, BelongsTo(id));
  }

  /** A sweep touches neither the sessions nor the plays of a connection
      it does not visit. */
  lemma {:induction false} SweepLeavesOthersAlone(tokensAtSelect: seq<OAuthToken>, db: Db, conns: seq<Connection>,
                                                  now: int, upstream: string -> Upstream, use: TokenUse, id: string)
    requires forall i :: 0 <= i < |conns| ==> conns[i].id != id
    ensures var r := Sweep(tokensAtSelect, db, conns, now, upstream, use);
      && (id in r.db.sessions <==> id in db.sessions)
      && (id in db.sessions ==> r.db.sessions[id] == db.sessions[id])
      && PlaysOfConnection(r.db.plays, id) == PlaysOfConnection(db.plays, id)
    decreases |conns|
  {
    if |conns| > 0 {
      var c := conns[0];
      var token := NewestToken(tokensAtSelect, c.spotifyUserId);
      var o := ProcessConnection(db, token, c, now, upstream(c.id), use);
      ProcessConnectionLeavesOthersAlone(db, token, c, now, upstream(c.id), use, id);
      SweepLeavesOthersAlone(tokensAtSelect, o.db, conns[1..], now, upstream, use, id);
    }
  }

  /** The sessions stored for a connection are the ones derived from all
      its stored plays. */
  ghost predicate DerivedFromPlays(sessions: map<string, seq<Sessions.ListeningSession>>, plays: seq<Play>, id: string) {
    id in sessions && sessions[id] == Sessions.DeriveSessions(PlayDataOf(PlaysOfConnection(plays, id)))
  }

  /** With distinct connection ids, the sessions a sweep reports as derived
      are exactly the sessions it leaves stored for the polled connections,
      and each polled connection's sessions are those derived from all its
      plays as they stand at the end of the sweep. */
  lemma {:induction false} SweepCountsDerivedSessions(tokensAtSelect: seq<OAuthToken>, db: Db, conns: seq<Connection>,
                                                      now: int, upstream: string -> Upstream, use: TokenUse)
    requires DistinctIds(conns)
    ensures var r := Sweep(tokensAtSelect, db, conns, now, upstream, use);
      var polled := Filter(conns, PolledFor(tokensAtSelect, db.links, now, upstream, use));
      && r.sessionsDerived == StoredSessionCount(r.db.sessions, polled)
      && (forall i :: 0 <= i < |polled| ==> DerivedFromPlays(r.db.sessions, r.db.plays, polled[i].id))
    decreases |conns|
  {
    if |conns| > 0 {
      var c := conns[0];
      var o := ProcessConnection(db, NewestToken(tokensAtSelect, c.spotifyUserId), c, now, upstream(c.id), use);
      DistinctTail(conns);
      SweepCountsDerivedSessions(tokensAtSelect, o.db, conns[1..], now, upstream, use);
      SweepHeadStep(tokensAtSelect, db, conns, now, upstream, use);
    }
  }

  /** The tail of a sequence with distinct ids has distinct ids, none of
      them the head's. */
  lemma DistinctTail(conns: seq<Connection>)
    requires |conns| > 0 && DistinctIds(conns)
    ensures DistinctIds(conns[1..])
    ensures forall i :: 0 <= i < |conns[1..]| ==> conns[1..][i].id != conns[0].id
  {
    var tail := conns[1..];
    forall i, j | 0 <= i < j < |tail|
      ensures tail[i].id != tail[j].id
    {
      assert tail[i] == conns[i + 1] && tail[j] == conns[j + 1];
    }
    forall i | 0 <= i < |tail|
      ensures tail[i].id != conns[0].id
    {
      assert tail[i] == conns[i + 1];
    }
  }

  /** The inductive step of `SweepCountsDerivedSessions`: the head's
      outcome joins the count and the stored sessions of the rest. */
  lemma SweepHeadStep(tokensAtSelect: seq<OAuthToken>, db: Db, conns: seq<Connection>,
                      now: int, upstream: string -> Upstream, use: TokenUse)
    requires |conns| > 0
    requires forall i :: 0 <= i < |conns[1..]| ==> conns[1..][i].id != conns[0].id
    requires var c := conns[0];
      var o := ProcessConnection(db, NewestToken(tokensAtSelect, c.spotifyUserId), c, now, upstream(c.id), use);
      var rest := Sweep(tokensAtSelect, o.db, conns[1..], now, upstream, use);
      var polled := Filter(conns[1..], PolledFor(tokensAtSelect, o.db.links, now, upstream, use));
      && rest.sessionsDerived == StoredSessionCount(rest.db.sessions, polled)
      && (forall i :: 0 <= i < |polled| ==> DerivedFromPlays(rest.db.sessions, rest.db.plays, polled[i].id))
    ensures var r := Sweep(tokensAtSelect, db, conns, now, upstream, use);
      var polled := Filter(conns, PolledFor(tokensAtSelect, db.links, now, upstream, use));
      && r.sessionsDerived == StoredSessionCount(r.db.sessions, polled)
      && (forall i :: 0 <= i < |polled| ==> DerivedFromPlays(r.db.sessions, r.db.plays, polled[i].id))
  {
    var c := conns[0];
    var tail := conns[1..];
    var o := ProcessConnection(db, NewestToken(tokensAtSelect, c.spotifyUserId), c, now, upstream(c.id), use);
    var rest := Sweep(tokensAtSelect, o.db, tail, now, upstream, use);
    var pol := PolledFor(tokensAtSelect, db.links, now, upstream, use);
    SweepUnfold(tokensAtSelect, db, conns, now, upstream, use);
    if o.path == Polled {
      SweepLeavesOthersAlone(tokensAtSelect, o.db, tail, now, upstream, use, c.id);
      PolledStep(c, o.db.sessions, o.db.plays, rest.db.sessions, rest.db.plays, o.sessionsDerived, rest.sessionsDerived,
                 Filter(tail, pol));
    }
  }

  /** One step of the sweep: the head's outcome, whether it counts as
      polled, and what it adds to the derived count. */
  lemma SweepUnfold(tokensAtSelect: seq<OAuthToken>, db: Db, conns: seq<Connection>,
                    now: int, upstream: string -> Upstream, use: TokenUse)
    requires |conns| > 0
    ensures var c := conns[0];
      var o := ProcessConnection(db, NewestToken(tokensAtSelect, c.spotifyUserId), c, now, upstream(c.id), use);
      var rest := Sweep(tokensAtSelect, o.db, conns[1..], now, upstream, use);
      var r := Sweep(tokensAtSelect, db, conns, now, upstream, use);
      var pol := PolledFor(tokensAtSelect, db.links, now, upstream, use);
      && r.db == rest.db && r.sessionsDerived == o.sessionsDerived + rest.sessionsDerived
      && o.db.links == db.links
      && Filter(conns, pol) == (if o.path == Polled then [c] + Filter(conns[1..], pol) else Filter(conns[1..], pol))
      && (o.path != Polled ==> o.sessionsDerived == 0)
      && (o.path == Polled ==> DerivedFromPlays(o.db.sessions, o.db.plays, c.id) && o.sessionsDerived == |o.db.sessions[c.id]|)
  {
  }

  /** One polled connection in front of the rest of the sweep: its count
      and its stored sessions join those of the rest. */
  lemma PolledStep(c: Connection, sessions: map<string, seq<Sessions.ListeningSession>>, plays: seq<Play>,
                   final: map<string, seq<Sessions.ListeningSession>>, finalPlays: seq<Play>,
                   derived: nat, restDerived: nat, restPolled: seq<Connection>)
    requires DerivedFromPlays(sessions, plays, c.id) && derived == |sessions[c.id]|
    requires c.id in final && final[c.id] == sessions[c.id]
    requires PlaysOfConnection(finalPlays, c.id) == PlaysOfConnection(plays, c.id)
    requires restDerived == StoredSessionCount(final, restPolled)
    requires forall i :: 0 <= i < |restPolled| ==> DerivedFromPlays(final, finalPlays, restPolled[i].id)
    ensures derived + restDerived == StoredSessionCount(final, [c] + restPolled)
    ensures forall i :: 0 <= i < |[c] + restPolled| ==> DerivedFromPlays(final, finalPlays, ([c] + restPolled)[i].id)
  {
    var all := [c] + restPolled;
    assert all[1..] == restPolled;
    forall i | 0 <= i < |all|
      ensures DerivedFromPlays(final, finalPlays, all[i].id)
    {
      if i > 0 {
        assert all[i] == restPolled[i - 1];
      }
    }
  }

  /** `POST` of the polling job. */
  function Poll(db: Db, cronKey: Option<string>, secret: Option<string>, now: int,
                upstream: string -> Upstream, use: TokenUse): (r: PollResult)
    ensures !CronKeyAccepted(cronKey, secret) <==> r.response == Unauthorized
    ensures r.response == Unauthorized ==> r.db == db
    ensures r.response.Completed? ==>
      var s := r.response.summary;
      var active := Filter(db.connections, (c: Connection) => InActiveWindow(c, now));
      && s.connectionsProcessed == |active|
      && s.errors == |Filter(active, ErrorFor(db.tokens, db.links, now, upstream, use))|
      && |r.db.plays| == |db.plays| + s.playsAdded
      && r.db.plays[..|db.plays|] == db.plays
  {
    if !CronKeyAccepted(cronKey, secret) then PollResult(Unauthorized, db)
    else
      var active := Filter(db.connections, (c: Connection) => InActiveWindow(c, now));
      var s := Sweep(db.tokens, db, active, now, upstream, use);
      PollResult(Completed(Summary(|active|, s.playsAdded, s.sessionsDerived, s.errors)), s.db)
  }

  /** With unique connection ids, the summary's `sessionsDerived` is the
      number of sessions stored for the polled connections, each of which
      holds the sessions derived from all its plays. */
  lemma PollCountsDerivedSessions(db: Db, cronKey: Option<string>, secret: Option<string>, now: int,
                                  upstream: string -> Upstream, use: TokenUse)
    requires UniqueConnectionIds(db)
    ensures var r := Poll(db, cronKey, secret, now, upstream, use);
      var active := Filter(db.connections, (c: Connection) => InActiveWindow(c, now));
      var polled := Filter(active, PolledFor(db.tokens, db.links, now, upstream, use));
      r.response.Completed? ==>
        && r.response.summary.sessionsDerived == StoredSessionCount(r.db.sessions, polled)
        && (forall i :: 0 <= i < |polled| ==> DerivedFromPlays(r.db.sessions, r.db.plays, polled[i].id))
  {
    var active := Filter(db.connections, (c: Connection) => InActiveWindow(c, now));
    FilterKeepsDistinctIds(db.connections, (c: Connection) => InActiveWindow(c, now));
    SweepCountsDerivedSessions(db.tokens, db, active, now, upstream, use);
  }

  /** Every connection the job selects is active and joined within the
      last 45 days, and every such connection is selected. */
  lemma PollSelectsActiveWindow(db: Db, now: int)
    ensures var active := Filter(db.connections, (c: Connection) => InActiveWindow(c, now));
      && (forall c :: c in active ==> c.isActive && c.connectedAt >= now - 45 * 24 * 60 * 60 * 1000)
      && (forall c :: c in db.connections && c.isActive && c.connectedAt >= now - 45 * 24 * 60 * 60 * 1000 ==> c in active)
  {
  }

  /** A sweep never brings two stored plays of one connection and track
      within five minutes of each other. */
  lemma {:induction false} SweepKeepsNoNearDuplicates(
    tokensAtSelect: seq<OAuthToken>, db: Db, conns: seq<Connection>, now: int, upstream: string -> Upstream, use: TokenUse)
    requires NoNearDuplicates(db.plays)
    ensures NoNearDuplicates(Sweep(tokensAtSelect, db, conns, now, upstream, use).db.plays)
    decreases |conns|
  {
    if |conns| > 0 {
      var c := conns[0];
      var token := NewestToken(tokensAtSelect, c.spotifyUserId);
      var o := ProcessConnection(db, token, c, now, upstream(c.id), use);
      ProcessConnectionKeepsNoNearDuplicates(db, token, c, now, upstream(c.id), use);
      SweepKeepsNoNearDuplicates(tokensAtSelect, o.db, conns[1..], now, upstream, use);
    }
  }

  lemma ProcessConnectionKeepsNoNearDuplicates(db: Db, token: Option<OAuthToken>, c: Connection, now: int, up: Upstream, use: TokenUse)
    requires NoNearDuplicates(db.plays)
    ensures NoNearDuplicates(ProcessConnection(db, token, c, now, up, use).db.plays)
  {
    var r := ProcessConnection(db, token, c, now, up, use);
    if r.path == Polled {
      var t := token.value;
      var fetch := up.recentlyPlayed(RequestToken(use, t, now, up.refresh));
      var link := FindLinkById(db.links, c.linkId).value;
      RecordPlaysKeepsNoNearDuplicates(db.plays, c.id, PlaylistTracks(db.playlists, link.playlistId), fetch.items);
    }
  }
}

=== FILE: retention.dfy ===
/** The retention sweep (src/app/api/jobs/retention-sweep/route.ts): after
    the cron-key check, every active connection that joined before the
    45-day cutoff is marked inactive with its end set to now. */
module RetentionSweep {
  import opened Common
  import opened Store

  datatype Response = Unauthorized | NothingExpired | Expired(processed: nat, cutoff: int)

  datatype SweepResult = SweepResult(response: Response, db: Db)

  /** `isActive: true, connectedAt: { lt: cutoff }`. At one instant an
      active connection is either expired here or in the polling job's
      window, never both: one cutoff, `lt` here, `gte` there. */
  function IsExpired(c: Connection, now: int): (r: bool)
    ensures r <==> c.isActive && !InActiveWindow(c, now)
  {
    c.isActive && c.connectedAt < RetentionCutoff(now)
  }

  function ExpiredIds(conns: seq<Connection>, now: int): (ids: set<string>)
    ensures forall i :: 0 <= i < |conns| && IsExpired(conns[i], now) ==> conns[i].id in ids
    ensures forall id :: id in ids ==> exists i :: 0 <= i < |conns| && IsExpired(conns[i], now) && conns[i].id == id
  {
    set i | 0 <= i < |conns| && IsExpired(conns[i], now) :: conns[i].id
  }

  /** `updateMany({ where: { id: { in: ids } }, data: { isActive: false, endAt: new Date() } })`. */
  function Deactivate(conns: seq<Connection>, ids: set<string>, now: int): (r: seq<Connection>)
    ensures |r| == |conns|
    ensures forall i :: 0 <= i < |conns| ==>
      r[i] == if conns[i].id in ids then conns[i].(isActive := false, endAt := Some(now)) else conns[i]
  {
    seq(|conns|, i requires 0 <= i < |conns| =>
      if conns[i].id in ids then conns[i].(isActive := false, endAt := Some(now)) else conns[i])
  }

  /** `POST` of the retention job. `updateResult.count` is the number of
      rows whose id is among the selected ones. */
  function Sweep(db: Db, cronKey: Option<string>, secret: Option<string>, now: int): (r: SweepResult)
    ensures r.response == Unauthorized <==> !CronKeyAccepted(cronKey, secret)
    ensures r.response == Unauthorized || r.response == NothingExpired ==> r.db == db
    ensures r.response == NothingExpired <==>
      CronKeyAccepted(cronKey, secret) && forall c :: c in db.connections ==> !IsExpired(c, now)
    ensures r.db.plays == db.plays && r.db.tokens == db.tokens && |r.db.connections| == |db.connections|
  {
    if !CronKeyAccepted(cronKey, secret) then SweepResult(Unauthorized, db)
    else
      var expired := Filter(db.connections, (c: Connection) => IsExpired(c, now));
      if |expired| == 0 then SweepResult(NothingExpired, db)
      else
        assert expired[0] in db.connections && IsExpired(expired[0], now);
        var ids := ExpiredIds(db.connections, now);
        var count := |Filter(db.connections, (c: Connection) => c.id in ids)|;
        SweepResult(Expired(count, RetentionCutoff(now)), db.(connections := Deactivate(db.connections, ids, now)))
  }

  /** With connection ids unique, the sweep touches exactly the expired
      connections (inactive, ended now) and reports how many there were. */
  lemma SweepExpiresExactlyTheExpired(db: Db, cronKey: Option<string>, secret: Option<string>, now: int)
    requires UniqueConnectionIds(db)
    requires CronKeyAccepted(cronKey, secret)
    ensures var r := Sweep(db, cronKey, secret, now);
      && (forall i :: 0 <= i < |db.connections| ==>
            r.db.connections[i] ==
              if IsExpired(db.connections[i], now)
              then db.connections[i].(isActive := false, endAt := Some(now))
              else db.connections[i])
      && (r.response.Expired? ==>
            r.response.processed == |Filter(db.connections, (c: Connection) => IsExpired(c, now))| > 0)
  {
    var conns := db.connections;
    var ids := ExpiredIds(conns, now);
    forall i | 0 <= i < |conns| && conns[i].id in ids
      ensures IsExpired(conns[i], now)
    {
      var j :| 0 <= j < |conns| && IsExpired(conns[j], now) && conns[j].id == conns[i].id;
      assert i == j;
    }
    SameFilter(conns, (c: Connection) => IsExpired(c, now), (c: Connection) => c.id in ids);
  }

  /** Running the sweep a second time at the same instant finds nothing. */
  lemma SweepIsIdempotent(db: Db, cronKey: Option<string>, secret: Option<string>, now: int)
    requires CronKeyAccepted(cronKey, secret)
    ensures Sweep(Sweep(db, cronKey, secret, now).db, cronKey, secret, now).response == NothingExpired
  {
    var r := Sweep(db, cronKey, secret, now);
    forall c | c in r.db.connections
      ensures !IsExpired(c, now)
    {
      var i :| 0 <= i < |r.db.connections| && r.db.connections[i] == c;
      if r.response.Expired? {
        var ids := ExpiredIds(db.connections, now);
        if db.connections[i].id !in ids {
          assert !IsExpired(db.connections[i], now);
        }
      } else {
        assert c in db.connections;
      }
    }
  }
}

=== FILE: sessions.dfy ===
/** Listening sessions derived from a connection's plays (src/lib/sessions.ts).

    Plays are ordered newest first and scanned once; a play joins the
    session in progress when it lies within thirty minutes of the play
    added just before it, and otherwise closes that session and opens the
    next. The sessions come out newest first and are reversed before they
    are returned. */
module Sessions {
  import opened Common

  const THIRTY_MINUTES_MS: int := 30 * 60 * 1000
  const SUPER_LISTENER_TRACKS: nat := 15
  const MS_PER_MINUTE: int := 60000

  datatype PlayData = PlayData(playedAt: int, durationMs: nat)

  datatype ListeningSession = ListeningSession(
    startedAt: int,
    endedAt: int,
    trackCount: nat,
    totalMinutes: real,
    superListenerHit: bool)

  function PlayedAt(p: PlayData): int { p.playedAt }

  /** `Math.abs(a.playedAt - b.playedAt)`. */
  function Gap(a: PlayData, b: PlayData): nat {
    if a.playedAt >= b.playedAt then a.playedAt - b.playedAt else b.playedAt - a.playedAt
  }

  function MinReal(a: real, b: real): real { if a <= b then a else b }

  /** Minutes credited to one play: `Math.min(d / 60000, d / 60000)`, the
      source's "cap" that compares the duration with itself. */
  function TrackMinutes(p: PlayData): real {
    MinReal(p.durationMs as real / MS_PER_MINUTE as real, p.durationMs as real / MS_PER_MINUTE as real)
  }

  /** `plays.reduce((total, play) => total + trackMinutes, 0)`: a left fold. */
  function SumMinutes(plays: seq<PlayData>): real
    decreases |plays|
  {
    if |plays| == 0 then 0.0
    else SumMinutes(plays[..|plays| - 1]) + TrackMinutes(plays[|plays| - 1])
  }

  /** Total listening time in whole milliseconds, the reference quantity. */
  function TotalMs(plays: seq<PlayData>): nat
    decreases |plays|
  {
    if |plays| == 0 then 0 else plays[0].durationMs + TotalMs(plays[1..])
  }

  lemma {:induction false} TotalMsAppend(a: seq<PlayData>, b: seq<PlayData>)
    ensures TotalMs(a + b) == TotalMs(a) + TotalMs(b)
    decreases |a|
  {
    if |a| > 0 {
      assert (a + b)[0] == a[0];
      assert (a + b)[1..] == a[1..] + b;
      TotalMsAppend(a[1..], b);
    } else {
      assert a + b == b;
    }
  }

  /** The cap is a no-op: the fold adds up exactly duration / 60000 per
      play, which is the total duration in milliseconds over 60000. */
  lemma {:induction false} SumMinutesIsTotalOverMinute(plays: seq<PlayData>)
    ensures SumMinutes(plays) == TotalMs(plays) as real / 60000.0
    decreases |plays|
  {
    if |plays| > 0 {
      var init := plays[..|plays| - 1];
      var last := plays[|plays| - 1];
      SumMinutesIsTotalOverMinute(init);
      assert plays == init + [last];
      TotalMsAppend(init, [last]);
      assert TotalMs([last]) == last.durationMs;
    }
  }

  /** `getTotalPlayDuration`: total minutes of a list of plays. */
  function GetTotalPlayDuration(plays: seq<PlayData>): (r: real)
    ensures r == TotalMs(plays) as real / 60000.0
    ensures r >= 0.0
  {
    SumMinutesIsTotalOverMinute(plays);
    SumMinutes(plays)
  }

  /** `createSessionFromPlays`. The source throws on an empty list; the only
      caller never passes one, so it is a precondition here. The source
      sorts oldest first and reads both ends; this sorts newest first and
      reads both ends the other way round. */
  function CreateSessionFromPlays(plays: seq<PlayData>): (r: ListeningSession)
    requires |plays| > 0
    ensures exists i :: 0 <= i < |plays| && plays[i].playedAt == r.startedAt
    ensures forall i :: 0 <= i < |plays| ==> r.startedAt <= plays[i].playedAt
    ensures exists i :: 0 <= i < |plays| && plays[i].playedAt == r.endedAt
    ensures forall i :: 0 <= i < |plays| ==> plays[i].playedAt <= r.endedAt
    ensures r.trackCount == |plays|
    ensures r.totalMinutes == TotalMs(plays) as real / 60000.0
    ensures r.superListenerHit <==> r.trackCount >= SUPER_LISTENER_TRACKS
  {
    var sorted := SortDesc(plays, PlayedAt);
    SortDescEnds(plays, PlayedAt);
    SumMinutesIsTotalOverMinute(plays);
    ListeningSession(
      sorted[|sorted| - 1].playedAt,
      sorted[0].playedAt,
      |plays|,
      SumMinutes(plays),
      |plays| >= SUPER_LISTENER_TRACKS)
  }

  function Last<T>(s: seq<T>): T
    requires |s| > 0
  {
    s[|s| - 1]
  }

  function Flatten<T>(groups: seq<seq<T>>): seq<T>
    decreases |groups|
  {
    if |groups| == 0 then [] else groups[0] + Flatten(groups[1..])
  }

  /** Every play lies within thirty minutes of the one before it. */
  ghost predicate Chained(g: seq<PlayData>) {
    forall i :: 0 < i < |g| ==> Gap(g[i], g[i - 1]) <= THIRTY_MINUTES_MS
  }

  /** Each group opens more than thirty minutes away from the last play of
      the group before it. */
  ghost predicate Separated(groups: seq<seq<PlayData>>) {
    forall k :: 0 < k < |groups| ==> Apart(groups[k - 1], groups[k])
  }

  ghost predicate Apart(before: seq<PlayData>, after: seq<PlayData>) {
    |before| > 0 && |after| > 0 && Gap(after[0], Last(before)) > THIRTY_MINUTES_MS
  }

  /** The scan of `deriveSessions`: `current` is the session in progress,
      `rest` the plays not yet looked at. */
  function Scan(rest: seq<PlayData>, current: seq<PlayData>): (groups: seq<seq<PlayData>>)
    requires |current| > 0
    requires Chained(current)
    ensures |groups| > 0
    ensures Flatten(groups) == current + rest
    ensures |groups[0]| >= |current| && groups[0][..|current|] == current
    ensures forall k :: 0 <= k < |groups| ==> |groups[k]| > 0 && Chained(groups[k])
    ensures Separated(groups)
    decreases |rest|
  {
    if |rest| == 0 then
      assert Flatten([current]) == current + Flatten([]);
      [current]
    else if Gap(rest[0], Last(current)) <= THIRTY_MINUTES_MS then
      var r := Scan(rest[1..], current + [rest[0]]);
      assert (current + [rest[0]]) + rest[1..] == current + rest;
      assert r[0][..|current| + 1] == current + [rest[0]];
      assert r[0][..|current|] == (r[0][..|current| + 1])[..|current|];
      r
    else
      var tail := Scan(rest[1..], [rest[0]]);
      var r := [current] + tail;
      assert r[1..] == tail;
      assert [rest[0]] + rest[1..] == rest;
      assert tail[0][0] == rest[0];
      r
  }

  /** The groups of a play list ordered newest first. */
  function Groups(sorted: seq<PlayData>): (groups: seq<seq<PlayData>>)
    ensures Flatten(groups) == sorted
    ensures forall k :: 0 <= k < |groups| ==> |groups[k]| > 0 && Chained(groups[k])
    ensures Separated(groups)
    ensures |sorted| == 0 <==> |groups| == 0
  {
    if |sorted| == 0 then []
    else
      assert [sorted[0]] + sorted[1..] == sorted;
      Scan(sorted[1..], [sorted[0]])
  }

  function SessionsOf(groups: seq<seq<PlayData>>): (r: seq<ListeningSession>)
    requires forall k :: 0 <= k < |groups| ==> |groups[k]| > 0
    ensures |r| == |groups|
    ensures forall k :: 0 <= k < |groups| ==> r[k] == CreateSessionFromPlays(groups[k])
    decreases |groups|
  {
    if |groups| == 0 then [] else [CreateSessionFromPlays(groups[0])] + SessionsOf(groups[1..])
  }

  /** `deriveSessions`: each session carries the super-listener flag exactly
      when it holds at least fifteen plays. */
  function DeriveSessions(plays: seq<PlayData>): (r: seq<ListeningSession>)
    ensures forall s :: s in r ==> (s.superListenerHit <==> s.trackCount >= SUPER_LISTENER_TRACKS)
  {
    if |plays| == 0 then []
    else Reverse(SessionsOf(Groups(SortDesc(plays, PlayedAt))))
  }

  function TotalTracks(sessions: seq<ListeningSession>): nat
    decreases |sessions|
  {
    if |sessions| == 0 then 0 else sessions[0].trackCount + TotalTracks(sessions[1..])
  }

  // ---------------------------------------------------------------------
  // Properties of the scan over a newest-first list

  /** Every group is newest first, and a group's last play is no earlier
      than the next group's first. */
  ghost predicate OrderedGroups(groups: seq<seq<PlayData>>) {
    && (forall k :: 0 <= k < |groups| ==> SortedDesc(groups[k], PlayedAt))
    && (forall k :: 0 < k < |groups| ==> NotBefore(groups[k - 1], groups[k]))
  }

  ghost predicate NotBefore(before: seq<PlayData>, after: seq<PlayData>) {
    |before| > 0 && |after| > 0 && Last(before).playedAt >= after[0].playedAt
  }

  /** A scan over a newest-first list yields ordered groups. */
  lemma {:induction false} ScanKeepsOrder(rest: seq<PlayData>, current: seq<PlayData>)
    requires |current| > 0 && Chained(current)
    requires SortedDesc(current, PlayedAt) && SortedDesc(rest, PlayedAt)
    requires |rest| > 0 ==> Last(current).playedAt >= rest[0].playedAt
    ensures OrderedGroups(Scan(rest, current))
    decreases |rest|
  {
    if |rest| > 0 {
      SortedDescTail(rest, PlayedAt);
      if Gap(rest[0], Last(current)) <= THIRTY_MINUTES_MS {
        var next := current + [rest[0]];
        SortedDescAppend(current, rest[0], PlayedAt);
        assert Chained(next) by {
          forall i | 0 < i < |next|
            ensures Gap(next[i], next[i - 1]) <= THIRTY_MINUTES_MS
          {
            if i < |current| {
              assert next[i] == current[i] && next[i - 1] == current[i - 1];
            }
          }
        }
        assert Scan(rest, current) == Scan(rest[1..], next);
        ScanKeepsOrder(rest[1..], next);
      } else {
        ScanKeepsOrder(rest[1..], [rest[0]]);
        var tail := Scan(rest[1..], [rest[0]]);
        var groups := [current] + tail;
        assert tail[0][0] == rest[0];
        assert Scan(rest, current) == groups;
        assert OrderedGroups(tail);
        forall k | 0 <= k < |groups|
          ensures SortedDesc(groups[k], PlayedAt)
        {
          if k > 0 {
            assert groups[k] == tail[k - 1];
          }
        }
        forall k | 0 < k < |groups|
          ensures NotBefore(groups[k - 1], groups[k])
        {
          if k > 1 {
            assert groups[k - 1] == tail[k - 2] && groups[k] == tail[k - 1];
            assert NotBefore(tail[k - 2], tail[k - 1]);
          }
        }
      }
    }
  }

  lemma {:induction false} FlattenLength(groups: seq<seq<PlayData>>)
    ensures |Flatten(groups)| == SumLengths(groups)
    decreases |groups|
  {
    if |groups| > 0 {
      FlattenLength(groups[1..]);
    }
  }

  function SumLengths(groups: seq<seq<PlayData>>): nat
    decreases |groups|
  {
    if |groups| == 0 then 0 else |groups[0]| + SumLengths(groups[1..])
  }

  lemma {:induction false} TotalTracksOfSessions(groups: seq<seq<PlayData>>)
    requires forall k :: 0 <= k < |groups| ==> |groups[k]| > 0
    ensures TotalTracks(SessionsOf(groups)) == SumLengths(groups)
    decreases |groups|
  {
    if |groups| > 0 {
      assert SessionsOf(groups)[1..] == SessionsOf(groups[1..]);
      TotalTracksOfSessions(groups[1..]);
    }
  }

  lemma {:induction false} TotalTracksAppend(a: seq<ListeningSession>, b: seq<ListeningSession>)
    ensures TotalTracks(a + b) == TotalTracks(a) + TotalTracks(b)
    decreases |a|
  {
    if |a| > 0 {
      assert (a + b)[0] == a[0];
      assert (a + b)[1..] == a[1..] + b;
      TotalTracksAppend(a[1..], b);
    } else {
      assert a + b == b;
    }
  }

  lemma {:induction false} TotalTracksReverse(s: seq<ListeningSession>)
    ensures TotalTracks(Reverse(s)) == TotalTracks(s)
    decreases |s|
  {
    if |s| > 0 {
      TotalTracksReverse(s[1..]);
      ReverseCons(s);
      TotalTracksAppend(Reverse(s[1..]), [s[0]]);
    }
  }

  // ---------------------------------------------------------------------
  // Properties of deriveSessions

  /** The grouping that the scan computes over the newest-first plays:
      the groups concatenate back to exactly that list, each group chains
      plays at most thirty minutes apart (exactly thirty joins), and the
      plays at each group boundary lie more than thirty minutes apart. */
  lemma ScanSplitsExactlyAtGaps(plays: seq<PlayData>)
    ensures var sorted := SortDesc(plays, PlayedAt);
      var groups := Groups(sorted);
      && Flatten(groups) == sorted
      && (forall k, i :: 0 <= k < |groups| && 0 < i < |groups[k]| ==>
            Gap(groups[k][i], groups[k][i - 1]) <= THIRTY_MINUTES_MS)
      && (forall k :: 0 < k < |groups| ==> Gap(groups[k][0], Last(groups[k - 1])) > THIRTY_MINUTES_MS)
  {
    var groups := Groups(SortDesc(plays, PlayedAt));
    forall k | 0 < k < |groups|
      ensures Gap(groups[k][0], Last(groups[k - 1])) > THIRTY_MINUTES_MS
    {
      assert Apart(groups[k - 1], groups[k]);
    }
  }

  /** Every play lands in exactly one session. */
  lemma {:induction false} DeriveSessionsCountsEveryPlay(plays: seq<PlayData>)
    ensures TotalTracks(DeriveSessions(plays)) == |plays|
    ensures forall k :: 0 <= k < |DeriveSessions(plays)| ==> DeriveSessions(plays)[k].trackCount >= 1
  {
    if |plays| > 0 {
      var groups := Groups(SortDesc(plays, PlayedAt));
      TotalTracksReverse(SessionsOf(groups));
      TotalTracksOfSessions(groups);
      FlattenLength(groups);
    }
  }

  /** A newest-first group opens at its last play and closes at its first. */
  lemma SessionOfOrderedGroup(g: seq<PlayData>)
    requires |g| > 0 && SortedDesc(g, PlayedAt)
    ensures CreateSessionFromPlays(g).startedAt == Last(g).playedAt
    ensures CreateSessionFromPlays(g).endedAt == g[0].playedAt
  {
    var s := CreateSessionFromPlays(g);
    var i :| 0 <= i < |g| && g[i].playedAt == s.startedAt;
    var j :| 0 <= j < |g| && g[j].playedAt == s.endedAt;
  }

  /** Each session spans from its earliest to its latest play, and a
      session ends more than thirty minutes before the next one starts. */
  ghost predicate Chronological(r: seq<ListeningSession>) {
    && (forall k :: 0 <= k < |r| ==> r[k].startedAt <= r[k].endedAt)
    && (forall k :: 0 < k < |r| ==> r[k - 1].endedAt + THIRTY_MINUTES_MS < r[k].startedAt)
  }

  lemma OrderedGroupsGiveChronologicalSessions(groups: seq<seq<PlayData>>)
    requires forall k :: 0 <= k < |groups| ==> |groups[k]| > 0
    requires OrderedGroups(groups) && Separated(groups)
    ensures Chronological(Reverse(SessionsOf(groups)))
  {
    var ss := SessionsOf(groups);
    forall k | 0 <= k < |ss|
      ensures ss[k].startedAt == Last(groups[k]).playedAt <= groups[k][0].playedAt == ss[k].endedAt
    {
      SessionOfOrderedGroup(groups[k]);
    }
    forall i, j | 0 <= i < j < |ss| && j == i + 1
      ensures ss[j].endedAt + THIRTY_MINUTES_MS < ss[i].startedAt
    {
      assert Apart(groups[i], groups[j]);
      assert NotBefore(groups[i], groups[j]);
    }
    ReversedIsChronological(ss, Reverse(ss));
  }

  /** Sessions listed newest first, each more than thirty minutes after
      the next, read oldest first once reversed. */
  lemma ReversedIsChronological(ss: seq<ListeningSession>, r: seq<ListeningSession>)
    requires |r| == |ss| && forall k :: 0 <= k < |r| ==> r[k] == ss[|ss| - 1 - k]
    requires forall k :: 0 <= k < |ss| ==> ss[k].startedAt <= ss[k].endedAt
    requires forall i, j :: 0 <= i < j < |ss| && j == i + 1 ==> ss[j].endedAt + THIRTY_MINUTES_MS < ss[i].startedAt
    ensures Chronological(r)
  {
    var m := |ss|;
    forall k | 0 < k < |r|
      ensures r[k - 1].endedAt + THIRTY_MINUTES_MS < r[k].startedAt
    {
      var i, j := m - 1 - k, m - k;
      assert r[k - 1] == ss[j] && r[k] == ss[i];
    }
  }

  /** The sessions come out oldest first: each spans from its earliest to
      its latest play, and a session ends more than thirty minutes before
      the next one starts. */
  lemma {:induction false} DeriveSessionsIsChronological(plays: seq<PlayData>)
    ensures Chronological(DeriveSessions(plays))
  {
    if |plays| > 0 {
      var sorted := SortDesc(plays, PlayedAt);
      SortedDescTail(sorted, PlayedAt);
      ScanKeepsOrder(sorted[1..], [sorted[0]]);
      OrderedGroupsGiveChronologicalSessions(Groups(sorted));
    }
  }

  // ---------------------------------------------------------------------
  // isSuperListenerDay

  function HasSuperSession(sessions: seq<ListeningSession>): bool {
    exists k :: 0 <= k < |sessions| && sessions[k].superListenerHit
  }

  /** `isSuperListenerDay`: a super session, or at least fifteen plays. The
      session test adds nothing: a super session holds fifteen of the day's
      plays, so the day qualifies exactly when it has fifteen plays. */
  function IsSuperListenerDay(plays: seq<PlayData>): (r: bool)
    ensures r <==> |plays| >= SUPER_LISTENER_TRACKS
  {
    if |plays| == 0 then false
    else if HasSuperSession(DeriveSessions(plays)) then
      SuperSessionNeedsFifteenPlays(plays);
      true
    else |plays| >= SUPER_LISTENER_TRACKS
  }

  lemma {:induction false} SessionTracksAtMostTotal(sessions: seq<ListeningSession>, k: nat)
    requires k < |sessions|
    ensures sessions[k].trackCount <= TotalTracks(sessions)
    decreases |sessions|
  {
    if k > 0 {
      SessionTracksAtMostTotal(sessions[1..], k - 1);
    }
  }

  /** A super session holds fifteen of the plays it was derived from. */
  lemma SuperSessionNeedsFifteenPlays(plays: seq<PlayData>)
    requires HasSuperSession(DeriveSessions(plays))
    ensures |plays| >= SUPER_LISTENER_TRACKS
  {
    DeriveSessionsCountsEveryPlay(plays);
    SuperSessionHasFifteenTracks(DeriveSessions(plays), |plays|);
  }

  /** A flagged session among correctly flagged ones holds fifteen tracks,
      so the sessions hold at least that many together. */
  lemma SuperSessionHasFifteenTracks(sessions: seq<ListeningSession>, total: nat)
    requires HasSuperSession(sessions)
    requires forall k :: 0 <= k < |sessions| ==>
      (sessions[k].superListenerHit <==> sessions[k].trackCount >= SUPER_LISTENER_TRACKS)
    requires TotalTracks(sessions) == total
    ensures total >= SUPER_LISTENER_TRACKS
  {
    var k :| 0 <= k < |sessions| && sessions[k].superListenerHit;
    SessionTracksAtMostTotal(sessions, k);
  }
}

=== FILE: shortid.dfy ===
/** Tracking-link short ids (src/lib/shortid.ts): ten characters from a
    56-character alphabet without the look-alikes 0, 1, I, O, l and o. */
module ShortId {
  import opened JsString

  /** The characters lo through hi in code order. */
  function Span(lo: char, hi: char): (r: string)
    requires lo <= hi && hi as int < 0xD800
    ensures |r| == hi as int - lo as int + 1
    ensures forall i :: 0 <= i < |r| ==> r[i] as int == lo as int + i
  {
    seq(hi as int - lo as int + 1, i requires 0 <= i <= hi as int - lo as int => (lo as int + i) as char)
  }

  lemma SpanMembers(lo: char, hi: char)
    requires lo <= hi && hi as int < 0xD800
    ensures forall c :: c in Span(lo, hi) <==> lo <= c <= hi
  {
    var r := Span(lo, hi);
    forall c | lo <= c <= hi
      ensures c in r
    {
      assert r[c as int - lo as int] == c;
    }
  }

  /** "23456789ABCDEFGHJKLMNPQRSTUVWXYZabcdefghijkmnpqrstuvwxyz", written
      as its seven runs of consecutive characters. */
  const ALPHABET: string :=
    Span('2', '9') + Span('A', 'H') + Span('J', 'N') + Span('P', 'Z')
    + Span('a', 'k') + Span('m', 'n') + Span('p', 'z')

  const SHORT_ID_LENGTH: nat := 10

  /** The characters the alphabet leaves out. */
  const LOOK_ALIKES: string := "01IOlo"

  function AllInAlphabet(s: string): (r: bool)
    ensures r <==> forall i :: 0 <= i < |s| ==> s[i] in ALPHABET
    decreases |s|
  {
    |s| == 0 || (s[0] in ALPHABET && AllInAlphabet(s[1..]))
  }

  /** `isValidShortId`: a `length` (in UTF-16 code units) of ten, then
      every character of the string in the alphabet. */
  function IsValidShortId(id: string): (r: bool)
    ensures r ==> Utf16Length(id) == SHORT_ID_LENGTH
  {
    if Utf16Length(id) != SHORT_ID_LENGTH then false
    else AllInAlphabet(id)
  }

  /** Digits 2-9 and the letters of both cases, less I, O, l and o. */
  lemma AlphabetMembers()
    ensures forall c :: c in ALPHABET <==>
      ('2' <= c <= '9') || ('A' <= c <= 'Z' && c != 'I' && c != 'O') || ('a' <= c <= 'z' && c != 'l' && c != 'o')
  {
    SpanMembers('2', '9');
    SpanMembers('A', 'H');
    SpanMembers('J', 'N');
    SpanMembers('P', 'Z');
    SpanMembers('a', 'k');
    SpanMembers('m', 'n');
    SpanMembers('p', 'z');
  }

  /** Valid exactly when ten characters long with each one in the
      alphabet; the code-unit length and the character count agree on
      such strings. */
  lemma IsValidShortIdIff(id: string)
    ensures IsValidShortId(id) <==> |id| == SHORT_ID_LENGTH && forall i :: 0 <= i < |id| ==> id[i] in ALPHABET
  {
    AlphabetMembers();
    if forall i :: 0 <= i < |id| ==> id[i] in ALPHABET {
      Utf16LengthOfBmp(id);
    }
  }

  /** The alphabet is in strictly ascending code order. */
  lemma AlphabetAscends()
    ensures forall i :: 0 < i < |ALPHABET| ==> ALPHABET[i - 1] < ALPHABET[i]
  {
  }

  lemma {:induction false} AscendingIsDistinct(s: string, i: nat, j: nat)
    requires forall k :: 0 < k < |s| ==> s[k - 1] < s[k]
    requires i < j < |s|
    ensures s[i] < s[j]
    decreases j - i
  {
    if i + 1 < j {
      AscendingIsDistinct(s, i, j - 1);
    }
  }

  /** 56 pairwise different characters, none of them a look-alike. */
  lemma AlphabetFacts()
    ensures |ALPHABET| == 56
    ensures forall i, j :: 0 <= i < j < |ALPHABET| ==> ALPHABET[i] != ALPHABET[j]
    ensures forall c :: c in LOOK_ALIKES ==> c !in ALPHABET
  {
    AlphabetAscends();
    AlphabetMembers();
    forall i, j | 0 <= i < j < |ALPHABET|
      ensures ALPHABET[i] != ALPHABET[j]
    {
      AscendingIsDistinct(ALPHABET, i, j);
    }
  }

  /** An id holding a look-alike character is never valid. */
  lemma LookAlikeIsInvalid(id: string, i: nat)
    requires i < |id| && id[i] in LOOK_ALIKES
    ensures !IsValidShortId(id)
  {
    AlphabetFacts();
  }

  /** A wrong length is always invalid. */
  lemma WrongLengthIsInvalid(id: string)
    requires Utf16Length(id) != SHORT_ID_LENGTH
    ensures !IsValidShortId(id)
  {
  }

  /** `createTrackingLinkId` with the generator's randomness as `pick`:
      position i takes the alphabet character `pick(i)` selects. */
  function CreateTrackingLinkId(pick: nat -> nat): (r: string)
    ensures IsValidShortId(r)
    ensures |r| == SHORT_ID_LENGTH
  {
    var r := seq(SHORT_ID_LENGTH, i requires 0 <= i => ALPHABET[pick(i) % |ALPHABET|]);
    IsValidShortIdIff(r);
    r
  }
}

=== FILE: store.dfy ===
/** The persisted entities the routes read and write, held in memory.
    Each table is a sequence in insertion order; derived sessions are kept
    per connection id, since they are always replaced as a whole. */
module Store {
  import opened Common
  import opened Time
  import Sessions

  /** Connections older than this leave the active window (45 days). */
  const RETENTION_MS: int := 45 * DAY_MS

  datatype Playlist = Playlist(
    id: string,
    spotifyId: string,
    name: string,
    ownerName: string,
    trackIds: set<string>)

  datatype TrackingLink = TrackingLink(
    id: string,
    slug: string,
    playlistId: string,
    title: Option<string>,
    isActive: bool,
    createdAt: int)

  datatype SpotifyUser = SpotifyUser(
    spotifyUserId: string,
    email: Option<string>,
    country: Option<string>,
    displayName: Option<string>)

  datatype OAuthToken = OAuthToken(
    id: string,
    spotifyUserId: string,
    accessToken: string,
    refreshToken: string,
    expiresAt: int,
    createdAt: int)

  datatype Connection = Connection(
    id: string,
    linkId: string,
    spotifyUserId: string,
    clickId: Option<string>,
    connectedAt: int,
    isActive: bool,
    lastPolledAt: Option<int>,
    endAt: Option<int>)

  datatype Play = Play(
    connectionId: string,
    trackId: string,
    playedAt: int,
    durationMs: nat,
    matchedPlaylist: bool)

  /** A connection's row for one day key. */
  datatype UserDayAggregate = UserDayAggregate(
    connectionId: string,
    day: int,
    superListenerDay: bool,
    followsPlaylist: bool,
    savedAny: bool)

  /** A link's row for one day key. */
  datatype LinkDayAggregate = LinkDayAggregate(
    linkId: string,
    day: int,
    connectionsNew: nat,
    activeListeners: nat,
    tracksPlayed: nat,
    minutesListened: nat,
    superListeners: nat)

  datatype Db = Db(
    playlists: seq<Playlist>,
    links: seq<TrackingLink>,
    users: map<string, SpotifyUser>,
    tokens: seq<OAuthToken>,
    connections: seq<Connection>,
    plays: seq<Play>,
    sessions: map<string, seq<Sessions.ListeningSession>>,
    userDays: seq<UserDayAggregate>,
    linkDays: seq<LinkDayAggregate>)

  /** Connection ids are primary keys. */
  ghost predicate UniqueConnectionIds(db: Db) {
    forall i, j :: 0 <= i < j < |db.connections| ==> db.connections[i].id != db.connections[j].id
  }

  /** The (linkId, spotifyUserId) pair is a unique key of the connection table. */
  ghost predicate OneConnectionPerLinkAndUser(conns: seq<Connection>) {
    forall i, j :: 0 <= i < j < |conns| ==>
      !(conns[i].linkId == conns[j].linkId && conns[i].spotifyUserId == conns[j].spotifyUserId)
  }

  /** The cron-key gate of both job routes, `cronKey !== process.env.CRON_KEY`
      negated: a missing header reads as null and a missing setting as
      undefined, and those two never compare equal, so a request passes only
      when both are present and identical. */
  function CronKeyAccepted(header: Option<string>, secret: Option<string>): (r: bool)
    ensures r <==> secret.Some? && header == secret
  {
    header.Some? && secret.Some? && header.value == secret.value
  }

  /** The cutoff both jobs compute: `Date.now() - 45 * 24 * 60 * 60 * 1000`. */
  function RetentionCutoff(now: int): int {
    now - RETENTION_MS
  }

  /** The filter of the polling job and of the active-listener count:
      `isActive: true, connectedAt: { gte: cutoff }`. */
  predicate InActiveWindow(c: Connection, now: int) {
    c.isActive && c.connectedAt >= RetentionCutoff(now)
  }

  /** `trackingLink.findUnique({ where: { id } })`. */
  function FindLinkById(links: seq<TrackingLink>, id: string): Option<TrackingLink> {
    FindFirst(links, (l: TrackingLink) => l.id == id)
  }

  /** `trackingLink.findUnique({ where: { slug } })`. */
  function FindLinkBySlug(links: seq<TrackingLink>, slug: string): Option<TrackingLink> {
    FindFirst(links, (l: TrackingLink) => l.slug == slug)
  }

  /** The playlist row a link refers to. */
  function FindPlaylistById(playlists: seq<Playlist>, id: string): Option<Playlist> {
    FindFirst(playlists, (p: Playlist) => p.id == id)
  }

  /** `playlist.findUnique({ where: { spotifyId } })`. */
  function FindPlaylistBySpotifyId(playlists: seq<Playlist>, spotifyId: string): Option<Playlist> {
    FindFirst(playlists, (p: Playlist) => p.spotifyId == spotifyId)
  }
}

=== FILE: time.dfy ===
/** Day keys in the Europe/Copenhagen audience timezone (src/lib/time.ts).

    Instants are milliseconds since the epoch, as `Date.getTime()` returns
    them. The two library pieces that the key computation rests on — the
    zone shift of `toZonedTime` and the local-midnight truncation of
    `startOfDay` — are kept abstract in `Zone`; `subDays`/`addDays` become a
    fixed step of `DAY_MS`. */
module Time {
  import opened Common

  const DAY_MS: int := 24 * 60 * 60 * 1000

  /** `shift` stands for `toZonedTime(d, 'Europe/Copenhagen')`,
      `startOfDay` for date-fns' local-midnight truncation. */
  datatype Zone = Zone(shift: int -> int, startOfDay: int -> int)

  function UtcToCopenhagen(z: Zone, d: int): int {
    z.shift(d)
  }

  /** Written in the source as a plain pass-through: no offset is undone. */
  function CopenhagenToUtc(d: int): int {
    d
  }

  function StartOfCopenhagenDay(z: Zone, d: int): int {
    CopenhagenToUtc(z.startOfDay(UtcToCopenhagen(z, d)))
  }

  function TodayCopenhagenKey(z: Zone, now: int): int {
    StartOfCopenhagenDay(z, now)
  }

  function CopenhagenDateKey(z: Zone, d: int): int {
    StartOfCopenhagenDay(z, d)
  }

  function IsTodayInCopenhagen(z: Zone, now: int, d: int): bool {
    TodayCopenhagenKey(z, now) == CopenhagenDateKey(z, d)
  }

  /** The key is the shifted instant truncated to midnight and nothing
      more: the conversion back to UTC leaves every instant as it is, so
      the stored key is local midnight read as if it were a UTC instant. */
  lemma DayKeyAppliesNoInverseShift(z: Zone, d: int)
    ensures forall x :: CopenhagenToUtc(x) == x
    ensures CopenhagenDateKey(z, d) == z.startOfDay(z.shift(d))
    ensures TodayCopenhagenKey(z, d) == CopenhagenDateKey(z, d)
  {
  }

  /** `isTodayInCopenhagen` compares the two truncated shifted instants;
      the current instant is always today. */
  lemma IsTodayMeansSameKey(z: Zone, now: int, d: int)
    ensures IsTodayInCopenhagen(z, now, d) <==> z.startOfDay(z.shift(d)) == z.startOfDay(z.shift(now))
    ensures IsTodayInCopenhagen(z, now, now)
  {
  }

  /** `getLastNDaysCopenhagen`: today minus i days for i = 0 .. n-1,
      collected newest first and then reversed. */
  function LastNDaysCopenhagen(z: Zone, now: int, n: nat): (r: seq<int>)
    ensures |r| == n
    ensures forall k :: 0 <= k < n ==> r[k] == TodayCopenhagenKey(z, now) - (n - 1 - k) * DAY_MS
    ensures n > 0 ==> r[n - 1] == TodayCopenhagenKey(z, now)
    ensures forall k :: 0 < k < n ==> r[k] == r[k - 1] + DAY_MS
  {
    var today := TodayCopenhagenKey(z, now);
    Reverse(seq(n, i => today - i * DAY_MS))
  }

  /** `getNextNDaysCopenhagen`: today plus i days for i = 1 .. n. */
  function NextNDaysCopenhagen(z: Zone, now: int, n: nat): (r: seq<int>)
    ensures |r| == n
    ensures forall k :: 0 <= k < n ==> r[k] == TodayCopenhagenKey(z, now) + (k + 1) * DAY_MS
  {
    var today := TodayCopenhagenKey(z, now);
    seq(n, i => today + (i + 1) * DAY_MS)
  }

  /** The last m keys followed by the next n keys form one run of m + n
      consecutive days with no key repeated. */
  lemma LastAndNextDaysAreContiguous(z: Zone, now: int, m: nat, n: nat)
    ensures var all := LastNDaysCopenhagen(z, now, m) + NextNDaysCopenhagen(z, now, n);
      forall k :: 0 < k < |all| ==> all[k] == all[k - 1] + DAY_MS
    ensures forall i, j :: 0 <= i < m && 0 <= j < n ==>
      LastNDaysCopenhagen(z, now, m)[i] < NextNDaysCopenhagen(z, now, n)[j]
  {
    var last := LastNDaysCopenhagen(z, now, m);
    var next := NextNDaysCopenhagen(z, now, n);
    var all := last + next;
    forall k | 0 < k < |all|
      ensures all[k] == all[k - 1] + DAY_MS
    {
      if k == m {
        assert all[k] == next[0];
        assert all[k - 1] == last[m - 1];
      }
    }
  }

  /** The calendar date of an instant in UTC, as `toISOString()` cut at
      'T' names it, numbered as whole days since 1970-01-01 (floor
      division, so instants before the epoch fall on earlier days). */
  function UtcDateOf(ms: int): (d: int)
    ensures d * DAY_MS <= ms < d * DAY_MS + DAY_MS
  {
    ms / DAY_MS
  }
}
